=== FILE: README.md ===
# firebudget core, modelled in Dafny

firebudget is a personal-finance app. A React frontend lets a user register, sign in, and connect bank accounts through the Pluggy Connect widget. A Rocket backend stores the connected items, accounts and transactions in Postgres. It keeps them in sync with the vendor through webhooks and a scheduler, and answers aggregate queries. This project models the logic of both halves as pure Dafny functions and proves the behaviour the code promises.

The modules follow the program:

- **Frontend**
  - `ConnectModal`: the widget bootstrap effect, the script loader, the token choice, reveal and teardown priorities, and the widget callbacks.
  - `RegisterForm`: the sign-up validator and submit flow.
  - `Calendar`: month navigation, the year select and the day grid. It builds on `Gregorian`.
  - `Currency`: the amount formatter.
  - `Settings`: the settings handlers.
  - `AuthStore`: the auth context over `localStorage`.
  - `ProtectedRoute`: the route guard's render decision.
- **Vendor clients**
  - `TokenCache`: the cache rule shared by both clients, with `u64` arithmetic written out.
  - `PluggyClient` and `BelvoClient`: each client's policy, URLs and headers.
  - `QueryStrings`: the shared query and URL builders; each vendor client supplies its `Routes` (paths and filter names).
- **Backend routes**
  - `Config`: `AppConfig::from_env`.
  - `RequestGuard`: the `Authorization` header guard.
  - `TransactionsApi`: owner-scoped transaction CRUD.
  - `AccountsApi`: balance, expense and account-list aggregates.
  - `AuthApi`: register and login.
  - `ItemSync`: item creation and the vendor sync.
  - `Webhooks`: webhook handling.
- **Shared helpers**: `Wrappers` (Option and Result), `Strings` and `Uuids` (the 128-bit identifiers and their text forms).

Modelling choices:

- **Money** is integer cents. Every `f64`/`Decimal` amount becomes an `int`.
- **Database tables.**
  - The sync's tables are maps keyed by the vendor id its `ON CONFLICT` clauses name.
  - The CRUD and aggregate routes see tables as sequences of rows in storage order.
  - The two views are separate models of the same tables.
- **Parameters.** Foreign code and the environment are parameters:
  - JWT signing and decoding;
  - argon2 hashing and verification;
  - base64 and `JSON.parse`/`JSON.stringify`;
  - what the vendor answers;
  - clocks, today's date and generated UUIDs. The token cache takes one parameter per clock read. A vendor sync takes one `now` and one `today` for all of its reads (see `ItemSync.Sync` under Left out).
- **Text** is a sequence of Unicode scalar values. Where the source counts or slices in another unit, the model does so explicitly: Rust's `len()` and `&s[..n]` work on UTF-8 bytes (`Strings.Utf8Len`, `Strings.BytePrefix`), and JavaScript's `length` counts UTF-16 code units (`Strings.Utf16Len`).

## Model

| member | source | states |
|---|---|---|
| ConnectModal.FirstPresent | frontend/src/components/PluggyConnectModal.jsx:76-87 | the chosen method is present and no candidate before it is; none exactly when every candidate is absent |
| ConnectModal.SelectToken | frontend/src/components/PluggyConnectModal.jsx:36-40 | `accessToken` when truthy, else `connectToken` when truthy, else nothing |
| ConnectModal.LoadScript | frontend/src/components/PluggyConnectModal.jsx:137-163 | an existing tag resolves without appending; otherwise one tag is appended; the class becomes defined only by a load that registers it; a load error or a load without the class rejects |
| ConnectModal.ErrorText | frontend/src/components/PluggyConnectModal.jsx:107 | a non-empty message is shown as is; an empty one gives the non-empty default |
| ConnectModal.Effect | frontend/src/components/PluggyConnectModal.jsx:10-112 | closed: nothing happens; open: the loader runs only while the flag is unset, and the flag is set only after success; a fresh load leaves the page and the appended tag exactly as the loader does; the token is requested exactly when the script is loaded and the class defined; a widget is built exactly when a token is selected, and the handle is set exactly when its constructor does not throw; at most one reveal method is called, the first present, and none after a throwing constructor; the error shown is the loader's rejection, the token request's message, the missing-token text, the constructor's or the reveal's message, in that order of precedence, and none on success; loading always ends false |
| ConnectModal.CleanupDuringLoad | frontend/src/components/PluggyConnectModal.jsx:64-134 | a cleanup that runs while the effect awaits finds no handle and calls nothing; the widget built afterwards is still set up and stays up |
| ConnectModal.Cleanup | frontend/src/components/PluggyConnectModal.jsx:115-134 | the handle is dropped; at most one teardown method is called, the first present, and none without a handle |
| ConnectModal.CleanupIdempotent | frontend/src/components/PluggyConnectModal.jsx:115-134 | a second cleanup calls nothing and changes nothing |
| ConnectModal.TeardownPriority | frontend/src/components/PluggyConnectModal.jsx:119-125 | `close` when present, else `destroy`, else `hide`, else nothing |
| ConnectModal.RevealPriority | frontend/src/components/PluggyConnectModal.jsx:76-87 | the k-th reveal candidate is chosen iff it is present and all before it are absent |
| ConnectModal.OnCallback | frontend/src/components/PluggyConnectModal.jsx:50-62 | success and close call the parent's `onClose`; an error sets the fixed message and touches nothing else |
| ConnectModal.FailedLoadIsRetried | frontend/src/components/PluggyConnectModal.jsx:21-24 | a failed load leaves the flag unset, so the next opening calls the loader again, which finds the earlier tag and appends nothing |
| ConnectModal.OpenSucceedThenClose | frontend/src/components/PluggyConnectModal.jsx:36-133 | a full session: `open` is called once, success closes the parent, and cleanup calls `close` once |
| RegisterForm.Validate | frontend/src/components/Register.jsx:22-35 | mismatch first, then a `length` below 6 in UTF-16 code units (only for matching passwords), then unaccepted terms (only after both pass); no message exactly when all pass |
| RegisterForm.LengthRuleInCharacters | frontend/src/components/Register.jsx:27 | six or more characters always pass the length rule and fewer than three never do; for text inside the Basic Multilingual Plane the rule is exactly "fewer than six characters" |
| RegisterForm.Submit | frontend/src/components/Register.jsx:18-48 | `register(fullName, email, password)` is called exactly when validation passes; loading is on only around the call; success navigates to /home; failure shows the reply's message |
| RegisterForm.SubmitForgetsPreviousError | frontend/src/components/Register.jsx:20 | the previous error never affects the outcome |
| RegisterForm.MismatchTakesPrecedence | frontend/src/components/Register.jsx:22-25 | a mismatch is reported whatever the terms and length are |
| Calendar.Normalize | frontend/src/components/Calendar.jsx:47-53 | `new Date(y, m, 1)` rolls an out-of-range month into the right year: same absolute month count |
| Calendar.PreviousMonth | frontend/src/components/Calendar.jsx:47-49 | a valid month one step earlier |
| Calendar.NextMonth | frontend/src/components/Calendar.jsx:51-53 | a valid month one step later |
| Calendar.NavigationWraps | frontend/src/components/Calendar.jsx:47-53 | January goes back to December of the previous year; December goes forward to January of the next |
| Calendar.MonthCountDetermines | frontend/src/components/Calendar.jsx:47-53 | a valid view is determined by its absolute month count |
| Calendar.NavigationRoundTrips | frontend/src/components/Calendar.jsx:47-53 | next after previous, and previous after next, give back the same month |
| Calendar.YearsRange | frontend/src/components/Calendar.jsx:61 | the dropdown offers exactly 2020..2030 |
| Calendar.SelectYear | frontend/src/components/Calendar.jsx:192-196 | only the year changes; the month is kept |
| Calendar.FirstDay | frontend/src/components/Calendar.jsx:24 | weekday of the 1st, below 7 |
| Calendar.MonthLength | frontend/src/components/Calendar.jsx:25 | the month's Gregorian length, 28 to 31 |
| Calendar.BuildGrid | frontend/src/components/Calendar.jsx:28-38 | the loops produce `FirstDay` blanks followed by 1..MonthLength in order |
| Calendar.GridShape | frontend/src/components/Calendar.jsx:28-38 | between 28 and 37 cells; day d sits at index FirstDay + d − 1; days ascend |
| Calendar.SundayColumn | frontend/src/components/Calendar.jsx:41-45 | a cell is a Sunday iff it holds a day and its index is ≡ 0 (mod 7); blanks never are |
| Calendar.InitialGrid | frontend/src/components/Calendar.jsx:9-25 | November 2025 opens with 6 blanks and has 30 days |
| Gregorian.DaysInMonth | frontend/src/components/Calendar.jsx:25 | February has 29 days exactly in leap years; April, June, September and November have 30; the rest have 31 |
| Gregorian.Weekday | frontend/src/components/Calendar.jsx:24-44 | a weekday number 0..6 with 0 = Sunday |
| Gregorian.WeekdayFromFirst | frontend/src/components/Calendar.jsx:41-45 | the weekday of day d is the first's weekday shifted by d − 1 (mod 7) |
| Gregorian.KnownWeekdays | frontend/src/components/Calendar.jsx:9-24 | the day count agrees with known weekdays (1970-01-01 Thursday, 2025-11-01 Saturday) |
| Gregorian.ParseIsoDate | backend/src/routes/items.rs:169 | only ten-character `YYYY-MM-DD` texts naming a real date parse |
| Gregorian.FormatThenParse | backend/src/routes/items.rs:169 | every real date with a four-digit year parses from its zero-padded rendering |
| Gregorian.ParseThenFormat | backend/src/routes/items.rs:169 | whatever parses is the zero-padded rendering of the date it gives |
| Currency.FormatCurrency | frontend/src/components/Transactions.jsx:116-119 | a missing amount is exactly what renders "A definir" |
| Currency.ToFixed2 | frontend/src/components/Transactions.jsx:118 | `toFixed(2)` of a cent amount holds exactly one '.' |
| Currency.Rendering | frontend/src/components/Transactions.jsx:118 | "R$ ", then sign and integer part, then ',', then exactly two digits |
| Currency.CurrencyShape | frontend/src/components/Transactions.jsx:118 | a present amount renders with the prefix, exactly one ',' and no '.' |
| Currency.ParseCurrency | frontend/src/components/Transactions.jsx:118 | the reader accepts only texts starting with "R$ " |
| Currency.FormatParseRoundTrip | frontend/src/components/Transactions.jsx:118 | reading the rendered text back gives the cent value |
| Currency.BillsRender | frontend/src/components/Transactions.jsx:68-109 | the bill with a null amount renders "A definir"; 99.90 renders "R$ 99,90" |
| Settings.Toggle | frontend/src/components/Settings.jsx:34-39 | flips key k and no other key |
| Settings.Extensional | frontend/src/components/Settings.jsx:9-15 | a notification record is determined by its five flags |
| Settings.ToggleTwice | frontend/src/components/Settings.jsx:34-39 | toggling a key twice restores the record |
| Settings.ToggleCommutes | frontend/src/components/Settings.jsx:34-39 | toggles of two keys commute |
| Settings.ChangeSecurity | frontend/src/components/Settings.jsx:41-46 | sets the named field to the value and keeps the other two |
| Settings.ChangeSecurityIdempotent | frontend/src/components/Settings.jsx:41-46 | applying a security change twice equals applying it once |
| Settings.ChangePreferences | frontend/src/components/Settings.jsx:432-458 | each select replaces exactly its own field |
| Settings.Apply | frontend/src/components/Settings.jsx:34-46 | each handler touches only its own record |
| Settings.InitialState | frontend/src/components/Settings.jsx:9-27 | every notification is on except SMS; two-factor and biometric are off; the timeout is 30, one of the offered choices; the preferences are the first option of each select |
| AuthStore.Restore | frontend/src/contexts/AuthContext.jsx:11-37 | dev mode gives the fixed dev user without reading storage; otherwise authenticated iff both keys are set and the user parses; a parse failure removes both keys; loading ends false |
| AuthStore.MessageOr | frontend/src/contexts/AuthContext.jsx:87-106 | the server's non-empty message, else the fallback |
| AuthStore.Login | frontend/src/contexts/AuthContext.jsx:39-90 | admin/admin succeeds with no API call; otherwise a granted reply stores both keys and signs in; a refusal answers the server message or "Erro ao fazer login" and changes nothing; the catch's admin branch is never taken |
| AuthStore.Register | frontend/src/contexts/AuthContext.jsx:92-109 | success stores both keys and signs in; failure answers the message or "Erro ao criar conta" and changes nothing |
| AuthStore.Logout | frontend/src/contexts/AuthContext.jsx:111-116 | both keys removed, every other key kept, no user, not authenticated |
| AuthStore.LoginSurvivesReload | frontend/src/contexts/AuthContext.jsx:22-66 | after a successful login, a reload restores the same user, authenticated |
| AuthStore.LogoutSurvivesReload | frontend/src/contexts/AuthContext.jsx:111-116 | after a logout, a reload restores nobody |
| AuthStore.RefusedLoginKeepsStorage | frontend/src/contexts/AuthContext.jsx:85-89 | a refused login leaves storage as it was and answers an error |
| ProtectedRoute.Decide | frontend/src/components/ProtectedRoute.jsx:11-27 | children iff dev mode, or loaded and authenticated; placeholder iff not dev and loading; redirect iff not dev, loaded and unauthenticated |
| ProtectedRoute.Guard | frontend/src/components/ProtectedRoute.jsx:7-28 | the store's page shows iff dev mode, or loaded and authenticated; the placeholder iff not dev and loading; the redirect iff not dev, loaded and unauthenticated |
| ProtectedRoute.RestoredStoreDecides | frontend/src/components/ProtectedRoute.jsx:15-27 | after the restore, the placeholder never shows, and the page shows exactly for a restored session |
| ProtectedRoute.FreshAndLoggedOut | frontend/src/components/ProtectedRoute.jsx:15-25 | before the restore the placeholder shows; after a logout the guard redirects |
| TokenCache.CastToU64 | backend/src/pluggy/client.rs:64 | `as u64` wraps modulo 2^64 and keeps in-range values |
| TokenCache.Authenticate | backend/src/pluggy/client.rs:24-70 | reused iff both fields are set and the first clock read is below expiry − margin; the subtraction panics below the margin; a fetch stores the token and the second clock read (taken after the vendor answers) plus the lifetime, panicking on u64 overflow; a refusal answers "Erro na autenticação: …" and leaves the cache |
| TokenCache.FetchedThenReused | backend/src/pluggy/client.rs:26-67 | a fetched token is reused by any later check whose clock read is before expiry minus the margin, the expiry counted from the read after the fetch |
| TokenCache.StaleIsRefetched | backend/src/pluggy/client.rs:33-55 | at or past expiry minus the margin a request is made; a refusal keeps the stale entry |
| TokenCache.NegativeLifetimeOverflows | backend/src/pluggy/client.rs:60-64 | a negative lifetime wraps, and the addition overflows |
| PluggyClient.Authenticate | backend/src/pluggy/client.rs:24-70 | the shared rule with a 300 s margin and a 7200 s default |
| PluggyClient.DefaultKeyWindow | backend/src/pluggy/client.rs:33-60 | a key without a stated lifetime is reused for 6900 s and no longer |
| PluggyClient.FilteredUrls | backend/src/pluggy/client.rs:133-209 | with every filter given: "/accounts?itemId=…", and "/transactions" and "/balances" with "?itemId=…&accountId=…" |
| PluggyClient.LoggedKey | backend/src/pluggy/client.rs:237 | the slice is bounded by the byte length, so a key of at most 20 bytes is shown whole; otherwise it is the longest prefix within 20 bytes, and the slice panics exactly when no prefix is exactly 20 bytes long; an ASCII key never panics and shows its first 20 characters |
| PluggyClient.AsciiLogged | backend/src/pluggy/client.rs:237 | an ASCII key's first 20 bytes are its first 20 characters |
| PluggyClient.TestConnectionMessage | backend/src/pluggy/client.rs:227-230 | the fixed text, the longest key prefix within 20 bytes and "..."; no message exactly where the key slice panics; for an ASCII key the first 20 characters |
| BelvoClient.Authenticate | backend/src/belvo/client.rs:24-70 | the shared rule with a 60 s margin and a 3600 s default |
| BelvoClient.DefaultTokenWindow | backend/src/belvo/client.rs:32-60 | a token without a stated lifetime is reused for 3540 s and no longer |
| BelvoClient.Credentials | backend/src/belvo/client.rs:38 | `secret_id:secret_password` |
| BelvoClient.CredentialsSplit | backend/src/belvo/client.rs:38 | with no ':' in the id, the first ':' splits the id from the password |
| BelvoClient.BasicHeader | backend/src/belvo/client.rs:37-46 | "Basic " followed by the encoding of `secret_id:secret_password` |
| BelvoClient.BearerHeader | backend/src/belvo/client.rs:72-75 | "Bearer " followed by the token |
| BelvoClient.FilteredUrls | backend/src/belvo/client.rs:133-209 | with every filter given: "/api/accounts/?link=…", and "/api/transactions/" and "/api/balances/" with "?link=…&account=…" |
| BelvoClient.TestConnectionAsWritten | backend/src/belvo/client.rs:227-230 | panics exactly when no prefix of the token is exactly 20 bytes long, so always for a token under 20 bytes; otherwise shows that 20-byte prefix |
| BelvoClient.ShortTokenPanics | backend/src/belvo/client.rs:229 | the token "abc" panics |
| BelvoClient.TestConnection | backend/src/belvo/client.rs:227-230 | never panics; shows the longest prefix of the token within 20 bytes, which is the first 20 characters of an ASCII token |
| BelvoClient.TestConnectionAgrees | backend/src/belvo/client.rs:229 | agrees with the as-written probe wherever that one does not panic, and always answers |
| QueryStrings.Params | backend/src/pluggy/client.rs:163-169 | one parameter per present filter, in order; none exactly when every filter is absent |
| QueryStrings.WithQuery | backend/src/pluggy/client.rs:171-173 | the bare URL without parameters; otherwise '?' and the parameters joined by '&' |
| QueryStrings.TwoFiltersParams | backend/src/belvo/client.rs:163-169 | the first filter comes before the second, and only present ones appear |
| QueryStrings.AccountsUrl | backend/src/pluggy/client.rs:133-137 | the accounts path, followed by `?` and the item filter only when an item id is given |
| QueryStrings.TransactionsUrl | backend/src/pluggy/client.rs:161-173 | starts with the path; the bare path exactly when neither filter is given, and otherwise '?' then the item filter before the account filter, joined by '&' |
| QueryStrings.BalancesUrl | backend/src/pluggy/client.rs:197-209 | the balances path followed by exactly the transactions URL's query |
| QueryStrings.QuerySplits | backend/src/pluggy/client.rs:171-173 | splitting the query at '&' recovers the parameters |
| Strings.Utf8LenAscii | backend/src/pluggy/client.rs:229 | `len()` equals the character count exactly for ASCII text |
| Strings.Utf8LenPrefix | backend/src/pluggy/client.rs:229 | a prefix never has more bytes than the whole |
| Strings.BytePrefix | backend/src/belvo/client.rs:229 | a successful `&s[..n]` is a prefix of exactly n bytes; it panics only when no prefix is exactly n bytes long |
| Strings.BytePrefixWhole | backend/src/pluggy/client.rs:229 | slicing at the full byte length gives the whole text |
| Strings.PrefixWithin | backend/src/pluggy/client.rs:229 | the longest prefix that fits in n bytes: within the bound, and one more character would exceed it |
| Strings.PrefixWithinWhole | backend/src/pluggy/client.rs:229 | a text within the bound is kept whole |
| Strings.BytePrefixWithin | backend/src/belvo/client.rs:229 | where the byte slice succeeds it is the longest prefix within the bound |
| Strings.PrefixWithinAscii | backend/src/pluggy/client.rs:229 | on ASCII text the byte bound is the character bound |
| Strings.Utf16LenBmp | frontend/src/components/Register.jsx:27 | `length` equals the character count exactly when no character lies outside the Basic Multilingual Plane |
| Strings.ReplaceAll | backend/src/routes/transactions.rs:36 | a replacement no longer than the pattern never lengthens the text; scanning starts at the left, replacing a leading occurrence and keeping any other first character |
| Strings.ReplaceAllAbsent | backend/src/routes/transactions.rs:36 | replacing a pattern that does not occur changes nothing |
| Strings.ReplaceAllKeepsClear | backend/src/routes/transactions.rs:36 | a leading stretch where no occurrence begins is kept as is, and the rest is replaced the same way |
| Strings.ReplaceAllLeading | backend/src/routes/transactions.rs:36 | an occurrence at the start becomes the replacement, and the scan resumes right after it |
| Strings.ReplaceAllOtherChar | backend/src/routes/transactions.rs:36 | a first character that does not start an occurrence is kept, and the scan resumes at the next one |
| Strings.ReplaceAllRepeated | backend/src/routes/transactions.rs:36 | a leading run of n occurrences becomes n replacements |
| Config.Lookup | backend/src/config.rs:37-39 | Some iff the variable is set, with its value |
| Config.FirstMissing | backend/src/config.rs:17-35 | the earliest unset name; none iff all are set |
| Config.BaseUrlFor | backend/src/config.rs:25-29 | "https://api.pluggy.ai" for every environment value |
| Config.FromEnv | backend/src/config.rs:16-52 | fails iff a required variable is unset, naming the first in the order client id, client secret, database URL, JWT secret; on success copies every value unchanged, defaults the environment to "sandbox", and sets each admin field iff its variable is set |
| Config.RequiredOrder | backend/src/config.rs:17-35 | the first missing variable, spelled out in reading order |
| Config.OptionalVarsIrrelevant | backend/src/config.rs:23-39 | optional variables never decide success |
| Config.ClientIdReportedFirst | backend/src/config.rs:17-18 | a missing client id is the error, whatever else is missing |
| Config.MinimalEnvironment | backend/src/config.rs:16-52 | the four required variables alone load, in the sandbox, with no admin |
| Uuids.Format | backend/src/routes/auth.rs:75 | the 8-4-4-4-12 lower-case hyphenated form |
| Uuids.Parse | backend/src/routes/transactions.rs:49 | accepts 32 hex digits, the hyphenated form, the braced form and the URN form |
| Uuids.FormatParse | backend/src/routes/auth.rs:75 | parsing a printed id gives the id back |
| Uuids.ParseFormat | backend/src/routes/transactions.rs:49 | a lower-case hyphenated text parses, and prints back as itself |
| Uuids.FormatInjective | backend/src/routes/auth.rs:75 | distinct ids print differently |
| RequestGuard.FromRequest | backend/src/routes/transactions.rs:30-60 | not exactly one header: Unauthorized; no configuration: InternalServerError; authenticated iff the token decodes and its `sub` parses as a UUID, with that UUID as the user |
| RequestGuard.TokenOf | backend/src/routes/transactions.rs:36 | never longer than the header; a header holding no "Bearer " is kept as is; a leading "Bearer " is dropped and the rest treated the same way |
| RequestGuard.OtherCharKept | backend/src/routes/transactions.rs:36 | a first character that does not start a "Bearer " is kept, and the rest is treated the same way |
| RequestGuard.FirstOccurrenceStripped | backend/src/routes/transactions.rs:36 | text before the first "Bearer " is kept as is, the "Bearer " goes, and the rest is treated the same way |
| RequestGuard.BearerStripped | backend/src/routes/transactions.rs:36 | a space-free token loses exactly its "Bearer " prefix |
| RequestGuard.RepeatedPrefixStripped | backend/src/routes/transactions.rs:36 | a leading run of any number of "Bearer " goes whole: "Bearer Bearer t" carries what "t" carries |
| RequestGuard.SignedTokenAuthenticates | backend/src/routes/transactions.rs:36-50 | a bearer token whose claims name a printed id lets that user in |
| RequestGuard.TwoHeadersRefused | backend/src/routes/transactions.rs:31-34 | two headers are refused |
| TransactionsApi.Owned | backend/src/routes/transactions.rs:77 | exactly the caller's rows, with their multiplicities |
| TransactionsApi.InsertByDate | backend/src/routes/transactions.rs:78 | keeps newest-first order and adds exactly the row |
| TransactionsApi.PrependNewest | backend/src/routes/transactions.rs:78 | a row not older than any other can lead a newest-first list |
| TransactionsApi.SortNewestFirst | backend/src/routes/transactions.rs:78 | a newest-first permutation of the input |
| TransactionsApi.List | backend/src/routes/transactions.rs:64-87 | newest first, a permutation of the caller's rows |
| TransactionsApi.ListIsCallersRows | backend/src/routes/transactions.rs:69-80 | the listing holds every row of the caller as many times as stored, and nothing else |
| TransactionsApi.Create | backend/src/routes/transactions.rs:89-120 | an unused fresh id gives Ok and appends the caller's row with the request's fields and no vendor links; an id clash gives 500 and no change |
| TransactionsApi.Without | backend/src/routes/transactions.rs:129 | nothing is removed exactly when no row has both that id and that owner |
| TransactionsApi.WithoutCounts | backend/src/routes/transactions.rs:129 | every copy of a targeted row goes; every other row stays as often as it was stored |
| TransactionsApi.Delete | backend/src/routes/transactions.rs:122-142 | 404 iff no row matches both id and owner, else 204; exactly the matching rows go |
| TransactionsApi.Edit | backend/src/routes/transactions.rs:155 | amount, date, description, category and currency change; every other field stays |
| TransactionsApi.EditAll | backend/src/routes/transactions.rs:154-156 | the targeted rows are edited; the rest are as they were |
| TransactionsApi.FirstTarget | backend/src/routes/transactions.rs:170 | the first matching row; none iff no row matches |
| TransactionsApi.Update | backend/src/routes/transactions.rs:144-178 | 404 iff no row of the caller has that id; otherwise Ok, with the row returned from the updated table |
| TransactionsApi.OthersUnaffected | backend/src/routes/transactions.rs:98-156 | another user's rows survive a create, update or delete by the caller |
| TransactionsApi.CreateOwned | backend/src/routes/transactions.rs:98 | appending the caller's row leaves others' rows alone |
| TransactionsApi.EditOwned | backend/src/routes/transactions.rs:156 | editing the caller's rows leaves others' rows alone |
| TransactionsApi.WithoutOwned | backend/src/routes/transactions.rs:129 | deleting the caller's row leaves others' rows alone |
| TransactionsApi.DeleteTwice | backend/src/routes/transactions.rs:137-141 | a second delete answers 404 and changes nothing |
| TransactionsApi.UpdateTwice | backend/src/routes/transactions.rs:154-156 | a repeated update changes nothing more |
| TransactionsApi.CreatedIsListed | backend/src/routes/transactions.rs:69-111 | a created row shows up in its owner's listing |
| TransactionsApi.HandleDelete | backend/src/routes/transactions.rs:122-142 | a refused request changes nothing, and a delete never removes a row of anyone but the authenticated caller |
| AccountsApi.ItemsOf | backend/src/routes/accounts.rs:25-26 | exactly the pairs of the account with a stored item of its item id owned by the caller |
| AccountsApi.ItemsOfCounts | backend/src/routes/accounts.rs:25-26 | each matching item row yields the pair as often as it is stored, and any other row never |
| AccountsApi.OwnedAccountJoinsOnce | backend/src/routes/accounts.rs:25-26 | with unique item ids, an account of one of the caller's items joins exactly once, with that item, and any other account not at all |
| AccountsApi.Join | backend/src/routes/accounts.rs:24-26 | exactly the account–item pairs with a matching item id and the caller as owner |
| AccountsApi.JoinCounts | backend/src/routes/accounts.rs:24-26 | an inner join: a matching pair appears as many times as its account row times its item row are stored; any other pair never |
| AccountsApi.JoinSplits | backend/src/routes/accounts.rs:24-26 | the join distributes over the accounts table |
| AccountsApi.SumBalancesSplits | backend/src/routes/accounts.rs:23 | the sum distributes over concatenation |
| AccountsApi.TotalBalance | backend/src/routes/accounts.rs:16-43 | currency BRL; 0 with no joined accounts; non-negative when every balance is; with unique item ids, the sum of the balances of exactly the accounts of the caller's items |
| AccountsApi.OwnedTotal | backend/src/routes/accounts.rs:23-26 | with unique item ids, the joined sum is the sum over the accounts of the caller's items, each counted once |
| AccountsApi.JoinedNonNegative | backend/src/routes/accounts.rs:24-26 | when every stored balance is non-negative, the sum over the caller's joined accounts is non-negative |
| AccountsApi.NonNegativeSum | backend/src/routes/accounts.rs:23 | non-negative balances sum to a non-negative total |
| AccountsApi.TotalBalanceSplits | backend/src/routes/accounts.rs:23-26 | the total of two halves of the table is the sum of their totals |
| AccountsApi.ForeignAccountIgnored | backend/src/routes/accounts.rs:25-26 | an account of someone else's item does not change the caller's total |
| AccountsApi.ResponseOf | backend/src/routes/accounts.rs:178-186 | defaults "Conta sem nome", 0 and "BRL" for missing values; everything else copied |
| AccountsApi.Responses | backend/src/routes/accounts.rs:176-188 | one response per joined row, in order |
| AccountsApi.AccountList | backend/src/routes/accounts.rs:147-191 | every entry is the response, with the route's defaults, of one of the caller's accounts joined with its item; every account of one of the caller's items is listed, with the route's defaults; with unique item ids, exactly one entry per account of the caller's items, in table order |
| AccountsApi.OwnedList | backend/src/routes/accounts.rs:153-188 | with unique item ids, the listed responses are those of the accounts of the caller's items, each once, in table order |
| AccountsApi.BalanceMatchesList | backend/src/routes/accounts.rs:21-188 | the total balance equals the sum of the balances the list shows |
| AccountsApi.ResponsesSum | backend/src/routes/accounts.rs:181 | the defaulted balances sum like the raw ones |
| AccountsApi.ExpenseSum | backend/src/routes/accounts.rs:58-60 | never positive; 0 iff the caller has no negative amount |
| AccountsApi.TotalExpenses | backend/src/routes/accounts.rs:51-77 | currency BRL; never negative; 0 iff there are no expenses; the magnitude of their sum |
| AccountsApi.ExpenseSumSplits | backend/src/routes/accounts.rs:58-60 | the expense sum distributes over the table |
| AccountsApi.TotalExpensesSplits | backend/src/routes/accounts.rs:58-60 | totals add up over the table, and an income changes nothing |
| AccountsApi.EntryOf | backend/src/routes/accounts.rs:124-128 | missing month, year and total become 0, the queried year and 0 |
| AccountsApi.MonthSum | backend/src/routes/accounts.rs:104-109 | never positive; 0 iff the caller spent nothing that month |
| AccountsApi.MonthRows | backend/src/routes/accounts.rs:99-111 | one row per month with spending, ascending, each the month's magnitude |
| AccountsApi.MonthRowsCover | backend/src/routes/accounts.rs:106-109 | a month has a row iff the caller spent in it |
| AccountsApi.HasMonthRowCons | backend/src/routes/accounts.rs:109-110 | a row for an earlier month does not stand for a later one |
| AccountsApi.Entries | backend/src/routes/accounts.rs:122-129 | the defaults applied row by row |
| AccountsApi.MonthlyExpenses | backend/src/routes/accounts.rs:91-132 | the year is the query's, else the current one; months are 1..12 and ascending; each total is the month's spending |
| AccountsApi.MonthlyCovers | backend/src/routes/accounts.rs:99-111 | every month with spending has its entry, and no other month does |
| AccountsApi.MonthsOfOneRow | backend/src/routes/accounts.rs:102-109 | a single row counts in its own month only |
| AccountsApi.MonthsSplit | backend/src/routes/accounts.rs:104-109 | monthly sums distribute over the table |
| AccountsApi.MonthsMakeYear | backend/src/routes/accounts.rs:104-109 | valid dates spread a year's expenses over its twelve months without loss |
| AccountsApi.MonthlyAddsUp | backend/src/routes/accounts.rs:99-129 | the monthly totals add up to the year's spending |
| AccountsApi.RowsAddUp | backend/src/routes/accounts.rs:99-129 | the entries from month `from` add up to those months' spending |
| AuthApi.FindByEmail | backend/src/routes/auth.rs:97-101 | the first row with that email; none iff none has it |
| AuthApi.ClaimsFor | backend/src/routes/auth.rs:69-78 | `sub` reads back as the user id; `iat` is the second clock read and `exp` is 24 h after the first, so exp − iat is at most 24 h when the clock does not run backwards |
| AuthApi.Issue | backend/src/routes/auth.rs:80-87 | the signed token with the user, or 500 with "Erro ao gerar token: " and the error |
| AuthApi.Register | backend/src/routes/auth.rs:29-88 | an existing email gives 409 "Email já cadastrado" with no insert; a hash failure gives 500 with no insert; a free email with a working hasher and an unused id appends exactly the new row holding the hash and answers with its signed token; a taken id gives 500 with no insert |
| AuthApi.Login | backend/src/routes/auth.rs:90-139 | an unknown email is 401 "Email ou senha inválidos"; for a stored user a verified password yields that user's signed token, a mismatch the same 401, an unparsable hash 500 with the parser's error; every 401 carries that same message |
| AuthApi.CredentialErrorsIdentical | backend/src/routes/auth.rs:106-117 | an unknown email and a wrong password get the identical answer |
| AuthApi.RegisterKeepsEmailsUnique | backend/src/routes/auth.rs:44-46 | register never creates a second row for an email |
| AuthApi.RegisterThenLogin | backend/src/routes/auth.rs:57-117 | whoever registers can log in with the same password and gets the same row |
| AuthApi.FindAppended | backend/src/routes/auth.rs:59-99 | a new email is found at the appended row |
| AuthApi.LoginTokenAuthenticates | backend/src/routes/auth.rs:125-138 | the login token lets its user through the request guard |
| ItemSync.CreateItem | backend/src/routes/items.rs:31-74 | a new vendor id gets the caller's row with status "UPDATED"; a known one keeps its id, owner and status and only bumps `updated_at`; the answer echoes the stored row |
| ItemSync.CreateItemAgain | backend/src/routes/items.rs:33-38 | connecting the same item again, by anyone, answers with the same row and keeps its owner |
| ItemSync.SetConnector | backend/src/routes/items.rs:107-111 | the row with that id gets the connector; other rows are unchanged |
| ItemSync.SaveConnector | backend/src/routes/items.rs:104-124 | a failed details request or a missing connector changes nothing; otherwise the connector is written |
| ItemSync.SaveConnectorTwice | backend/src/routes/items.rs:104-124 | writing the connector again changes nothing |
| ItemSync.Refresh | backend/src/routes/items.rs:143-146 | on conflict only balance (missing counts as 0), name and `updated_at` change |
| ItemSync.NewAccount | backend/src/routes/items.rs:141-142 | a new row hangs off the item and already carries what a refresh would write |
| ItemSync.UpsertAccount | backend/src/routes/items.rs:139-160 | keyed by vendor account id: an existing row is refreshed, a new one is inserted, and no other row changes |
| ItemSync.DatePrefix | backend/src/routes/items.rs:169 | the characters of the date's first ten bytes; none (a panic) for a date under ten bytes; for an ASCII date, the first ten characters exactly when there are ten |
| ItemSync.AsciiDatePrefix | backend/src/routes/items.rs:169 | on an ASCII date the byte slice is the character slice, and it panics exactly when the date is shorter than ten |
| ItemSync.TxDate | backend/src/routes/items.rs:169-170 | the sliced date when it parses, otherwise today |
| ItemSync.NewTx | backend/src/routes/items.rs:172-191 | the caller's row for the item and account; a missing status becomes "PENDING" |
| ItemSync.FirstUnsliceable | backend/src/routes/items.rs:169 | the first transaction whose date slice panics; none iff every date slices |
| ItemSync.Inserted | backend/src/routes/items.rs:166-194 | the transactions handled before a slice panic; all of them when none panics |
| ItemSync.ExtendsChain | backend/src/routes/items.rs:179 | insert-only steps compose |
| ItemSync.InsertTransactions | backend/src/routes/items.rs:166-194 | stops exactly at the first date whose slice panics; keeps every stored row unchanged; adds rows exactly under the ids it reaches; each added row is the owner's |
| ItemSync.InsertPresentUnchanged | backend/src/routes/items.rs:179 | transactions already stored are skipped |
| ItemSync.Upserted | backend/src/routes/items.rs:129-195 | the accounts upserted before the loop stops |
| ItemSync.LastWith | backend/src/routes/items.rs:143-146 | the last listing of an account id, whose values stick; present iff the id was listed |
| ItemSync.RefreshesNothing | backend/src/routes/items.rs:129 | an empty account list changes nothing |
| ItemSync.RefreshesStep | backend/src/routes/items.rs:129-160 | one more upsert in front of a run of upserts keeps the run's characterization |
| ItemSync.SyncAccounts | backend/src/routes/items.rs:127-197 | leaves the items table alone; the outcome depends only on the vendor's answers: completed, or stopped at a failed fetch or a date whose slice panics |
| ItemSync.SyncAccountsRefreshes | backend/src/routes/items.rs:129-160 | accounts not listed are untouched; each listed one is present and carries its last listing's balance and name; existing rows keep everything else |
| ItemSync.SyncAccountsExtends | backend/src/routes/items.rs:164-194 | stored transactions are never altered; new rows appear exactly under the vendor ids reached, owned by the user the sync runs for |
| ItemSync.Sync | backend/src/routes/items.rs:77-198 | the connector first, without aborting on failure; a failed account list stops the sync; otherwise the account loop decides the outcome |
| ItemSync.SyncKeepsTransactions | backend/src/routes/items.rs:172-180 | a sync never alters a stored transaction, and every row it adds carries the user the sync runs for |
| ItemSync.SyncIdempotent | backend/src/routes/items.rs:77-198 | with the same vendor answers, clock and date, a second sync changes nothing, whatever UUIDs it generates |
| ItemSync.RefreshedAgain | backend/src/routes/items.rs:139-147 | upserting the same accounts twice leaves the table as after the first time |
| ItemSync.ExtendedAgain | backend/src/routes/items.rs:179 | inserting the same transactions twice leaves the table as after the first time |
| Webhooks.ResolveItemId | backend/src/routes/webhooks.rs:44-48 | the top-level `itemId` wins over `item.id`; none iff both are absent |
| Webhooks.Handle | backend/src/routes/webhooks.rs:37-75 | always answers "Webhook recebido com sucesso" and hands the event and resolved id to the job |
| Webhooks.AlwaysAcknowledged | backend/src/routes/webhooks.rs:72-74 | every payload gets the same answer |
| Webhooks.Process | backend/src/routes/webhooks.rs:77-197 | non-item events succeed with no work; an item event without an id is an error; a failed item fetch on created/updated is an error; the database changes only for created/updated of an item that is "UPDATED" at the vendor and known locally |
| Webhooks.WebhookRowsOwned | backend/src/routes/webhooks.rs:122-153 | transactions a webhook adds belong to the owner of the item it names |
| Webhooks.RedeliveryIdempotent | backend/src/routes/webhooks.rs:94-176 | a redelivered event with the same vendor answers changes nothing more and reports the same result |

## Left out

- The React rendering, styling and static page content are left out. The component state the handlers touch is modelled; the markup is not.
- The 200 ms and 1000 ms waits in the widget bootstrap are single steps. Effect re-runs caused by a new `onClose` identity are not modelled.
- The retry button dispatches a 'pluggy-reload' event. Nothing in the files shown listens for it, so no re-run follows it.
- ConnectModal.Effect: one run is computed as a single step from the loader's and the token request's answers. A cleanup during the awaits is covered by ConnectModal.CleanupDuringLoad. Other interleavings, such as a second run starting before the first finishes, are not modelled.
- Gregorian.ParseIsoDate: accepts only the zero-padded `YYYY-MM-DD` shape. chrono's `%Y-%m-%d` also accepts a year with an explicit sign and any number of digits, and one-digit months and days, as long as the ten bytes parse completely (for example "+202-01-05" or "+12345-1-5"). Those spellings fall back to today's date here.
- ConnectModal.SelectToken: JavaScript truthiness of a string is "non-empty"; other truthy values are not modelled.
- JavaScript `Date` is replaced by the proleptic Gregorian calendar. Two-digit years, which `new Date` maps to 1900–1999, are not modelled.
- Currency.FormatCurrency: works on integer cents. `toFixed` on floating-point values, including rounding and exponent notation from 1e21 on, is not modelled.
- AuthStore.LoginSurvivesReload: assumes the user written to storage is a non-empty text that reads back. `JSON.stringify` itself is a parameter.
- The axios wrapper, the route table and the Login, Home, AboutUs and Rewards components are left out.
- AuthStore.RefusedLoginKeepsStorage: describes the auth context's own code only. The left-out axios wrapper (frontend/src/services/api.js) clears both keys and redirects to /login on every 401, and the backend answers a wrong password with 401, so in the running app a refused login does clear storage.
- HTTP, JSON decoding, base64, argon2, JWT encoding and decoding, and the vendors' server behaviour are parameters or left out. JWT expiry checks are part of the decoder parameter.
- Concurrency is left out: `tokio::spawn` and the 60-second scheduler (backend/src/scheduler.rs), which spawns one concurrent sync per item. Idempotence is stated per item sync.
- Database errors (connection failures, constraint violations other than the ones named) and their message texts are left out. A failed insert is modelled only as an id clash.
- ItemSync.Sync: takes one `now` and one `today` for the whole sync. The source reads the clock again at each `CURRENT_TIMESTAMP` (backend/src/routes/items.rs:37 and 146) and calls `Utc::now().date_naive()` once per unparsable date (items.rs:170), so a sync across midnight may date its fallback transactions differently.
- ItemSync.Sync: the `?` after each database statement is not modelled, so a database error does not stop the sync.
- ItemSync.Sync: the connector is a JSON value in the source and an opaque string here.
- ItemSync.Sync: the vendor transaction's `currency_code` and `status`, and the account's `currency_code` and `type_field`, are read by the sync but are not fields of the vendor models. They are modelled as the optional fields the sync reads.
- The sync's map-keyed tables and the CRUD and aggregate routes' row sequences are separate models. No lemma connects them.
- TransactionsApi.SortNewestFirst: SQL leaves the order of same-date rows unspecified. The model's insertion sort puts them in reverse storage order, which is one of the orders SQL allows. The contract promises only newest-first order and a permutation.
- TokenCache.Authenticate: assumes a debug build, where u64 overflow panics. A release build wraps instead. There, a stored expiry below the 300-second margin makes the bound huge, so the cached key is reused. A negative lifetime (`expires_in as u64` of a negative `i64`) makes the expiry wrap into the past, so the next call fetches again. TokenCache.NegativeLifetimeOverflows states the debug behaviour.
- AccountsApi.OwnedTotal, AccountsApi.OwnedList, AccountsApi.OwnedAccountJoinsOnce: assume unique item ids, which `items.id` being the table's key guarantees. The schema is not part of this model; without the premise, JoinCounts gives the multiplicities.
- AccountsApi.AccountList: the query has no `ORDER BY`, so SQL leaves the list order unspecified. The model lists in table order.
- AuthApi.ClaimsFor: the `as usize` casts of `exp` and `iat` are not modelled. Timestamps are unbounded integers.
- Uuids.Parse: accepts the four standard text forms of the uuid crate (simple, hyphenated, braced, URN), without the crate's error details.
- Rows that rely on column defaults (`id`, `created_at`, and the sync-only columns of `transactions`) are modelled only through the fields the routes read.

## Findings

| source | as written | input that shows it | evidently intended | confidence | as-written member | corrected member |
|---|---|---|---|---|---|---|
| backend/src/belvo/client.rs:229 | `&token[..20]` slices the first 20 bytes of the access token without a length check | an access token "abc" (3 bytes) makes the slice panic; so does any token with no prefix of exactly 20 bytes | show at most the first 20 bytes without panicking, as the Pluggy client's `20.min(api_key.len())` intends; the corrected member also stops at a character boundary | not executed | BelvoClient.TestConnectionAsWritten (exhibited by BelvoClient.ShortTokenPanics) | BelvoClient.TestConnection (BelvoClient.TestConnectionAgrees) |

=== FILE: accounts_api.dfy ===
/**
 * The account routes: the caller's total balance, total expenses, expenses
 * per month and the account list. Accounts belong to a user through their
 * item (`accounts.item_id = items.id`, `items.user_id = user`); expenses are
 * the caller's transactions with a negative amount. Amounts are integer
 * cents; a SQL `NULL` is `None`.
 */
module AccountsApi {
  import opened Wrappers
  import Uuids
  import Gregorian
  import TransactionsApi

  const Currency := "BRL"
  const DefaultName := "Conta sem nome"

  /** The columns of `items` the account routes read. */
  datatype ItemRow = ItemRow(id: Uuids.Uuid, owner: Uuids.Uuid, connector: Option<string>)

  /** The columns of `accounts` the account routes read; `kind` is the `type` column. */
  datatype AccountRow = AccountRow(
    id: Uuids.Uuid,
    itemId: Uuids.Uuid,
    name: Option<string>,
    balance: Option<int>,
    currency: Option<string>,
    kind: Option<string>,
    number: Option<string>)

  /** An amount with its currency, as the total routes answer. */
  datatype Money = Money(total: int, currency: string)

  /** A row of `accounts a INNER JOIN items i ON a.item_id = i.id`. */
  datatype Joined = Joined(account: AccountRow, item: ItemRow)

  function Abs(x: int): nat {
    if x < 0 then -x else x
  }

  /** The caller's items `a` joins with. */
  function ItemsOf(a: AccountRow, items: seq<ItemRow>, user: Uuids.Uuid): (r: seq<Joined>)
    ensures forall j :: j in r <==> j.account == a && j.item in items && j.item.id == a.itemId && j.item.owner == user
  {
    if |items| == 0 then []
    else
      var rest := ItemsOf(a, items[1..], user);
      assert items == [items[0]] + items[1..];
      if items[0].id == a.itemId && items[0].owner == user then [Joined(a, items[0])] + rest else rest
  }

  /** One joined row per matching item row, as an inner join yields. */
  lemma {:induction false} ItemsOfCounts(a: AccountRow, items: seq<ItemRow>, user: Uuids.Uuid, i: ItemRow)
    ensures multiset(ItemsOf(a, items, user))[Joined(a, i)] ==
              if i.id == a.itemId && i.owner == user then multiset(items)[i] else 0
  {
    if |items| > 0 {
      ItemsOfCounts(a, items[1..], user, i);
      var rest := ItemsOf(a, items[1..], user);
      assert items == [items[0]] + items[1..];
      assert multiset(items) == multiset([items[0]]) + multiset(items[1..]);
      if items[0].id == a.itemId && items[0].owner == user {
        assert multiset([Joined(a, items[0])] + rest) == multiset([Joined(a, items[0])]) + multiset(rest);
      }
    }
  }

  /** The join restricted to `i.user_id = user`, account by account. */
  function Join(accounts: seq<AccountRow>, items: seq<ItemRow>, user: Uuids.Uuid): (r: seq<Joined>)
    ensures forall j :: j in r <==>
              j.account in accounts && j.item in items && j.item.id == j.account.itemId && j.item.owner == user
  {
    if |accounts| == 0 then []
    else
      assert accounts == [accounts[0]] + accounts[1..];
      ItemsOf(accounts[0], items, user) + Join(accounts[1..], items, user)
  }

  /**
   * Inner-join cardinality: a pair of rows appears as many times as the
   * account row occurs times the item row occurs, and only when the item
   * matches the account and is the caller's.
   */
  lemma {:induction false} JoinCounts(accounts: seq<AccountRow>, items: seq<ItemRow>, user: Uuids.Uuid, j: Joined)
    ensures multiset(Join(accounts, items, user))[j] ==
              if j.item.id == j.account.itemId && j.item.owner == user
              then multiset(accounts)[j.account] * multiset(items)[j.item] else 0
  {
    if |accounts| > 0 {
      var head := ItemsOf(accounts[0], items, user);
      var tail := Join(accounts[1..], items, user);
      assert Join(accounts, items, user) == head + tail;
      assert multiset(head + tail)[j] == multiset(head)[j] + multiset(tail)[j];
      JoinCounts(accounts[1..], items, user, j);
      assert accounts == [accounts[0]] + accounts[1..];
      var c0 := if accounts[0] == j.account then 1 else 0;
      var cr := multiset(accounts[1..])[j.account];
      assert multiset(accounts)[j.account] == c0 + cr by {
        assert multiset(accounts) == multiset([accounts[0]]) + multiset(accounts[1..]);
      }
      if j.item.id == j.account.itemId && j.item.owner == user {
        var ci := multiset(items)[j.item];
        assert multiset(head)[j] == c0 * ci by {
          if accounts[0] == j.account {
            ItemsOfCounts(accounts[0], items, user, j.item);
            assert j == Joined(accounts[0], j.item);
          } else {
            assert j !in head;
          }
        }
        Distributes(c0, cr, ci);
      } else {
        assert j !in head;
      }
    }
  }

  lemma Distributes(a: int, b: int, c: int)
    ensures (a + b) * c == a * c + b * c
  {
  }

  lemma {:induction false} JoinSplits(a1: seq<AccountRow>, a2: seq<AccountRow>, items: seq<ItemRow>, user: Uuids.Uuid)
    ensures Join(a1 + a2, items, user) == Join(a1, items, user) + Join(a2, items, user)
  {
    if |a1| > 0 {
      assert (a1 + a2)[1..] == a1[1..] + a2;
      JoinSplits(a1[1..], a2, items, user);
    } else {
      assert a1 + a2 == a2;
    }
  }

  /** `items.id` is the table's primary key: no two item rows share an id. */
  predicate ItemIdsUnique(items: seq<ItemRow>) {
    forall p, q :: 0 <= p < q < |items| ==> items[p].id != items[q].id
  }

  /** The account's item is one of the caller's. */
  ghost predicate Owned(a: AccountRow, items: seq<ItemRow>, user: Uuids.Uuid) {
    exists i :: i in items && i.id == a.itemId && i.owner == user
  }

  /** The caller's item an owned account belongs to. */
  ghost function OwnerItem(a: AccountRow, items: seq<ItemRow>, user: Uuids.Uuid): ItemRow
    requires Owned(a, items, user)
  {
    var i :| i in items && i.id == a.itemId && i.owner == user; i
  }

  lemma SameIdSameItem(items: seq<ItemRow>, i1: ItemRow, i2: ItemRow)
    requires ItemIdsUnique(items) && i1 in items && i2 in items && i1.id == i2.id
    ensures i1 == i2
  {
    var p :| 0 <= p < |items| && items[p] == i1;
    var q :| 0 <= q < |items| && items[q] == i2;
  }

  /** With item ids unique, an account joins once with its item if it is the caller's, and not at all otherwise. */
  lemma {:induction false} OwnedAccountJoinsOnce(a: AccountRow, items: seq<ItemRow>, user: Uuids.Uuid)
    requires ItemIdsUnique(items)
    ensures ItemsOf(a, items, user) == if Owned(a, items, user) then [Joined(a, OwnerItem(a, items, user))] else []
  {
    if |items| > 0 {
      var tail := items[1..];
      assert ItemIdsUnique(tail) by {
        forall p, q | 0 <= p < q < |tail|
          ensures tail[p].id != tail[q].id
        {
          assert tail[p] == items[p + 1] && tail[q] == items[q + 1];
        }
      }
      OwnedAccountJoinsOnce(a, tail, user);
      assert items == [items[0]] + tail;
      if items[0].id == a.itemId && items[0].owner == user {
        assert items[0] in items;
        SameIdSameItem(items, OwnerItem(a, items, user), items[0]);
      } else {
        if Owned(a, items, user) {
          var i := OwnerItem(a, items, user);
          assert i != items[0];
          assert i in tail;
          SameIdSameItem(items, i, OwnerItem(a, tail, user));
        }
      }
    }
  }

  /** The reference total: the balances of the accounts whose item is the caller's, `NULL` as 0. */
  ghost function OwnedBalance(accounts: seq<AccountRow>, items: seq<ItemRow>, user: Uuids.Uuid): int {
    if |accounts| == 0 then 0
    else (if Owned(accounts[0], items, user) then accounts[0].balance.GetOr(0) else 0)
         + OwnedBalance(accounts[1..], items, user)
  }

  /** `SUM(a.balance)`: `NULL` balances add nothing. */
  function SumBalances(js: seq<Joined>): int {
    if |js| == 0 then 0 else js[0].account.balance.GetOr(0) + SumBalances(js[1..])
  }

  lemma {:induction false} SumBalancesSplits(a: seq<Joined>, b: seq<Joined>)
    ensures SumBalances(a + b) == SumBalances(a) + SumBalances(b)
  {
    if |a| > 0 {
      assert (a + b)[1..] == a[1..] + b;
      SumBalancesSplits(a[1..], b);
    } else {
      assert a + b == b;
    }
  }

  /** `get_total_balance`: the sum over the caller's accounts, 0 when there are none, in reais. */
  function TotalBalance(accounts: seq<AccountRow>, items: seq<ItemRow>, user: Uuids.Uuid): (r: Money)
    ensures r.currency == Currency
    ensures Join(accounts, items, user) == [] ==> r.total == 0
    ensures (forall k :: 0 <= k < |accounts| ==> accounts[k].balance.GetOr(0) >= 0) ==> r.total >= 0
    // With item ids unique, the total is the sum of the caller's accounts' balances, each counted once.
    ensures ItemIdsUnique(items) ==> r.total == OwnedBalance(accounts, items, user)
  {
    var js := Join(accounts, items, user);
    JoinedNonNegative(accounts, items, user);
    assert ItemIdsUnique(items) ==> SumBalances(js) == OwnedBalance(accounts, items, user) by {
      if ItemIdsUnique(items) {
        OwnedTotal(accounts, items, user);
      }
    }
    Money(SumBalances(js), Currency)
  }

  lemma {:induction false} OwnedTotal(accounts: seq<AccountRow>, items: seq<ItemRow>, user: Uuids.Uuid)
    requires ItemIdsUnique(items)
    ensures SumBalances(Join(accounts, items, user)) == OwnedBalance(accounts, items, user)
  {
    if |accounts| > 0 {
      OwnedTotal(accounts[1..], items, user);
      OwnedAccountJoinsOnce(accounts[0], items, user);
      SumBalancesSplits(ItemsOf(accounts[0], items, user), Join(accounts[1..], items, user));
    }
  }

  lemma JoinedNonNegative(accounts: seq<AccountRow>, items: seq<ItemRow>, user: Uuids.Uuid)
    ensures (forall k :: 0 <= k < |accounts| ==> accounts[k].balance.GetOr(0) >= 0) ==>
              SumBalances(Join(accounts, items, user)) >= 0
  {
    var js := Join(accounts, items, user);
    if forall k :: 0 <= k < |accounts| ==> accounts[k].balance.GetOr(0) >= 0 {
      forall k | 0 <= k < |js|
        ensures js[k].account.balance.GetOr(0) >= 0
      {
        assert js[k] in js;
        var i :| 0 <= i < |accounts| && accounts[i] == js[k].account;
      }
      NonNegativeSum(js);
    }
  }

  lemma {:induction false} NonNegativeSum(js: seq<Joined>)
    ensures (forall k :: 0 <= k < |js| ==> js[k].account.balance.GetOr(0) >= 0) ==> SumBalances(js) >= 0
  {
    if |js| > 0 {
      NonNegativeSum(js[1..]);
      assert forall k :: 1 <= k < |js| ==> js[k] == js[1..][k - 1];
    }
  }

  /** The total is a sum over accounts: two halves of the table add up. */
  lemma TotalBalanceSplits(a1: seq<AccountRow>, a2: seq<AccountRow>, items: seq<ItemRow>, user: Uuids.Uuid)
    ensures TotalBalance(a1 + a2, items, user).total == TotalBalance(a1, items, user).total + TotalBalance(a2, items, user).total
  {
    JoinSplits(a1, a2, items, user);
    SumBalancesSplits(Join(a1, items, user), Join(a2, items, user));
  }

  /** An account whose item is not the caller's changes nothing in the caller's total. */
  lemma ForeignAccountIgnored(accounts: seq<AccountRow>, items: seq<ItemRow>, user: Uuids.Uuid, a: AccountRow)
    requires forall i :: i in items && i.id == a.itemId ==> i.owner != user
    ensures TotalBalance(accounts + [a], items, user) == TotalBalance(accounts, items, user)
  {
    TotalBalanceSplits(accounts, [a], items, user);
  }

  /** One entry of the `get_accounts` answer. */
  datatype AccountResponse = AccountResponse(
    id: Uuids.Uuid,
    name: string,
    balance: int,
    currency: string,
    kind: Option<string>,
    number: Option<string>,
    itemId: Uuids.Uuid,
    connector: Option<string>)

  /** A joined row with the route's defaults for missing name, balance and currency. */
  function ResponseOf(j: Joined): (r: AccountResponse)
    ensures r.id == j.account.id && r.itemId == j.account.itemId && r.connector == j.item.connector
    ensures j.account.name.None? ==> r.name == DefaultName
    ensures j.account.balance.None? ==> r.balance == 0
    ensures j.account.currency.None? ==> r.currency == Currency
    ensures j.account.name.Some? ==> r.name == j.account.name.value
    ensures j.account.balance.Some? ==> r.balance == j.account.balance.value
    ensures j.account.currency.Some? ==> r.currency == j.account.currency.value
  {
    AccountResponse(
      j.account.id,
      j.account.name.GetOr(DefaultName),
      j.account.balance.GetOr(0),
      j.account.currency.GetOr(Currency),
      j.account.kind,
      j.account.number,
      j.account.itemId,
      j.item.connector)
  }

  function Responses(js: seq<Joined>): (r: seq<AccountResponse>)
    ensures |r| == |js|
    ensures forall k :: 0 <= k < |js| ==> r[k] == ResponseOf(js[k])
  {
    if |js| == 0 then [] else [ResponseOf(js[0])] + Responses(js[1..])
  }

  /** The reference list: each account whose item is the caller's, once, in table order, answered with that item. */
  ghost function OwnedResponses(accounts: seq<AccountRow>, items: seq<ItemRow>, user: Uuids.Uuid): seq<AccountResponse> {
    if |accounts| == 0 then []
    else (if Owned(accounts[0], items, user) then [ResponseOf(Joined(accounts[0], OwnerItem(accounts[0], items, user)))] else [])
         + OwnedResponses(accounts[1..], items, user)
  }

  lemma {:induction false} OwnedList(accounts: seq<AccountRow>, items: seq<ItemRow>, user: Uuids.Uuid)
    requires ItemIdsUnique(items)
    ensures Responses(Join(accounts, items, user)) == OwnedResponses(accounts, items, user)
  {
    if |accounts| > 0 {
      OwnedList(accounts[1..], items, user);
      OwnedAccountJoinsOnce(accounts[0], items, user);
      var head := ItemsOf(accounts[0], items, user);
      var tail := Join(accounts[1..], items, user);
      assert Responses(head + tail) == Responses(head) + Responses(tail);
    }
  }

  /** `get_accounts`: only accounts of the caller's items, with their item's connector. */
  function AccountList(accounts: seq<AccountRow>, items: seq<ItemRow>, user: Uuids.Uuid): (r: seq<AccountResponse>)
    // Every entry is the response of one of the caller's accounts joined with its item.
    ensures forall k :: 0 <= k < |r| ==>
              exists a, i :: a in accounts && i in items && i.id == a.itemId && i.owner == user
                             && r[k] == ResponseOf(Joined(a, i))
    ensures forall k :: 0 <= k < |r| ==>
              exists i :: i in items && i.id == r[k].itemId && i.owner == user && i.connector == r[k].connector
    ensures forall k :: 0 <= k < |r| ==> exists a :: a in accounts && a.id == r[k].id && a.itemId == r[k].itemId
    // Every account of one of the caller's items is listed, with that item's connector and the defaults.
    ensures forall a, i :: a in accounts && i in items && i.id == a.itemId && i.owner == user ==>
              ResponseOf(Joined(a, i)) in r
    // With item ids unique, each of the caller's accounts is listed exactly once, with its item.
    ensures ItemIdsUnique(items) ==> r == OwnedResponses(accounts, items, user)
  {
    var js := Join(accounts, items, user);
    var r := Responses(js);
    assert ItemIdsUnique(items) ==> r == OwnedResponses(accounts, items, user) by {
      if ItemIdsUnique(items) {
        OwnedList(accounts, items, user);
      }
    }
    assert forall k :: 0 <= k < |r| ==> js[k] in js && r[k] == ResponseOf(js[k]);
    forall a, i | a in accounts && i in items && i.id == a.itemId && i.owner == user
      ensures ResponseOf(Joined(a, i)) in r
    {
      assert Joined(a, i) in js;
      var k :| 0 <= k < |js| && js[k] == Joined(a, i);
      assert r[k] == ResponseOf(Joined(a, i));
    }
    r
  }

  function SumResponses(r: seq<AccountResponse>): int {
    if |r| == 0 then 0 else r[0].balance + SumResponses(r[1..])
  }

  /** The total balance is the sum of the balances the account list shows. */
  lemma BalanceMatchesList(accounts: seq<AccountRow>, items: seq<ItemRow>, user: Uuids.Uuid)
    ensures TotalBalance(accounts, items, user).total == SumResponses(AccountList(accounts, items, user))
  {
    ResponsesSum(Join(accounts, items, user));
  }

  lemma {:induction false} ResponsesSum(js: seq<Joined>)
    ensures SumBalances(js) == SumResponses(Responses(js))
  {
    if |js| > 0 {
      ResponsesSum(js[1..]);
      assert Responses(js)[1..] == Responses(js[1..]);
    }
  }

  /** A caller's expense: one of their transactions with a negative amount. */
  predicate IsExpense(x: TransactionsApi.Row, user: Uuids.Uuid) {
    x.owner == user && x.amount < 0
  }

  /** `SUM(amount)` over the caller's expenses. */
  function ExpenseSum(t: TransactionsApi.Table, user: Uuids.Uuid): (s: int)
    ensures s <= 0
    ensures s == 0 <==> forall k :: 0 <= k < |t| ==> !IsExpense(t[k], user)
  {
    if |t| == 0 then 0
    else
      var rest := ExpenseSum(t[1..], user);
      assert forall k :: 1 <= k < |t| ==> t[k] == t[1..][k - 1];
      (if IsExpense(t[0], user) then t[0].amount else 0) + rest
  }

  /** `get_total_expenses`: the size of the caller's spending, never negative, 0 exactly when there is none. */
  function TotalExpenses(t: TransactionsApi.Table, user: Uuids.Uuid): (r: Money)
    ensures r.currency == Currency
    ensures r.total >= 0
    ensures r.total == 0 <==> forall k :: 0 <= k < |t| ==> !IsExpense(t[k], user)
    ensures r.total == -ExpenseSum(t, user)
  {
    Money(Abs(ExpenseSum(t, user)), Currency)
  }

  lemma {:induction false} ExpenseSumSplits(t1: TransactionsApi.Table, t2: TransactionsApi.Table, user: Uuids.Uuid)
    ensures ExpenseSum(t1 + t2, user) == ExpenseSum(t1, user) + ExpenseSum(t2, user)
  {
    if |t1| > 0 {
      assert (t1 + t2)[1..] == t1[1..] + t2;
      ExpenseSumSplits(t1[1..], t2, user);
    } else {
      assert t1 + t2 == t2;
    }
  }

  /** Expenses add up over the table, and an income changes nothing. */
  lemma TotalExpensesSplits(t1: TransactionsApi.Table, t2: TransactionsApi.Table, user: Uuids.Uuid, income: TransactionsApi.Row)
    requires income.amount >= 0
    ensures TotalExpenses(t1 + t2, user).total == TotalExpenses(t1, user).total + TotalExpenses(t2, user).total
    ensures TotalExpenses(t1 + [income], user) == TotalExpenses(t1, user)
  {
    ExpenseSumSplits(t1, t2, user);
    ExpenseSumSplits(t1, [income], user);
    assert [income][1..] == [];
  }

  /** One entry of the monthly answer. */
  datatype MonthlyExpense = MonthlyExpense(month: int, year: int, total: int)

  /** A row of the monthly query; every column may come back `NULL`. */
  datatype MonthRow = MonthRow(month: Option<int>, year: Option<int>, total: Option<int>)

  /** The defaults the route applies to a query row: month 0, the queried year, total 0. */
  function EntryOf(row: MonthRow, year: int): (e: MonthlyExpense)
    ensures row.month.None? ==> e.month == 0
    ensures row.year.None? ==> e.year == year
    ensures row.total.None? ==> e.total == 0
    ensures row.month.Some? ==> e.month == row.month.value
    ensures row.year.Some? ==> e.year == row.year.value
    ensures row.total.Some? ==> e.total == row.total.value
  {
    MonthlyExpense(row.month.GetOr(0), row.year.GetOr(year), row.total.GetOr(0))
  }

  /** An expense of the caller dated in that month of that year. */
  predicate InMonth(x: TransactionsApi.Row, user: Uuids.Uuid, year: int, month: int) {
    IsExpense(x, user) && x.date.year == year && x.date.month == month
  }

  function MonthSum(t: TransactionsApi.Table, user: Uuids.Uuid, year: int, month: int): (s: int)
    ensures s <= 0
    ensures s == 0 <==> forall k :: 0 <= k < |t| ==> !InMonth(t[k], user, year, month)
  {
    if |t| == 0 then 0
    else
      var rest := MonthSum(t[1..], user, year, month);
      assert forall k :: 1 <= k < |t| ==> t[k] == t[1..][k - 1];
      (if InMonth(t[0], user, year, month) then t[0].amount else 0) + rest
  }

  /**
   * The monthly query: `GROUP BY` month over the caller's expenses in
   * `year`, `ORDER BY month`; a month appears only when it has an expense.
   */
  function MonthRows(t: TransactionsApi.Table, user: Uuids.Uuid, year: int, from: nat): (r: seq<MonthRow>)
    requires 1 <= from <= 13
    decreases 13 - from
    ensures forall k :: 0 <= k < |r| ==> Reports(r[k], t, user, year, from)
    ensures forall k, l :: 0 <= k < l < |r| ==> r[k].month.GetOr(0) < r[l].month.GetOr(0)
  {
    if from == 13 then []
    else
      var rest := MonthRows(t, user, year, from + 1);
      var s := MonthSum(t, user, year, from);
      if s == 0 then rest
      else
        var head := MonthRow(Some(from), Some(year), Some(-s));
        assert forall k :: 0 <= k < |rest| ==> Reports(rest[k], t, user, year, from) && rest[k].month.GetOr(0) > from;
        [head] + rest
  }

  /** A query row of month `from..12` of `year`: its month and total are set, and the total is that month's spending. */
  predicate Reports(row: MonthRow, t: TransactionsApi.Table, user: Uuids.Uuid, year: int, from: int) {
    row.month.Some? && row.year == Some(year) && row.total.Some?
    && from <= row.month.value <= 12
    && row.total.value == -MonthSum(t, user, year, row.month.value) > 0
  }

  predicate HasMonthRow(r: seq<MonthRow>, m: int) {
    exists k :: 0 <= k < |r| && r[k].month == Some(m)
  }

  /** A month of `from..12` has a row exactly when the caller spent something in it. */
  lemma {:induction false} MonthRowsCover(t: TransactionsApi.Table, user: Uuids.Uuid, year: int, from: nat, m: int)
    requires 1 <= from <= 13 && from <= m <= 12
    decreases 13 - from
    ensures HasMonthRow(MonthRows(t, user, year, from), m) <==> MonthSum(t, user, year, m) != 0
  {
    var r := MonthRows(t, user, year, from);
    var rest := MonthRows(t, user, year, from + 1);
    var s := MonthSum(t, user, year, from);
    var head := MonthRow(Some(from), Some(year), Some(-s));
    assert r == if s != 0 then [head] + rest else rest;
    if m == from {
      if s != 0 {
        assert r[0].month == Some(m);
      } else {
        assert forall k :: 0 <= k < |rest| ==> rest[k].month.value > m;
      }
    } else {
      MonthRowsCover(t, user, year, from + 1, m);
      if s != 0 {
        HasMonthRowCons(head, rest, m);
      }
    }
  }

  lemma HasMonthRowCons(head: MonthRow, rest: seq<MonthRow>, m: int)
    requires head.month != Some(m)
    ensures HasMonthRow([head] + rest, m) <==> HasMonthRow(rest, m)
  {
    var r := [head] + rest;
    if HasMonthRow(rest, m) {
      var k :| 0 <= k < |rest| && rest[k].month == Some(m);
      assert r[k + 1].month == Some(m);
    }
    if HasMonthRow(r, m) {
      var k :| 0 <= k < |r| && r[k].month == Some(m);
      assert k > 0 && rest[k - 1].month == Some(m);
    }
  }

  function Entries(rows: seq<MonthRow>, year: int): (r: seq<MonthlyExpense>)
    ensures |r| == |rows|
    ensures forall k :: 0 <= k < |rows| ==> r[k] == EntryOf(rows[k], year)
  {
    if |rows| == 0 then [] else [EntryOf(rows[0], year)] + Entries(rows[1..], year)
  }

  /** `get_monthly_expenses`: the year asked for, else the current one. */
  function MonthlyExpenses(t: TransactionsApi.Table, user: Uuids.Uuid, query: Option<int>, currentYear: int)
    : (r: seq<MonthlyExpense>)
    ensures forall k :: 0 <= k < |r| ==> r[k].year == query.GetOr(currentYear)
    ensures forall k :: 0 <= k < |r| ==> 1 <= r[k].month <= 12
    ensures forall k, l :: 0 <= k < l < |r| ==> r[k].month < r[l].month
    ensures forall k :: 0 <= k < |r| ==> r[k].total == -MonthSum(t, user, query.GetOr(currentYear), r[k].month) > 0
  {
    var year := query.GetOr(currentYear);
    Entries(MonthRows(t, user, year, 1), year)
  }

  /** Every month with spending has its entry, and no other month has one. */
  lemma MonthlyCovers(t: TransactionsApi.Table, user: Uuids.Uuid, query: Option<int>, currentYear: int, m: int)
    requires 1 <= m <= 12
    ensures var r := MonthlyExpenses(t, user, query, currentYear);
            (exists k :: 0 <= k < |r| && r[k].month == m) <==> MonthSum(t, user, query.GetOr(currentYear), m) != 0
  {
    var year := query.GetOr(currentYear);
    var rows := MonthRows(t, user, year, 1);
    assert MonthlyExpenses(t, user, query, currentYear) == Entries(rows, year);
    assert HasMonthRow(rows, m) <==> MonthSum(t, user, year, m) != 0 by {
      MonthRowsCover(t, user, year, 1, m);
    }
    EntriesKeepMonths(rows, year, m);
  }

  /** A non-zero month has an entry exactly when it has a query row. */
  lemma EntriesKeepMonths(rows: seq<MonthRow>, year: int, m: int)
    requires m != 0
    ensures var r := Entries(rows, year);
            (exists k :: 0 <= k < |r| && r[k].month == m) <==> HasMonthRow(rows, m)
  {
    var r := Entries(rows, year);
    if HasMonthRow(rows, m) {
      var k :| 0 <= k < |rows| && rows[k].month == Some(m);
      assert r[k] == EntryOf(rows[k], year);
      assert r[k].month == m;
      assert exists j :: 0 <= j < |r| && r[j].month == m;
      assert (exists j :: 0 <= j < |Entries(rows, year)| && Entries(rows, year)[j].month == m);
    } else {
      forall k | 0 <= k < |r|
        ensures r[k].month != m
      {
        assert r[k] == EntryOf(rows[k], year);
        assert rows[k].month != Some(m);
      }
    }
  }

  /** The months of a year: the sum of `MonthSum` over months `from..12`. */
  function MonthsFrom(t: TransactionsApi.Table, user: Uuids.Uuid, year: int, from: nat): int
    requires from <= 13
    decreases 13 - from
  {
    if from >= 13 then 0 else MonthSum(t, user, year, from) + MonthsFrom(t, user, year, from + 1)
  }

  /** `SUM(amount)` over the caller's expenses dated in `year`. */
  function YearSum(t: TransactionsApi.Table, user: Uuids.Uuid, year: int): int {
    if |t| == 0 then 0
    else (if IsExpense(t[0], user) && t[0].date.year == year then t[0].amount else 0) + YearSum(t[1..], user, year)
  }

  /** A single row spreads over the months of its year: it counts in its own month only. */
  lemma {:induction false} MonthsOfOneRow(x: TransactionsApi.Row, user: Uuids.Uuid, year: int, from: nat)
    requires 1 <= from <= 13
    requires 1 <= x.date.month <= 12
    decreases 13 - from
    ensures MonthsFrom([x], user, year, from) ==
              if IsExpense(x, user) && x.date.year == year && from <= x.date.month then x.amount else 0
  {
    if from < 13 {
      MonthsOfOneRow(x, user, year, from + 1);
      assert [x][1..] == [];
    }
  }

  lemma {:induction false} MonthsSplit(t: TransactionsApi.Table, user: Uuids.Uuid, year: int, from: nat)
    requires |t| > 0 && 1 <= from <= 13
    decreases 13 - from
    ensures MonthsFrom(t, user, year, from) == MonthsFrom([t[0]], user, year, from) + MonthsFrom(t[1..], user, year, from)
  {
    if from < 13 {
      MonthsSplit(t, user, year, from + 1);
      assert MonthSum(t, user, year, from) == MonthSum([t[0]], user, year, from) + MonthSum(t[1..], user, year, from) by {
        assert [t[0]][1..] == [];
      }
    }
  }

  /** Valid dates spread a year's expenses over its twelve months without loss. */
  lemma MonthsMakeYear(t: TransactionsApi.Table, user: Uuids.Uuid, year: int)
    requires forall k :: 0 <= k < |t| ==> Gregorian.ValidDate(t[k].date)
    ensures MonthsFrom(t, user, year, 1) == YearSum(t, user, year)
  {
    MonthsFromJanuary(t, user, year, 1);
  }

  /**
   * The induction behind `MonthsMakeYear`: only the month of each date
   * matters, and `from` is a variable so that the months are not unrolled.
   */
  lemma {:induction false} MonthsFromJanuary(t: TransactionsApi.Table, user: Uuids.Uuid, year: int, from: nat)
    requires from == 1
    requires forall k :: 0 <= k < |t| ==> 1 <= t[k].date.month <= 12
    ensures MonthsFrom(t, user, year, from) == YearSum(t, user, year)
  {
    if |t| > 0 {
      var rest := t[1..];
      assert forall k :: 0 <= k < |rest| ==> rest[k] == t[k + 1];
      MonthsFromJanuary(rest, user, year, from);
      MonthsSplit(t, user, year, from);
      MonthsOfOneRow(t[0], user, year, from);
    }
  }

  function SumTotals(r: seq<MonthlyExpense>): int {
    if |r| == 0 then 0 else r[0].total + SumTotals(r[1..])
  }

  /** The monthly totals of a year add up to the year's spending. */
  lemma MonthlyAddsUp(t: TransactionsApi.Table, user: Uuids.Uuid, year: int)
    requires forall k :: 0 <= k < |t| ==> Gregorian.ValidDate(t[k].date)
    ensures SumTotals(MonthlyExpenses(t, user, Some(year), year)) == -YearSum(t, user, year)
  {
    MonthsMakeYear(t, user, year);
    RowsAddUp(t, user, year, 1);
  }

  lemma {:induction false} RowsAddUp(t: TransactionsApi.Table, user: Uuids.Uuid, year: int, from: nat)
    requires 1 <= from <= 13
    decreases 13 - from
    ensures SumTotals(Entries(MonthRows(t, user, year, from), year)) == -MonthsFrom(t, user, year, from)
  {
    if from < 13 {
      RowsAddUp(t, user, year, from + 1);
      var rest := MonthRows(t, user, year, from + 1);
      if MonthSum(t, user, year, from) != 0 {
        var rows := MonthRows(t, user, year, from);
        assert rows[1..] == rest;
        assert Entries(rows, year)[1..] == Entries(rest, year);
      }
    }
  }
}

=== FILE: auth_api.dfy ===
/**
 * The register and login routes. Register refuses a taken email, stores the
 * hash of the password and signs a token; login answers unknown emails and
 * wrong passwords alike. Password hashing (argon2 with a random salt),
 * hash verification and JWT signing are parameters. The `users` table is
 * a sequence of rows in storage order.
 */
module AuthApi {
  import opened Wrappers
  import Uuids
  import RequestGuard

  const EmailTaken := "Email já cadastrado"
  const BadCredentials := "Email ou senha inválidos"
  const HashFailedPrefix := "Erro ao criar hash da senha: "
  const InsertFailedPrefix := "Erro ao criar usuário: "
  const BadHashPrefix := "Erro ao processar hash: "
  const SigningFailedPrefix := "Erro ao gerar token: "

  /** Tokens expire 24 hours after they are signed. */
  const TokenLifetime: nat := 24 * 60 * 60

  datatype User = User(id: Uuids.Uuid, email: string, fullName: string, passwordHash: string)

  type Users = seq<User>

  datatype NewUser = NewUser(email: string, fullName: string, password: string)
  datatype LoginUser = LoginUser(email: string, password: string)

  datatype AuthResponse = AuthResponse(token: string, user: User)

  /** An error answer: status and message. */
  datatype Refusal = Refusal(status: RequestGuard.Status, message: string)

  type Answer = Result<AuthResponse, Refusal>

  /** `argon2.hash_password` with this call's salt: the PHC string, or the error text. */
  type Hasher = string -> Result<string, string>

  /** What verifying a password against a stored hash gives. */
  datatype Verdict = Verified | Mismatch | Unparsable(reason: string)

  type Verifier = (string, string) -> Verdict

  /** `encode(header, claims, secret)`: the token, or the error text. */
  type Signer = (RequestGuard.Claims, string) -> Result<string, string>

  /** `SELECT ... FROM users WHERE email = $1`: the first row with that email. */
  function FindByEmail(users: Users, email: string): (r: Option<User>)
    ensures r.None? <==> forall i :: 0 <= i < |users| ==> users[i].email != email
    ensures r.Some? ==> r.value in users && r.value.email == email
  {
    if |users| == 0 then None
    else if users[0].email == email then Some(users[0])
    else
      assert forall i :: 1 <= i < |users| ==> users[i] == users[1..][i - 1];
      FindByEmail(users[1..], email)
  }

  /**
   * The two `Utc::now()` reads a token takes, in order: the first gives the
   * expiry (24 hours later), the second the issue time.
   */
  datatype Clock = Clock(expiryRead: int, issueRead: int)

  /** The claims of a token for `id`. */
  function ClaimsFor(id: Uuids.Uuid, clock: Clock): (c: RequestGuard.Claims)
    ensures Uuids.Parse(c.sub) == Some(id)
    ensures c.iat == clock.issueRead
    ensures c.exp - c.iat == TokenLifetime - (clock.issueRead - clock.expiryRead)
    ensures clock.expiryRead <= clock.issueRead ==> c.exp - c.iat <= TokenLifetime
  {
    Uuids.FormatParse(id);
    RequestGuard.Claims(Uuids.Format(id), clock.expiryRead + TokenLifetime, clock.issueRead)
  }

  /** Signs a token for `user` and answers with both. */
  function Issue(user: User, clock: Clock, secret: string, sign: Signer): (r: Answer)
    ensures r.Success? <==> sign(ClaimsFor(user.id, clock), secret).Success?
    ensures r.Success? ==> r.value == AuthResponse(sign(ClaimsFor(user.id, clock), secret).value, user)
    ensures r.Failure? ==>
              r.error == Refusal(RequestGuard.InternalServerError,
                                 SigningFailedPrefix + sign(ClaimsFor(user.id, clock), secret).error)
  {
    match sign(ClaimsFor(user.id, clock), secret)
    case Success(token) => Success(AuthResponse(token, user))
    case Failure(e) => Failure(Refusal(RequestGuard.InternalServerError, SigningFailedPrefix + e))
  }

  predicate IdTaken(users: Users, id: Uuids.Uuid) {
    exists i :: 0 <= i < |users| && users[i].id == id
  }

  /** The users table afterwards and the answer. */
  datatype Registration = Registration(users: Users, answer: Answer)

  /**
   * `register`. `freshId` is the id the database generates for the row;
   * a clash with an existing id fails the insert. A signing failure still
   * leaves the new row in place.
   */
  function Register(users: Users, n: NewUser, hash: Hasher, freshId: Uuids.Uuid,
                    clock: Clock, secret: string, sign: Signer): (r: Registration)
    ensures FindByEmail(users, n.email).Some? ==>
              r == Registration(users, Failure(Refusal(RequestGuard.Conflict, EmailTaken)))
    ensures FindByEmail(users, n.email).None? && hash(n.password).Failure? ==>
              r == Registration(users, Failure(Refusal(RequestGuard.InternalServerError,
                                                       HashFailedPrefix + hash(n.password).error)))
    ensures r.users == users || r.users == users + [User(freshId, n.email, n.fullName, hash(n.password).value)]
    ensures r.answer.Success? ==>
              r.users == users + [r.answer.value.user]
              && r.answer.value.user == User(freshId, n.email, n.fullName, hash(n.password).value)
    // A free email, a working hasher and an unused id insert the row; the answer is then the signing's.
    ensures FindByEmail(users, n.email).None? && hash(n.password).Success? && !IdTaken(users, freshId) ==>
              var user := User(freshId, n.email, n.fullName, hash(n.password).value);
              r == Registration(users + [user], Issue(user, clock, secret, sign))
    ensures FindByEmail(users, n.email).None? && hash(n.password).Success? && IdTaken(users, freshId) ==>
              r == Registration(users, Failure(Refusal(RequestGuard.InternalServerError, InsertFailedPrefix)))
  {
    if FindByEmail(users, n.email).Some? then
      Registration(users, Failure(Refusal(RequestGuard.Conflict, EmailTaken)))
    else
      match hash(n.password)
      case Failure(e) =>
        Registration(users, Failure(Refusal(RequestGuard.InternalServerError, HashFailedPrefix + e)))
      case Success(passwordHash) =>
        if IdTaken(users, freshId) then
          Registration(users, Failure(Refusal(RequestGuard.InternalServerError, InsertFailedPrefix)))
        else
          var user := User(freshId, n.email, n.fullName, passwordHash);
          Registration(users + [user], Issue(user, clock, secret, sign))
  }

  /** `login` */
  function Login(users: Users, l: LoginUser, verify: Verifier, clock: Clock, secret: string, sign: Signer): (r: Answer)
    ensures FindByEmail(users, l.email).None? ==>
              r == Failure(Refusal(RequestGuard.Unauthorized, BadCredentials))
    ensures r.Success? ==>
              FindByEmail(users, l.email) == Some(r.value.user)
              && verify(l.password, r.value.user.passwordHash) == Verified
    ensures r.Failure? && r.error.status == RequestGuard.Unauthorized ==> r.error.message == BadCredentials
    // A stored user: the verifier's verdict decides between the token, 401 and 500.
    ensures FindByEmail(users, l.email).Some? ==>
              var user := FindByEmail(users, l.email).value;
              match verify(l.password, user.passwordHash)
              case Verified => r == Issue(user, clock, secret, sign)
              case Mismatch => r == Failure(Refusal(RequestGuard.Unauthorized, BadCredentials))
              case Unparsable(e) => r == Failure(Refusal(RequestGuard.InternalServerError, BadHashPrefix + e))
  {
    match FindByEmail(users, l.email)
    case None => Failure(Refusal(RequestGuard.Unauthorized, BadCredentials))
    case Some(user) =>
      match verify(l.password, user.passwordHash)
      case Unparsable(e) => Failure(Refusal(RequestGuard.InternalServerError, BadHashPrefix + e))
      case Mismatch => Failure(Refusal(RequestGuard.Unauthorized, BadCredentials))
      case Verified => Issue(user, clock, secret, sign)
  }

  /** An unknown email and a wrong password get the very same answer. */
  lemma CredentialErrorsIdentical(users: Users, unknown: LoginUser, wrong: LoginUser, verify: Verifier,
                                  clock: Clock, secret: string, sign: Signer)
    requires FindByEmail(users, unknown.email).None?
    requires FindByEmail(users, wrong.email).Some?
    requires verify(wrong.password, FindByEmail(users, wrong.email).value.passwordHash) == Mismatch
    ensures Login(users, unknown, verify, clock, secret, sign) == Login(users, wrong, verify, clock, secret, sign)
  {
  }

  predicate UniqueEmails(users: Users) {
    forall i, j :: 0 <= i < j < |users| ==> users[i].email != users[j].email
  }

  /** Register never creates a second row for an email. */
  lemma RegisterKeepsEmailsUnique(users: Users, n: NewUser, hash: Hasher, freshId: Uuids.Uuid,
                                  clock: Clock, secret: string, sign: Signer)
    requires UniqueEmails(users)
    ensures UniqueEmails(Register(users, n, hash, freshId, clock, secret, sign).users)
  {
    var r := Register(users, n, hash, freshId, clock, secret, sign);
    if r.users != users {
      assert FindByEmail(users, n.email).None?;
      assert r.users[|users|].email == n.email;
      assert forall i :: 0 <= i < |users| ==> r.users[i] == users[i];
    }
  }

  /**
   * Whoever registers can log in with the same password and gets the same
   * row back, given a verifier that accepts what the hasher produced.
   */
  lemma RegisterThenLogin(users: Users, n: NewUser, hash: Hasher, freshId: Uuids.Uuid,
                          verify: Verifier, clock: Clock, later: Clock, secret: string, sign: Signer)
    requires hash(n.password).Success? ==> verify(n.password, hash(n.password).value) == Verified
    requires Register(users, n, hash, freshId, clock, secret, sign).answer.Success?
    requires sign(ClaimsFor(freshId, later), secret).Success?
    ensures var r := Register(users, n, hash, freshId, clock, secret, sign);
            var l := Login(r.users, LoginUser(n.email, n.password), verify, later, secret, sign);
            l.Success? && l.value.user == r.answer.value.user
  {
    var r := Register(users, n, hash, freshId, clock, secret, sign);
    FindAppended(users, r.answer.value.user);
  }

  lemma {:induction false} FindAppended(users: Users, u: User)
    requires FindByEmail(users, u.email).None?
    ensures FindByEmail(users + [u], u.email) == Some(u)
  {
    if |users| == 0 {
    } else {
      assert (users + [u])[1..] == users[1..] + [u];
      FindAppended(users[1..], u);
    }
  }

  /**
   * The token a login returns lets its user through the request guard,
   * given a decoder that reads back what the signer signed and a token with
   * no spaces (JWTs are base64url segments joined by dots).
   */
  lemma LoginTokenAuthenticates(users: Users, l: LoginUser, verify: Verifier, clock: Clock, secret: string,
                                sign: Signer, decode: RequestGuard.Decoder)
    requires Login(users, l, verify, clock, secret, sign).Success?
    requires forall c :: sign(c, secret).Success? ==> decode(sign(c, secret).value, secret) == Some(c)
    requires ' ' !in Login(users, l, verify, clock, secret, sign).value.token
    ensures var a := Login(users, l, verify, clock, secret, sign).value;
            RequestGuard.FromRequest([RequestGuard.BearerPrefix + a.token], Some(secret), decode)
              == RequestGuard.Authenticated(a.user.id)
  {
    var a := Login(users, l, verify, clock, secret, sign).value;
    var c := ClaimsFor(a.user.id, clock);
    assert decode(a.token, secret) == Some(c);
    RequestGuard.SignedTokenAuthenticates(a.token, secret, decode, a.user.id, c.exp, c.iat);
  }
}

=== FILE: auth_store.dfy ===
/**
 * The frontend's authentication store: `user`, `isAuthenticated` and
 * `loading`, backed by two storage keys, `token` and `user`. The JSON codec
 * for the stored user and the API calls are parameters; the clock is the
 * `now` argument.
 */
module AuthStore {
  import opened Wrappers
  import Strings

  const TokenKey := "token"
  const UserKey := "user"
  const LoginFailed := "Erro ao fazer login"
  const RegisterFailed := "Erro ao criar conta"
  const AdminTokenPrefix := "admin_token_"

  datatype User = User(fullName: string, email: string, role: Option<string>)

  const DevUser := User("Usuário Dev", "dev@test.com", None)
  const AdminUser := User("Administrador", "admin", Some("admin"))

  type Storage = map<string, string>

  datatype Store = Store(user: Option<User>, isAuthenticated: bool, loading: bool, storage: Storage)

  /** The store before its restore effect has run. */
  function Fresh(storage: Storage): Store {
    Store(None, false, true, storage)
  }

  /** What `JSON.parse` makes of a stored string: a syntax error, or a value (`null` is `Value(None)`). */
  datatype Parsed = Malformed | Value(user: Option<User>)

  /** The JSON codec: `JSON.stringify` on users and `JSON.parse`. */
  datatype Codec = Codec(stringify: User -> string, parse: string -> Parsed)

  /** `localStorage.getItem(key)` read as a truthy string. */
  predicate Holds(storage: Storage, key: string) {
    key in storage && storage[key] != ""
  }

  /** The mount effect: dev mode, or restore from storage. */
  function Restore(storage: Storage, devMode: bool, codec: Codec): (r: Store)
    ensures !r.loading
    ensures devMode ==> r == Store(Some(DevUser), true, false, storage)
    ensures !devMode ==>
              (r.isAuthenticated <==> Holds(storage, TokenKey) && Holds(storage, UserKey)
                                      && codec.parse(storage[UserKey]).Value?)
    ensures !devMode && r.isAuthenticated ==> r.user == codec.parse(storage[UserKey]).user
    ensures !devMode && !r.isAuthenticated ==> r.user.None?
    ensures !devMode && Holds(storage, TokenKey) && Holds(storage, UserKey)
            && codec.parse(storage[UserKey]).Malformed? ==>
              r.storage == storage - {TokenKey, UserKey}
    ensures !devMode && !(Holds(storage, TokenKey) && Holds(storage, UserKey)
                          && codec.parse(storage[UserKey]).Malformed?) ==>
              r.storage == storage
  {
    if devMode then Store(Some(DevUser), true, false, storage)
    else if Holds(storage, TokenKey) && Holds(storage, UserKey) then
      match codec.parse(storage[UserKey])
      case Value(u) => Store(u, true, false, storage)
      case Malformed => Store(None, false, false, storage - {TokenKey, UserKey})
    else Store(None, false, false, storage)
  }

  /** Writes both keys and marks the user as signed in. */
  function SignIn(s: Store, token: string, u: User, codec: Codec): Store {
    s.(user := Some(u), isAuthenticated := true,
       storage := s.storage[TokenKey := token][UserKey := codec.stringify(u)])
  }

  /** What the backend answers to a login or register request. */
  datatype ApiReply = Granted(token: string, user: User) | Denied(message: Option<string>)

  datatype Answer = Ok | Err(message: string)

  /** Which branch of `login` produced the answer. */
  datatype LoginPath = AdminShortcut | Api | AdminFallback | Refused

  datatype LoginOutcome = LoginOutcome(store: Store, answer: Answer, path: LoginPath, apiCalled: bool)

  /** `error.response?.data?.message || fallback` */
  function MessageOr(message: Option<string>, fallback: string): (r: string)
    ensures r != "" || fallback == ""
    ensures message.Some? && message.value != "" ==> r == message.value
  {
    if message.Some? && message.value != "" then message.value else fallback
  }

  /** `login(email, password)`; `reply` is the backend's answer, consulted only if the API is called. */
  function Login(s: Store, email: string, password: string, now: nat, reply: ApiReply, codec: Codec): (r: LoginOutcome)
    ensures r.path != AdminFallback
    ensures r.apiCalled <==> !(email == "admin" && password == "admin")
    ensures r.answer.Ok? <==> !r.apiCalled || reply.Granted?
    ensures !r.apiCalled ==>
              r.store == SignIn(s, AdminTokenPrefix + Strings.NatToString(now), AdminUser, codec)
    ensures r.apiCalled && reply.Granted? ==> r.store == SignIn(s, reply.token, reply.user, codec)
    ensures r.apiCalled && reply.Denied? ==>
              r.store == s && r.answer == Err(MessageOr(reply.message, LoginFailed))
  {
    if email == "admin" && password == "admin" then
      LoginOutcome(SignIn(s, AdminTokenPrefix + Strings.NatToString(now), AdminUser, codec), Ok, AdminShortcut, false)
    else
      match reply
      case Granted(token, u) => LoginOutcome(SignIn(s, token, u, codec), Ok, Api, true)
      case Denied(message) =>
        // The catch block repeats the admin check, but control only gets here with other credentials.
        if email == "admin" && password == "admin" then
          LoginOutcome(SignIn(s, AdminTokenPrefix + Strings.NatToString(now), AdminUser, codec), Ok, AdminFallback, true)
        else LoginOutcome(s, Err(MessageOr(message, LoginFailed)), Refused, true)
  }

  datatype RegisterOutcome = RegisterOutcome(store: Store, answer: Answer)

  /** `register(fullName, email, password)`; the arguments go to the backend, whose answer is `reply`. */
  function Register(s: Store, reply: ApiReply, codec: Codec): (r: RegisterOutcome)
    ensures r.answer.Ok? <==> reply.Granted?
    ensures reply.Granted? ==> r.store == SignIn(s, reply.token, reply.user, codec)
    ensures reply.Denied? ==> r.store == s && r.answer == Err(MessageOr(reply.message, RegisterFailed))
  {
    match reply
    case Granted(token, u) => RegisterOutcome(SignIn(s, token, u, codec), Ok)
    case Denied(message) => RegisterOutcome(s, Err(MessageOr(message, RegisterFailed)))
  }

  /** `logout()` */
  function Logout(s: Store): (r: Store)
    ensures r.user.None? && !r.isAuthenticated && r.loading == s.loading
    ensures TokenKey !in r.storage && UserKey !in r.storage
    ensures forall k :: k in s.storage && k != TokenKey && k != UserKey ==> k in r.storage && r.storage[k] == s.storage[k]
    ensures forall k :: k in r.storage ==> k in s.storage
  {
    Store(None, false, s.loading, s.storage - {TokenKey, UserKey})
  }

  /**
   * A successful login survives a page reload: when the codec writes the
   * user as a non-empty text it reads back, and the token is non-empty,
   * the restored store holds the same user and is authenticated.
   */
  lemma LoginSurvivesReload(s: Store, email: string, password: string, now: nat, reply: ApiReply, codec: Codec)
    requires Login(s, email, password, now, reply, codec).answer.Ok?
    requires var u := Login(s, email, password, now, reply, codec).store.user.value;
             codec.stringify(u) != "" && codec.parse(codec.stringify(u)) == Value(Some(u))
    requires reply.Granted? ==> reply.token != ""
    ensures var after := Login(s, email, password, now, reply, codec).store;
            var reloaded := Restore(after.storage, false, codec);
            reloaded.isAuthenticated && reloaded.user == after.user && reloaded.storage == after.storage
  {
    var after := Login(s, email, password, now, reply, codec).store;
    if email == "admin" && password == "admin" {
      assert after.storage[TokenKey] == AdminTokenPrefix + Strings.NatToString(now);
      assert |after.storage[TokenKey]| > 0;
    }
  }

  /** After a logout, a reload restores nobody. */
  lemma LogoutSurvivesReload(s: Store, codec: Codec)
    ensures Restore(Logout(s).storage, false, codec) == Store(None, false, false, Logout(s).storage)
  {
  }

  /** A refused login changes nothing, so the store a reload sees is the one it had before. */
  lemma RefusedLoginKeepsStorage(s: Store, email: string, password: string, now: nat, message: Option<string>, codec: Codec)
    requires !(email == "admin" && password == "admin")
    ensures Login(s, email, password, now, Denied(message), codec).store.storage == s.storage
    ensures Login(s, email, password, now, Denied(message), codec).answer.Err?
  {
  }
}

=== FILE: belvo_client.dfy ===
/**
 * The Belvo API client's decision logic: the access-token cache (refreshed
 * one minute before expiry, one hour by default), the Basic and Bearer
 * authorization headers, the request URLs and the connection-test message.
 * Base64 is a parameter; HTTP and JSON are not modelled.
 */
module BelvoClient {
  import opened Wrappers
  import Strings
  import TokenCache
  import QueryStrings

  /** Refresh 60 s before expiry; 3600 s when the vendor gives no lifetime. */
  const TokenPolicy := TokenCache.Policy(60, 3600)

  const ShownTokenLength: nat := 20
  const ConnectionMessage := "Conexão com Belvo API estabelecida com sucesso! Token obtido: "

  /** `authenticate` with Belvo's policy. */
  function Authenticate(c: TokenCache.Cache, t: TokenCache.Clock, reply: TokenCache.Reply): (r: TokenCache.Step)
    requires TokenCache.ValidCache(c) && TokenCache.ClockInRange(t)
    ensures r.outcome.Reused? <==> TokenCache.Fresh(c, TokenPolicy, t.checkRead)
    ensures r.outcome.Fetched? && reply.Issued? && reply.expiresIn.None? ==>
              r.cache.expiresAt == Some(t.fetchRead + 3600)
  {
    TokenCache.Authenticate(c, TokenPolicy, t, reply)
  }

  /** A token fetched without a stated lifetime is reused for the next 3540 seconds and no longer. */
  lemma DefaultTokenWindow(t: TokenCache.Clock, token: string, later: TokenCache.Clock, again: TokenCache.Reply)
    requires TokenCache.ClockInRange(t) && t.fetchRead < TokenCache.U64Limit - 3600 && TokenCache.ClockInRange(later)
    ensures var first := Authenticate(TokenCache.Empty, t, TokenCache.Issued(token, None));
            first.outcome == TokenCache.Fetched(token)
            && (Authenticate(first.cache, later, again).outcome == TokenCache.Reused(token) <==> later.checkRead < t.fetchRead + 3540)
  {
  }

  /** The Basic credentials before encoding: `secret_id:secret_password`. */
  function Credentials(secretId: string, secretPassword: string): (c: string)
    ensures |c| == |secretId| + 1 + |secretPassword|
  {
    secretId + ":" + secretPassword
  }

  /** When the id contains no ':', the first ':' separates id and password again. */
  lemma CredentialsSplit(secretId: string, secretPassword: string)
    requires ':' !in secretId
    ensures var c := Credentials(secretId, secretPassword);
            c[..|secretId|] == secretId && c[|secretId|] == ':' && c[|secretId| + 1..] == secretPassword
            && ':' !in c[..|secretId|]
  {
  }

  /** The `Authorization` header of the token request; `encode` is base64. */
  function BasicHeader(encode: string -> string, secretId: string, secretPassword: string): (h: string)
    ensures |h| >= 6 && h[..6] == "Basic " && h[6..] == encode(Credentials(secretId, secretPassword))
  {
    "Basic " + encode(Credentials(secretId, secretPassword))
  }

  /** `get_authorization_header` */
  function BearerHeader(token: string): (h: string)
    ensures |h| == 7 + |token| && h[..7] == "Bearer " && h[7..] == token
  {
    "Bearer " + token
  }

  /** Belvo's resource paths and filter names, as the client's URL builders spell them. */
  const Routes := QueryStrings.Routes("/api/accounts/", "/api/transactions/", "/api/balances/", "link", "account")

  /** The URLs requested with every filter given: `link` first on each route, `account` after '&'. */
  lemma FilteredUrls(base: string, item: string, account: string)
    ensures QueryStrings.AccountsUrl(Routes, base, Some(item)) == base + "/api/accounts/" + "?" + "link" + "=" + item
    ensures QueryStrings.TransactionsUrl(Routes, base, Some(item), Some(account))
              == base + "/api/transactions/" + "?" + "link" + "=" + item + "&" + "account" + "=" + account
    ensures QueryStrings.BalancesUrl(Routes, base, Some(item), Some(account))
              == base + "/api/balances/" + "?" + "link" + "=" + item + "&" + "account" + "=" + account
  {
    var path := base + "/api/transactions/";
    var q := "?" + "link" + "=" + item + "&" + "account" + "=" + account;
    assert path + "?" + "link" + "=" + item + "&" + "account" + "=" + account == path + q;
    assert (path + q)[|path|..] == q;
    assert base + "/api/balances/" + q == base + "/api/balances/" + "?" + "link" + "=" + item + "&" + "account" + "=" + account;
  }

  /** The result of `test_connection` once a token is in hand: the message, or a slice panic. */
  datatype Probe = Message(text: string) | SlicePanic

  /**
   * `test_connection` as written: `&token[..20]` slices the first 20 bytes
   * with no length check, so it panics unless some prefix of the token is
   * exactly 20 bytes long.
   */
  function TestConnectionAsWritten(token: string): (r: Probe)
    ensures r.SlicePanic? <==> forall k :: 0 <= k <= |token| ==> Strings.Utf8Len(token[..k]) != ShownTokenLength
    ensures r.Message? ==>
              exists k :: 0 <= k <= |token| && Strings.Utf8Len(token[..k]) == ShownTokenLength
                          && r.text == ConnectionMessage + token[..k] + "..."
    ensures Strings.Utf8Len(token) < ShownTokenLength ==> r.SlicePanic?
  {
    match Strings.BytePrefix(token, ShownTokenLength)
    case None => SlicePanic
    case Some(shown) =>
      assert token[..|shown|] == shown;
      Strings.Utf8LenPrefix(shown, token);
      Message(ConnectionMessage + shown + "...")
  }

  /** A short token, which the vendor's answer does not rule out, makes the as-written probe panic. */
  lemma ShortTokenPanics()
    ensures TestConnectionAsWritten("abc") == SlicePanic
  {
  }

  /**
   * `test_connection` with a bound that cannot panic: the longest prefix of
   * the token that fits in 20 bytes, which is the first 20 characters of an
   * ASCII token.
   */
  function TestConnection(token: string): (r: Probe)
    ensures r.Message?
    ensures |r.text| >= |ConnectionMessage| + 3
    ensures r.text[..|ConnectionMessage|] == ConnectionMessage && r.text[|r.text| - 3..] == "..."
    ensures var shown := r.text[|ConnectionMessage|..|r.text| - 3];
            && shown <= token && Strings.Utf8Len(shown) <= ShownTokenLength
            && (|shown| < |token| ==> Strings.Utf8Len(shown) + Strings.Utf8Width(token[|shown|]) > ShownTokenLength)
    ensures Strings.IsAscii(token) ==>
              r.text == ConnectionMessage + Strings.PrefixUpTo(token, ShownTokenLength) + "..."
  {
    var shown := Strings.PrefixWithin(token, ShownTokenLength);
    var text := ConnectionMessage + shown + "...";
    assert text[|ConnectionMessage|..|text| - 3] == shown;
    if Strings.IsAscii(token) then
      Strings.PrefixWithinAscii(token, ShownTokenLength);
      Message(text)
    else
      Message(text)
  }

  /** The corrected probe agrees with the original wherever the original does not panic. */
  lemma TestConnectionAgrees(token: string)
    ensures TestConnectionAsWritten(token).Message? ==> TestConnection(token) == TestConnectionAsWritten(token)
    ensures TestConnection(token).Message?
  {
    if Strings.BytePrefix(token, ShownTokenLength).Some? {
      Strings.BytePrefixWithin(token, ShownTokenLength);
    }
  }
}

=== FILE: calendar.dfy ===
/**
 * The calendar page: the displayed month, the month grid (leading blanks
 * up to the weekday of the 1st, then the days of the month), Sunday
 * highlighting, and month/year navigation. Months are numbered 0..11 as in
 * JavaScript's `Date`.
 */
module Calendar {
  import opened Wrappers
  import Gregorian

  /** The displayed month; the page always shows day 1 of it. */
  datatype View = View(year: int, month: int)

  predicate Valid(v: View) {
    0 <= v.month < 12
  }

  /** November 2025, the page's starting month. */
  const InitialView := View(2025, 10)

  /** `new Date(y, m, 1)` for any month index: months outside 0..11 roll into neighbouring years. */
  function Normalize(y: int, m: int): (v: View)
    ensures Valid(v)
    ensures 12 * v.year + v.month == 12 * y + m
  {
    View(y + m / 12, m % 12)
  }

  function PreviousMonth(v: View): (r: View)
    requires Valid(v)
    ensures Valid(r)
    ensures 12 * r.year + r.month == 12 * v.year + v.month - 1
  {
    Normalize(v.year, v.month - 1)
  }

  function NextMonth(v: View): (r: View)
    requires Valid(v)
    ensures Valid(r)
    ensures 12 * r.year + r.month == 12 * v.year + v.month + 1
  {
    Normalize(v.year, v.month + 1)
  }

  /** January steps back to December of the year before, December forward to January of the year after. */
  lemma NavigationWraps(v: View)
    requires Valid(v)
    ensures v.month == 0 ==> PreviousMonth(v) == View(v.year - 1, 11)
    ensures v.month > 0 ==> PreviousMonth(v) == View(v.year, v.month - 1)
    ensures v.month == 11 ==> NextMonth(v) == View(v.year + 1, 0)
    ensures v.month < 11 ==> NextMonth(v) == View(v.year, v.month + 1)
  {
  }

  /** Two views of valid months with the same month count are the same view. */
  lemma MonthCountDetermines(a: View, b: View)
    requires Valid(a) && Valid(b)
    requires 12 * a.year + a.month == 12 * b.year + b.month
    ensures a == b
  {
  }

  lemma NavigationRoundTrips(v: View)
    requires Valid(v)
    ensures NextMonth(PreviousMonth(v)) == v
    ensures PreviousMonth(NextMonth(v)) == v
  {
    MonthCountDetermines(NextMonth(PreviousMonth(v)), v);
    MonthCountDetermines(PreviousMonth(NextMonth(v)), v);
  }

  /** The year dropdown: eleven consecutive years from 2020. */
  const Years: seq<int> := seq(11, i => 2020 + i)

  lemma YearsRange(y: int)
    ensures y in Years <==> 2020 <= y <= 2030
  {
    if 2020 <= y <= 2030 {
      assert Years[y - 2020] == y;
    }
  }

  /** Picking a year keeps the month and shows its first day. */
  function SelectYear(v: View, y: int): (r: View)
    requires Valid(v)
    ensures Valid(r) && r.month == v.month && r.year == y
  {
    Normalize(y, v.month)
  }

  /** Weekday of the month's first day, 0 = Sunday. */
  function FirstDay(v: View): (d: nat)
    requires Valid(v)
    ensures d < 7
  {
    Gregorian.Weekday(v.year, v.month + 1, 1)
  }

  function MonthLength(v: View): (n: nat)
    requires Valid(v)
    ensures 28 <= n <= 31
  {
    Gregorian.DaysInMonth(v.year, v.month + 1)
  }

  /** A grid cell: a blank or a day of the month. */
  type Cell = Option<nat>

  /** The grid of a month: `FirstDay` blanks, then the days 1, 2, … in order. */
  predicate IsGrid(v: View, cells: seq<Cell>)
    requires Valid(v)
  {
    && |cells| == FirstDay(v) + MonthLength(v)
    && (forall i :: 0 <= i < FirstDay(v) ==> cells[i].None?)
    && (forall i :: FirstDay(v) <= i < |cells| ==> cells[i] == Some(i - FirstDay(v) + 1))
  }

  /** The two loops that fill `calendarDays`. */
  method BuildGrid(v: View) returns (cells: seq<Cell>)
    requires Valid(v)
    ensures IsGrid(v, cells)
  {
    var firstDay := FirstDay(v);
    var daysInMonth := MonthLength(v);
    cells := [];
    var i := 0;
    while i < firstDay
      invariant 0 <= i <= firstDay
      invariant |cells| == i
      invariant forall k :: 0 <= k < i ==> cells[k].None?
    {
      cells := cells + [None];
      i := i + 1;
    }
    var day := 1;
    while day <= daysInMonth
      invariant 1 <= day <= daysInMonth + 1
      invariant |cells| == firstDay + day - 1
      invariant forall k :: 0 <= k < firstDay ==> cells[k].None?
      invariant forall k :: firstDay <= k < |cells| ==> cells[k] == Some(k - firstDay + 1)
    {
      cells := cells + [Some(day)];
      day := day + 1;
    }
  }

  /** A month's grid has between 28 and 37 cells and holds every day of the month exactly once. */
  lemma GridShape(v: View, cells: seq<Cell>)
    requires Valid(v) && IsGrid(v, cells)
    ensures 28 <= |cells| <= 37
    ensures forall d :: 1 <= d <= MonthLength(v) ==> cells[FirstDay(v) + d - 1] == Some(d)
    ensures forall i, j :: 0 <= i < j < |cells| && cells[i].Some? && cells[j].Some? ==> cells[i].value < cells[j].value
  {
  }

  /** `isSunday`: blanks are never Sundays; a day is one when its weekday is 0. */
  predicate IsSunday(v: View, cell: Cell)
    requires Valid(v)
  {
    cell.Some? && Gregorian.Weekday(v.year, v.month + 1, cell.value) == 0
  }

  /** Sundays sit exactly in the grid's first column. */
  lemma SundayColumn(v: View, cells: seq<Cell>, i: int)
    requires Valid(v) && IsGrid(v, cells)
    requires 0 <= i < |cells|
    ensures IsSunday(v, cells[i]) <==> cells[i].Some? && i % 7 == 0
  {
    if i >= FirstDay(v) {
      var d := i - FirstDay(v) + 1;
      Gregorian.WeekdayFromFirst(v.year, v.month + 1, d);
    }
  }

  /** November 2025 starts on a Saturday: six blanks, then thirty days. */
  lemma InitialGrid()
    ensures FirstDay(InitialView) == 6
    ensures MonthLength(InitialView) == 30
  {
    Gregorian.KnownWeekdays();
  }
}

=== FILE: config.dfy ===
/**
 * `AppConfig::from_env`: the four required variables are read in a fixed
 * order and the first one missing is reported; the environment name
 * defaults to "sandbox", the base URL is the same whatever the environment
 * and the three admin variables are optional. The process environment is
 * a map from variable names to values.
 */
module Config {
  import opened Wrappers

  type Environment = map<string, string>

  const ClientIdVar := "PLUGGY_CLIENT_ID"
  const ClientSecretVar := "PLUGGY_CLIENT_SECRET"
  const EnvironmentVar := "PLUGGY_ENV"
  const DatabaseUrlVar := "DATABASE_URL"
  const JwtSecretVar := "JWT_SECRET"
  const AdminEmailVar := "ADMIN_EMAIL"
  const AdminPasswordVar := "ADMIN_PASSWORD"
  const AdminNameVar := "ADMIN_NAME"

  /** The variables `from_env` cannot do without, in the order it reads them. */
  const RequiredVars := [ClientIdVar, ClientSecretVar, DatabaseUrlVar, JwtSecretVar]

  const DefaultEnvironment := "sandbox"
  const BaseUrl := "https://api.pluggy.ai"
  const NotFoundSuffix := " não encontrada"

  datatype AppConfig = AppConfig(
    clientId: string,
    clientSecret: string,
    environment: string,
    baseUrl: string,
    databaseUrl: string,
    jwtSecret: string,
    adminEmail: Option<string>,
    adminPassword: Option<string>,
    adminName: Option<string>)

  /** `env::var(name).ok()` */
  function Lookup(env: Environment, name: string): (r: Option<string>)
    ensures r.Some? <==> name in env
    ensures r.Some? ==> r.value == env[name]
  {
    if name in env then Some(env[name]) else None
  }

  /** The first of `names` that is not set, if any. */
  function FirstMissing(names: seq<string>, env: Environment): (r: Option<string>)
    ensures r.None? <==> forall i :: 0 <= i < |names| ==> names[i] in env
    ensures r.Some? ==>
              exists i :: 0 <= i < |names| && names[i] == r.value && names[i] !in env
                          && forall j :: 0 <= j < i ==> names[j] in env
  {
    if |names| == 0 then None
    else if names[0] !in env then Some(names[0])
    else
      var rest := FirstMissing(names[1..], env);
      assert forall i :: 1 <= i < |names| ==> names[i] == names[1..][i - 1];
      assert rest.Some? ==>
               exists i :: 0 <= i < |names| && names[i] == rest.value && names[i] !in env
                           && forall j :: 0 <= j < i ==> names[j] in env by {
        if rest.Some? {
          var k :| 0 <= k < |names[1..]| && names[1..][k] == rest.value && names[1..][k] !in env
                   && forall j :: 0 <= j < k ==> names[1..][j] in env;
          assert names[k + 1] == rest.value && names[k + 1] !in env;
          forall j | 0 <= j < k + 1
            ensures names[j] in env
          {
            if j > 0 {
              assert names[j] == names[1..][j - 1];
            }
          }
        }
      }
      rest
  }

  /** The base URL for an environment name: the three arms of the match agree. */
  function BaseUrlFor(environment: string): (url: string)
    ensures url == BaseUrl
  {
    match environment
    case "production" => BaseUrl
    case "sandbox" => BaseUrl
    case _ => BaseUrl
  }

  /** `AppConfig::from_env` */
  function FromEnv(env: Environment): (r: Result<AppConfig, string>)
    ensures r.Failure? <==> FirstMissing(RequiredVars, env).Some?
    ensures r.Failure? ==> r.error == FirstMissing(RequiredVars, env).value + NotFoundSuffix
    ensures r.Success? ==>
              && ClientIdVar in env && r.value.clientId == env[ClientIdVar]
              && ClientSecretVar in env && r.value.clientSecret == env[ClientSecretVar]
              && DatabaseUrlVar in env && r.value.databaseUrl == env[DatabaseUrlVar]
              && JwtSecretVar in env && r.value.jwtSecret == env[JwtSecretVar]
              && r.value.environment == Lookup(env, EnvironmentVar).GetOr(DefaultEnvironment)
              && r.value.baseUrl == BaseUrl
              && r.value.adminEmail == Lookup(env, AdminEmailVar)
              && r.value.adminPassword == Lookup(env, AdminPasswordVar)
              && r.value.adminName == Lookup(env, AdminNameVar)
  {
    RequiredOrder(env);
    if ClientIdVar !in env then Failure(ClientIdVar + NotFoundSuffix)
    else if ClientSecretVar !in env then Failure(ClientSecretVar + NotFoundSuffix)
    else
      var environment := Lookup(env, EnvironmentVar).GetOr(DefaultEnvironment);
      var baseUrl := BaseUrlFor(environment);
      if DatabaseUrlVar !in env then Failure(DatabaseUrlVar + NotFoundSuffix)
      else if JwtSecretVar !in env then Failure(JwtSecretVar + NotFoundSuffix)
      else
        Success(AppConfig(
          env[ClientIdVar], env[ClientSecretVar], environment, baseUrl,
          env[DatabaseUrlVar], env[JwtSecretVar],
          Lookup(env, AdminEmailVar), Lookup(env, AdminPasswordVar), Lookup(env, AdminNameVar)))
  }

  /** The first missing required variable, spelled out in reading order. */
  lemma RequiredOrder(env: Environment)
    ensures FirstMissing(RequiredVars, env) ==
              if ClientIdVar !in env then Some(ClientIdVar)
              else if ClientSecretVar !in env then Some(ClientSecretVar)
              else if DatabaseUrlVar !in env then Some(DatabaseUrlVar)
              else if JwtSecretVar !in env then Some(JwtSecretVar)
              else None
  {
    var names := RequiredVars;
    assert names[1..] == [ClientSecretVar, DatabaseUrlVar, JwtSecretVar];
    assert names[1..][1..] == [DatabaseUrlVar, JwtSecretVar];
    assert names[1..][1..][1..] == [JwtSecretVar];
    assert names[1..][1..][1..][1..] == [];
    var tail3 := FirstMissing(names[1..][1..][1..], env);
    assert tail3 == if JwtSecretVar !in env then Some(JwtSecretVar) else None;
    var tail2 := FirstMissing(names[1..][1..], env);
    assert tail2 == if DatabaseUrlVar !in env then Some(DatabaseUrlVar) else tail3;
    var tail1 := FirstMissing(names[1..], env);
    assert tail1 == if ClientSecretVar !in env then Some(ClientSecretVar) else tail2;
  }

  /** The optional variables never decide whether loading succeeds. */
  lemma OptionalVarsIrrelevant(env: Environment, name: string, value: string)
    requires name !in RequiredVars
    ensures FromEnv(env[name := value]).Success? <==> FromEnv(env).Success?
    ensures FromEnv(env - {name}).Success? <==> FromEnv(env).Success?
  {
    var added := env[name := value];
    var removed := env - {name};
    assert forall i :: 0 <= i < |RequiredVars| ==> (RequiredVars[i] in added <==> RequiredVars[i] in env);
    assert forall i :: 0 <= i < |RequiredVars| ==> (RequiredVars[i] in removed <==> RequiredVars[i] in env);
  }

  /** With the client id missing, that is the error, whatever else is missing too. */
  lemma ClientIdReportedFirst(env: Environment)
    requires ClientIdVar !in env
    ensures FromEnv(env) == Failure("PLUGGY_CLIENT_ID não encontrada")
  {
    assert ClientIdVar + NotFoundSuffix == "PLUGGY_CLIENT_ID não encontrada";
  }

  /** An environment with exactly the required variables loads, in the sandbox, with no admin. */
  lemma MinimalEnvironment(id: string, secret: string, db: string, jwt: string)
    ensures FromEnv(map[ClientIdVar := id, ClientSecretVar := secret, DatabaseUrlVar := db, JwtSecretVar := jwt])
              == Success(AppConfig(id, secret, "sandbox", BaseUrl, db, jwt, None, None, None))
  {
  }
}

=== FILE: connect_modal.dfy ===
/**
 * The bank-connection modal's widget bootstrap.
 *
 * When the modal opens, an effect loads the vendor script (at most once per
 * component instance), checks that the vendor's `PluggyConnect` class is
 * registered globally, asks the backend for a connect token, constructs the
 * widget with that token and reveals it through the first of the methods
 * `open`, `init`, `launch`, `show` that the instance actually has. The
 * effect's cleanup tears the widget down through the first of `close`,
 * `destroy`, `hide`, swallowing any exception, and forgets the handle.
 *
 * The browser is reduced to what the effect observes: whether a matching
 * script tag is in the document and whether the class is registered (`Page`),
 * how the script fetch, the token request and the widget behave (`Env`), and
 * what the effect did (`Trace`). Timers (the 200 ms settle delay and the
 * 1000 ms grace wait) are single steps.
 */
module ConnectModal {
  import opened Wrappers

  /** The candidate methods the widget instance may expose. */
  datatype Member = Open | Init | Launch | Show | Close | Destroy | Hide

  /** Reveal candidates, highest priority first. */
  const RevealOrder: seq<Member> := [Open, Init, Launch, Show]

  /** Teardown candidates, highest priority first. */
  const TeardownOrder: seq<Member> := [Close, Destroy, Hide]

  const ClassMissing := "PluggyConnect não está disponível. Verifique se o script foi carregado corretamente."
  const TokenMissing := "Token não foi retornado pelo servidor"
  const ScriptWithoutClass := "Script carregado mas PluggyConnect não está disponível"
  const ScriptFailed := "Erro ao carregar o script do Pluggy Connect"
  const LoadFallback := "Erro ao carregar o widget. Tente novamente."
  const ConnectFailed := "Erro ao conectar com a instituição financeira. Tente novamente."

  /** The first candidate, in priority order, that is present. */
  function FirstPresent(order: seq<Member>, present: set<Member>): (r: Option<Member>)
    ensures r.None? <==> forall i :: 0 <= i < |order| ==> order[i] !in present
    ensures r.Some? ==> r.value in present
    ensures r.Some? ==> exists i :: 0 <= i < |order| && order[i] == r.value
                                   && forall j :: 0 <= j < i ==> order[j] !in present
  {
    if |order| == 0 then None
    else if order[0] in present then Some(order[0])
    else
      var r := FirstPresent(order[1..], present);
      assert r.Some? ==> exists i :: 1 <= i < |order| && order[i] == r.value
                                     && forall j :: 0 <= j < i ==> order[j] !in present by {
        if r.Some? {
          var i' :| 0 <= i' < |order[1..]| && order[1..][i'] == r.value
                    && forall j :: 0 <= j < i' ==> order[1..][j] !in present;
          assert order[i' + 1] == r.value;
          forall j | 0 <= j < i' + 1
            ensures order[j] !in present
          {
            if j > 0 {
              assert order[j] == order[1..][j - 1];
            }
          }
        }
      }
      assert r.None? ==> forall i :: 0 <= i < |order| ==> order[i] !in present by {
        if r.None? {
          forall i | 0 <= i < |order|
            ensures order[i] !in present
          {
            if i > 0 {
              assert order[i] == order[1..][i - 1];
            }
          }
        }
      }
      r
  }

  /** Which candidate methods the constructed instance has, which of them throw, and with what message. */
  datatype WidgetShape = WidgetShape(members: set<Member>, throwing: set<Member>, failure: string)

  /** A constructed widget: its shape and the connect token it was configured with. */
  datatype Widget = Widget(shape: WidgetShape, connectToken: string)

  /** The part of the document the loader looks at. */
  datatype Page = Page(scriptTag: bool, classDefined: bool)

  /** How an appended script tag ends: `onload` (with or without registering the class) or `onerror`. */
  datatype ScriptFetch = Loaded(definesClass: bool) | LoadError

  /** The backend's answer to the connect-token request. */
  datatype TokenReply = Reply(accessToken: Option<string>, connectToken: Option<string>) | RequestFailed(message: string)

  /**
   * How the script fetch, the token request and the widget behave;
   * `constructorThrows` is the message `new PluggyConnectClass(config)` throws, if it throws.
   */
  datatype Env = Env(script: ScriptFetch, token: TokenReply, widget: WidgetShape, constructorThrows: Option<string>)

  /** Component state: the two `useState`s and the two `useRef`s. */
  datatype Modal = Modal(loading: bool, error: Option<string>, handle: Option<Widget>, scriptLoaded: bool)

  const InitialModal := Modal(false, None, None, false)

  datatype Host = Host(page: Page, modal: Modal)

  /** What one run of the effect did. */
  datatype Trace = Trace(
    loaderCalled: bool,
    scriptAppended: bool,
    tokenRequested: bool,
    constructedWith: Option<string>,
    invoked: seq<Member>)

  const Quiet := Trace(false, false, false, None, [])

  datatype Run = Run(host: Host, trace: Trace)

  /** JavaScript truthiness of an optional string. */
  predicate Truthy(s: Option<string>) {
    s.Some? && s.value != ""
  }

  /** `response.accessToken || response.connectToken`, with a falsy result read as missing. */
  function SelectToken(accessToken: Option<string>, connectToken: Option<string>): (r: Option<string>)
    ensures r.Some? <==> Truthy(accessToken) || Truthy(connectToken)
    ensures Truthy(accessToken) ==> r == accessToken
    ensures !Truthy(accessToken) && Truthy(connectToken) ==> r == connectToken
  {
    if Truthy(accessToken) then accessToken
    else if Truthy(connectToken) then connectToken
    else None
  }

  /** The outcome of `loadPluggyScript`: the page afterwards, whether a tag was appended, and the rejection message if any. */
  datatype Load = Load(page: Page, appended: bool, rejection: Option<string>)

  function LoadScript(page: Page, fetch: ScriptFetch): (r: Load)
    ensures page.scriptTag ==> r == Load(page, false, None)
    ensures !page.scriptTag ==> r.appended && r.page.scriptTag
    ensures r.page.classDefined <==> page.classDefined || (!page.scriptTag && fetch == Loaded(true))
    ensures !page.scriptTag ==> (r.rejection.None? <==> r.page.classDefined && fetch.Loaded?)
    ensures !page.scriptTag && fetch.LoadError? ==> r.rejection == Some(ScriptFailed)
  {
    if page.scriptTag then Load(page, false, None)
    else
      var tagged := page.(scriptTag := true);
      match fetch
      case LoadError => Load(tagged, true, Some(ScriptFailed))
      case Loaded(definesClass) =>
        var settled := tagged.(classDefined := page.classDefined || definesClass);
        if settled.classDefined then Load(settled, true, None)
        else Load(settled, true, Some(ScriptWithoutClass))
  }

  /** `err.message || 'Erro ao carregar o widget. Tente novamente.'` */
  function ErrorText(message: string): (r: string)
    ensures r != ""
    ensures message != "" ==> r == message
  {
    if message != "" then message else LoadFallback
  }

  /** The `catch` block: the message becomes the error and loading ends. */
  function Fail(page: Page, m: Modal, trace: Trace, message: string): Run {
    Run(Host(page, m.(loading := false, error := Some(ErrorText(message)))), trace)
  }

  /** The effect `loadPluggyWidget` for one value of `isOpen`, run to completion. */
  function Effect(isOpen: bool, h: Host, env: Env): (r: Run)
    // A closed modal does nothing at all.
    ensures !isOpen ==> r == Run(h, Quiet)
    // Loading always ends, and any error shown is non-empty.
    ensures isOpen ==> !r.host.modal.loading
    ensures isOpen ==> (r.host.modal.error.Some? ==> r.host.modal.error.value != "")
    // The loader runs exactly when no earlier load of this instance succeeded, and only a successful load sets the flag.
    ensures isOpen ==> r.trace.loaderCalled == !h.modal.scriptLoaded
    ensures isOpen && h.modal.scriptLoaded ==> r.host.modal.scriptLoaded && r.host.page == h.page
    ensures isOpen && !h.modal.scriptLoaded ==>
              (r.host.modal.scriptLoaded <==> LoadScript(h.page, env.script).rejection.None?)
    // A fresh load leaves the page and the appended tag exactly as the loader does.
    ensures isOpen && !h.modal.scriptLoaded ==>
              r.host.page == LoadScript(h.page, env.script).page
              && r.trace.scriptAppended == LoadScript(h.page, env.script).appended
    // A rejected load shows the loader's message and goes no further.
    ensures isOpen && !h.modal.scriptLoaded && LoadScript(h.page, env.script).rejection.Some? ==>
              r.host.modal.error == Some(ErrorText(LoadScript(h.page, env.script).rejection.value))
              && r.host.page == LoadScript(h.page, env.script).page
    // A matching tag already in the document is never duplicated.
    ensures h.page.scriptTag ==> !r.trace.scriptAppended
    ensures r.trace.scriptAppended ==> r.host.page.scriptTag
    // The token is requested exactly when the script is loaded and the class is registered.
    ensures isOpen ==> (r.trace.tokenRequested <==> r.host.modal.scriptLoaded && r.host.page.classDefined)
    ensures !isOpen ==> !r.trace.tokenRequested
    ensures isOpen && r.host.modal.scriptLoaded && !r.host.page.classDefined ==>
              r.host.modal.error == Some(ClassMissing)
    // A failed token request shows its message; a reply without a truthy token shows the fixed one.
    ensures r.trace.tokenRequested && env.token.RequestFailed? ==>
              r.host.modal.error == Some(ErrorText(env.token.message))
    ensures r.trace.tokenRequested && env.token.Reply?
            && SelectToken(env.token.accessToken, env.token.connectToken).None? ==>
              r.host.modal.error == Some(TokenMissing)
    // The constructor is called exactly when a token was obtained, with that token.
    ensures r.trace.constructedWith.Some? <==>
              r.trace.tokenRequested && env.token.Reply?
              && SelectToken(env.token.accessToken, env.token.connectToken).Some?
    ensures r.trace.constructedWith.Some? ==>
              r.trace.constructedWith == SelectToken(env.token.accessToken, env.token.connectToken)
    // A throwing constructor shows its message, keeps the old handle and reveals nothing.
    ensures r.trace.constructedWith.Some? && env.constructorThrows.Some? ==>
              r.host.modal.error == Some(ErrorText(env.constructorThrows.value))
              && r.host.modal.handle == h.modal.handle && r.trace.invoked == []
    // Otherwise the instance becomes the handle.
    ensures r.trace.constructedWith.Some? && env.constructorThrows.None? ==>
              r.host.modal.handle == Some(Widget(env.widget, r.trace.constructedWith.value))
    ensures r.trace.constructedWith.None? ==> r.host.modal.handle == h.modal.handle
    // Reveal calls at most one method: the first present reveal candidate, and only on a constructed widget.
    ensures |r.trace.invoked| <= 1
    ensures r.trace.invoked != [] ==> r.trace.constructedWith.Some? && env.constructorThrows.None?
    ensures r.trace.constructedWith.Some? && env.constructorThrows.None? ==>
              r.trace.invoked == (match FirstPresent(RevealOrder, env.widget.members)
                                  case Some(m) => [m]
                                  case None => [])
    // A reveal that throws shows its message; a reveal that returns, or no candidate at all, ends without an error.
    ensures r.trace.invoked != [] && r.trace.invoked[0] in env.widget.throwing ==>
              r.host.modal.error == Some(ErrorText(env.widget.failure))
    ensures r.trace.constructedWith.Some? && env.constructorThrows.None?
            && (r.trace.invoked == [] || r.trace.invoked[0] !in env.widget.throwing) ==>
              r.host.modal.error.None?
  {
    if !isOpen then Run(h, Quiet)
    else
      var m0 := h.modal.(loading := true, error := None);
      var load := if m0.scriptLoaded then Load(h.page, false, None) else LoadScript(h.page, env.script);
      var t0 := Trace(!m0.scriptLoaded, load.appended, false, None, []);
      if load.rejection.Some? then Fail(load.page, m0, t0, load.rejection.value)
      else
        var m1 := m0.(scriptLoaded := true);
        if !load.page.classDefined then Fail(load.page, m1, t0, ClassMissing)
        else
          var t1 := t0.(tokenRequested := true);
          match env.token
          case RequestFailed(message) => Fail(load.page, m1, t1, message)
          case Reply(accessToken, connectToken) =>
            match SelectToken(accessToken, connectToken)
            case None => Fail(load.page, m1, t1, TokenMissing)
            case Some(token) =>
              var t2 := t1.(constructedWith := Some(token));
              match env.constructorThrows
              case Some(message) => Fail(load.page, m1, t2, message)
              case None =>
                var m2 := m1.(handle := Some(Widget(env.widget, token)));
                match FirstPresent(RevealOrder, env.widget.members)
                case None => Run(Host(load.page, m2.(loading := false)), t2)
                case Some(member) =>
                  var t3 := t2.(invoked := [member]);
                  if member in env.widget.throwing then Fail(load.page, m2, t3, env.widget.failure)
                  else Run(Host(load.page, m2.(loading := false)), t3)
  }

  /** What the cleanup closure did: the component afterwards and the teardown methods it called. */
  datatype Teardown = Teardown(modal: Modal, invoked: seq<Member>)

  /** The effect's cleanup: call the first teardown candidate, ignore what it throws, drop the handle. */
  function Cleanup(m: Modal): (r: Teardown)
    ensures r.modal == m.(handle := None)
    ensures |r.invoked| <= 1
    ensures m.handle.None? ==> r.invoked == []
    ensures m.handle.Some? ==>
              r.invoked == (match FirstPresent(TeardownOrder, m.handle.value.shape.members)
                            case Some(t) => [t]
                            case None => [])
  {
    match m.handle
    case None => Teardown(m, [])
    case Some(w) =>
      var called := match FirstPresent(TeardownOrder, w.shape.members)
                    case Some(t) => [t]
                    case None => [];
      // Whether `called` threw makes no difference: the exception is swallowed.
      Teardown(m.(handle := None), called)
  }

  /** A second cleanup calls nothing and changes nothing. */
  lemma CleanupIdempotent(m: Modal)
    ensures Cleanup(Cleanup(m).modal) == Teardown(Cleanup(m).modal, [])
  {
  }

  /** Teardown uses `destroy` only when `close` is absent, and `hide` only when both are. */
  lemma TeardownPriority(m: Modal)
    requires m.handle.Some?
    ensures Close in m.handle.value.shape.members ==> Cleanup(m).invoked == [Close]
    ensures Close !in m.handle.value.shape.members && Destroy in m.handle.value.shape.members ==>
              Cleanup(m).invoked == [Destroy]
    ensures Close !in m.handle.value.shape.members && Destroy !in m.handle.value.shape.members ==>
              Cleanup(m).invoked == (if Hide in m.handle.value.shape.members then [Hide] else [])
  {
    var members := m.handle.value.shape.members;
    var first := FirstPresent(TeardownOrder, members);
    if Close in members {
      assert TeardownOrder[0] == Close;
    } else if Destroy in members {
      assert TeardownOrder[1] == Destroy;
    } else if Hide in members {
      assert TeardownOrder[2] == Hide;
    }
  }

  /** Reveal uses a lower-priority candidate only when every higher one is absent. */
  lemma RevealPriority(members: set<Member>, k: nat)
    requires k < |RevealOrder|
    ensures FirstPresent(RevealOrder, members) == Some(RevealOrder[k]) <==>
              RevealOrder[k] in members && forall j :: 0 <= j < k ==> RevealOrder[j] !in members
  {
    var r := FirstPresent(RevealOrder, members);
    if r.Some? {
      var i :| 0 <= i < |RevealOrder| && RevealOrder[i] == r.value
               && forall j :: 0 <= j < i ==> RevealOrder[j] !in members;
      if r == Some(RevealOrder[k]) {
        assert i == k;
      }
    }
  }

  /** The widget's own callbacks. */
  datatype Callback = Succeeded | Errored | Closed

  /** The modal after a callback, and whether the parent's `onClose` was invoked. */
  datatype Notice = Notice(modal: Modal, parentClosed: bool)

  function OnCallback(m: Modal, c: Callback): (r: Notice)
    ensures r.parentClosed <==> c != Errored
    ensures c == Errored ==> r.modal.error == Some(ConnectFailed)
    ensures r.modal.(error := m.error) == m
  {
    match c
    case Succeeded => Notice(m, true)
    case Errored => Notice(m.(error := Some(ConnectFailed)), false)
    case Closed => Notice(m, true)
  }

  /**
   * A failed load leaves the flag unset, so the next opening calls the loader
   * again; the tag the failed attempt appended is then found, so the retry
   * appends nothing and only the class check decides.
   */
  lemma FailedLoadIsRetried(h: Host, first: Env, second: Env)
    requires !h.modal.scriptLoaded && !h.page.scriptTag
    requires LoadScript(h.page, first.script).rejection.Some?
    ensures !Effect(true, h, first).host.modal.scriptLoaded
    ensures Effect(true, Effect(true, h, first).host, second).trace.loaderCalled
    ensures !Effect(true, Effect(true, h, first).host, second).trace.scriptAppended
  {
  }

  /**
   * A full session: open with a widget exposing `open` and `close` and a
   * token under `accessToken`; `open` is called once; on success the parent
   * closes the modal and the cleanup calls `close` once.
   */
  lemma OpenSucceedThenClose()
    ensures var env := Env(Loaded(true), Reply(Some("tok_123"), None), WidgetShape({Open, Close}, {}, ""), None);
            var run := Effect(true, Host(Page(false, false), InitialModal), env);
            && run.trace.invoked == [Open]
            && run.trace.constructedWith == Some("tok_123")
            && run.host.modal.error.None?
            && OnCallback(run.host.modal, Succeeded).parentClosed
            && Cleanup(run.host.modal).invoked == [Close]
            && Cleanup(run.host.modal).modal.handle.None?
  {
    var members: set<Member> := {Open, Close};
    assert FirstPresent(RevealOrder, members) == Some(Open);
    assert FirstPresent(TeardownOrder, members) == Some(Close);
  }

  /**
   * The effect sets the handle only after both awaits (the script and the
   * token), so a cleanup React runs while the effect is still waiting finds
   * no handle and tears nothing down; the widget the effect then builds
   * stays up with no cleanup left to close it.
   */
  lemma CleanupDuringLoad(h: Host, env: Env)
    requires h.modal.handle.None?
    requires Effect(true, h, env).trace.constructedWith.Some? && env.constructorThrows.None?
    ensures Cleanup(h.modal).invoked == []
    ensures Effect(true, Host(h.page, Cleanup(h.modal).modal), env) == Effect(true, h, env)
    ensures Effect(true, h, env).host.modal.handle.Some?
  {
  }
}

=== FILE: currency.dfy ===
/**
 * The transactions page's `formatCurrency`: a missing amount renders as
 * "A definir"; any other amount as "R$ " followed by `toFixed(2)` with its
 * decimal point replaced by a comma. Amounts are integer cents.
 */
module Currency {
  import opened Wrappers
  import Strings

  const Undefined := "A definir"
  const Prefix := "R$ "

  function Abs(x: int): nat {
    if x < 0 then -x else x
  }

  /** The two fractional digits of an amount in cents. */
  function Cents2(n: nat): (s: string)
    ensures |s| == 2 && Strings.AllDigits(s)
  {
    [Strings.DigitChar(n % 100 / 10), Strings.DigitChar(n % 10)]
  }

  function Sign(cents: int): string {
    if cents < 0 then "-" else ""
  }

  /** The sign and the integer part. */
  function Head(cents: int): (s: string)
    ensures |s| >= 1
    ensures '.' !in s && ',' !in s
  {
    var s := Sign(cents) + Strings.NatToString(Abs(cents) / 100);
    assert forall i :: 0 <= i < |s| ==> Strings.IsDigit(s[i]) || s[i] == '-';
    s
  }

  /** `(cents / 100).toFixed(2)`: sign, integer part, '.', exactly two digits. */
  function ToFixed2(cents: int): (s: string)
    ensures Strings.Count(s, '.') == 1
  {
    var s := Head(cents) + ['.'] + Cents2(Abs(cents));
    Strings.CountAbsent(Head(cents), '.');
    NoDotInDigits(Cents2(Abs(cents)));
    Strings.CountConcat(Head(cents), ['.'], '.');
    Strings.CountConcat(Head(cents) + ['.'], Cents2(Abs(cents)), '.');
    assert Strings.Count(['.'], '.') == 1;
    s
  }

  function FormatCurrency(amount: Option<int>): (s: string)
    ensures amount.None? <==> s == Undefined
  {
    match amount
    case None => Undefined
    case Some(cents) =>
      var s := Prefix + Strings.ReplaceFirst(ToFixed2(cents), '.', ',');
      assert s[0] != Undefined[0];
      s
  }

  /** Signs and digits contain no '.' and no ','. */
  lemma NoDotInDigits(s: string)
    requires forall i :: 0 <= i < |s| ==> Strings.IsDigit(s[i]) || s[i] == '-'
    ensures Strings.Count(s, '.') == 0 && '.' !in s
    ensures Strings.Count(s, ',') == 0 && ',' !in s
  {
    Strings.CountAbsent(s, '.');
    Strings.CountAbsent(s, ',');
  }

  /** Replacing the first '.' in a text whose prefix has none replaces exactly that one. */
  lemma {:induction false} ReplaceFirstAt(a: string, b: string)
    requires '.' !in a
    ensures Strings.ReplaceFirst(a + ['.'] + b, '.', ',') == a + [','] + b
  {
    if |a| == 0 {
      assert a + ['.'] + b == ['.'] + b;
      assert (['.'] + b)[1..] == b;
    } else {
      assert (a + ['.'] + b)[1..] == a[1..] + ['.'] + b;
      ReplaceFirstAt(a[1..], b);
      assert [a[0]] + (a[1..] + [','] + b) == a + [','] + b;
    }
  }

  /** The text of a present amount, spelled out. */
  lemma Rendering(cents: int)
    ensures FormatCurrency(Some(cents)) == Prefix + Head(cents) + [','] + Cents2(Abs(cents))
  {
    ReplaceFirstAt(Head(cents), Cents2(Abs(cents)));
  }

  /** A present amount renders with the prefix, exactly one ',' and no '.'. */
  lemma CurrencyShape(cents: int)
    ensures var s := FormatCurrency(Some(cents));
            |s| >= 7 && s[..3] == Prefix && Strings.Count(s, ',') == 1 && '.' !in s
  {
    Rendering(cents);
    var head := Head(cents);
    var tail := Cents2(Abs(cents));
    Strings.CountAbsent(head, ',');
    NoDotInDigits(tail);
    var s := FormatCurrency(Some(cents));
    assert s == Prefix + head + [','] + tail;
    Strings.CountConcat(Prefix + head, [','], ',');
    Strings.CountConcat(Prefix + head + [','], tail, ',');
    Strings.CountConcat(Prefix, head, ',');
    assert Strings.Count(Prefix, ',') == 0;
    assert Strings.Count([','], ',') == 1;
  }

  /** The unsigned part: the integer part, ',' and exactly two digits, in cents. */
  function ParseMagnitude(m: string): Option<nat> {
    if |m| < 4 || m[|m| - 3] != ',' then None
    else
      match (Strings.ParseNat(m[..|m| - 3]), Strings.ParseNat(m[|m| - 2..]))
      case (Some(w), Some(f)) => Some(100 * w + f)
      case _ => None
  }

  /** An optional '-' followed by the unsigned part. */
  function ParseSigned(body: string): Option<int> {
    var negative := |body| > 0 && body[0] == '-';
    var m := ParseMagnitude(if negative then body[1..] else body);
    if m.None? then None
    else
      var v: int := m.value;
      Some(if negative then -v else v)
  }

  /** Reads a rendered amount back: "R$ ", then a signed amount. */
  function ParseCurrency(s: string): (r: Option<int>)
    ensures r.Some? ==> |s| >= 3 && s[..3] == Prefix
  {
    if |s| < 3 || s[..3] != Prefix then None else ParseSigned(s[3..])
  }

  lemma ParseMagnitudeOf(whole: string, tail: string)
    requires |whole| >= 1 && Strings.AllDigits(whole)
    requires |tail| == 2 && Strings.AllDigits(tail)
    ensures ParseMagnitude(whole + [','] + tail) == Some(100 * Strings.DigitsValue(whole) + Strings.DigitsValue(tail))
  {
    var m := whole + [','] + tail;
    assert m[|m| - 3] == ',';
    assert m[..|m| - 3] == whole;
    assert m[|m| - 2..] == tail;
  }

  lemma Cents2Value(n: nat)
    ensures Strings.DigitsValue(Cents2(n)) == n % 100
  {
    var tail := Cents2(n);
    Strings.DigitCharValue(n % 100 / 10);
    Strings.DigitCharValue(n % 10);
    assert tail[..1] == [tail[0]];
    assert [tail[0]][..0] == [];
    assert Strings.DigitsValue(tail[..1]) == Strings.DigitsValue([]) * 10 + Strings.DigitValue(tail[0]);
    assert n % 100 == 10 * (n % 100 / 10) + n % 10;
  }

  lemma MagnitudeParsed(n: nat)
    ensures ParseMagnitude(Strings.NatToString(n / 100) + [','] + Cents2(n)) == Some(100 * (n / 100) + n % 100)
  {
    Strings.NatToStringRoundTrip(n / 100);
    Cents2Value(n);
    ParseMagnitudeOf(Strings.NatToString(n / 100), Cents2(n));
  }

  lemma MagnitudeRoundTrip(n: nat)
    ensures ParseMagnitude(Strings.NatToString(n / 100) + [','] + Cents2(n)) == Some(n)
  {
    var whole, cents := n / 100, n % 100;
    assert 100 * whole + cents == n by { DivMod100(n); }
    MagnitudeParsed(n);
  }

  lemma DivMod100(n: nat)
    ensures n == 100 * (n / 100) + n % 100
  {
  }

  lemma ParseSignedOf(m: string)
    requires |m| > 0 && Strings.IsDigit(m[0]) && ParseMagnitude(m).Some?
    ensures ParseSigned(m) == Some(ParseMagnitude(m).value as int)
    ensures ParseSigned(['-'] + m) == Some(-(ParseMagnitude(m).value as int))
  {
    assert (['-'] + m)[1..] == m;
  }

  lemma ParseCurrencyOf(body: string)
    ensures ParseCurrency(Prefix + body) == ParseSigned(body)
  {
    assert (Prefix + body)[..3] == Prefix;
    assert (Prefix + body)[3..] == body;
  }

  /** The rendered text minus the prefix: the sign, then the unsigned part. */
  lemma RenderedBody(cents: int)
    ensures FormatCurrency(Some(cents)) ==
              Prefix + (Sign(cents) + (Strings.NatToString(Abs(cents) / 100) + [','] + Cents2(Abs(cents))))
  {
    Rendering(cents);
  }

  /** Reading back "R$ ", the sign and any unsigned part that parses to the magnitude. */
  lemma ParseRendered(cents: int, m: string)
    requires |m| > 0 && Strings.IsDigit(m[0]) && ParseMagnitude(m) == Some(Abs(cents))
    ensures ParseCurrency(Prefix + (Sign(cents) + m)) == Some(cents)
  {
    ParseCurrencyOf(Sign(cents) + m);
    ParseSignedOf(m);
    if cents >= 0 {
      assert Sign(cents) + m == m;
    } else {
      assert Sign(cents) + m == ['-'] + m;
    }
  }

  lemma FormatParseRoundTrip(cents: int)
    ensures ParseCurrency(FormatCurrency(Some(cents))) == Some(cents)
  {
    var n := Abs(cents);
    var magnitude := Strings.NatToString(n / 100) + [','] + Cents2(n);
    RenderedBody(cents);
    MagnitudeRoundTrip(n);
    assert Strings.IsDigit(magnitude[0]);
    ParseRendered(cents, magnitude);
  }

  /** The page's bills in cents; the fourth has no amount yet. */
  const Bills: seq<Option<int>> := [Some(9990), Some(12340), Some(12000), None]

  lemma BillsRender()
    ensures FormatCurrency(Bills[3]) == Undefined
    ensures FormatCurrency(Bills[0]) == "R$ 99,90"
  {
    Rendering(9990);
    assert Strings.NatToString(9) == "9";
    assert Strings.NatToString(99) == Strings.NatToString(9) + "9";
    assert Head(9990) == "99";
    assert Cents2(9990) == "90";
  }
}

=== FILE: gregorian.dfy ===
/**
 * The proleptic Gregorian calendar, as used by JavaScript's `Date`
 * (`getDay`, month lengths through `new Date(y, m + 1, 0).getDate()`) and by
 * chrono's `NaiveDate`. Months here are numbered 1..12; the calendar view
 * converts from JavaScript's 0..11.
 */
module Gregorian {
  import opened Wrappers
  import Strings

  predicate IsLeapYear(y: int) {
    y % 4 == 0 && (y % 100 != 0 || y % 400 == 0)
  }

  function YearLength(y: int): nat {
    if IsLeapYear(y) then 366 else 365
  }

  function DaysInMonth(y: int, m: int): (n: nat)
    requires 1 <= m <= 12
    ensures 28 <= n <= 31
    ensures m == 2 ==> (n == 29 <==> IsLeapYear(y)) && (n == 28 <==> !IsLeapYear(y))
    ensures m != 2 ==> (n == 30 <==> m == 4 || m == 6 || m == 9 || m == 11)
    ensures m != 2 ==> (n == 31 <==> m == 1 || m == 3 || m == 5 || m == 7 || m == 8 || m == 10 || m == 12)
  {
    if m == 2 then (if IsLeapYear(y) then 29 else 28)
    else if m == 4 || m == 6 || m == 9 || m == 11 then 30
    else 31
  }

  /** Days from 0001-01-01 to January 1st of year `y` (negative before year 1). */
  function DaysBeforeYear(y: int): int {
    var p := y - 1;
    365 * p + p / 4 - p / 100 + p / 400
  }

  /** Days from January 1st to the first of month `m` of year `y`; `m == 13` gives the whole year. */
  function DaysBeforeMonth(y: int, m: int): nat
    requires 1 <= m <= 13
  {
    if m == 1 then 0 else DaysBeforeMonth(y, m - 1) + DaysInMonth(y, m - 1)
  }

  /**
   * Day count of (y, m, d) since 0001-01-01. Any `d` is accepted: like
   * `new Date(y, m - 1, d)`, a day past the month's end runs into the next.
   */
  function DayNumber(y: int, m: int, d: int): int
    requires 1 <= m <= 12
  {
    DaysBeforeYear(y) + DaysBeforeMonth(y, m) + d - 1
  }

  /** Day of the week with 0 = Sunday, as `Date.prototype.getDay`; 0001-01-01 was a Monday. */
  function Weekday(y: int, m: int, d: int): (w: nat)
    requires 1 <= m <= 12
    ensures w < 7
  {
    (DayNumber(y, m, d) + 1) % 7
  }

  lemma YearLengthMatches(y: int)
    ensures DaysBeforeYear(y + 1) == DaysBeforeYear(y) + YearLength(y)
  {
    FloorSteps(y - 1);
    DivisorsNest(y);
    var p := y - 1;
    var leaps := (if y % 4 == 0 then 1 else 0) - (if y % 100 == 0 then 1 else 0) + (if y % 400 == 0 then 1 else 0);
    assert YearLength(y) == 365 + leaps;
    assert DaysBeforeYear(y + 1) == 365 * p + 365 + (p / 4 - p / 100 + p / 400) + leaps;
  }

  /** A multiple of 400 is a multiple of 100, and a multiple of 100 is a multiple of 4. */
  lemma DivisorsNest(y: int)
    ensures y % 400 == 0 ==> y % 100 == 0
    ensures y % 100 == 0 ==> y % 4 == 0
  {
    if y % 400 == 0 {
      CenturyOfQuadricentennial(y);
    }
    if y % 100 == 0 {
      QuadOfCentury(y);
    }
  }

  lemma CenturyOfQuadricentennial(y: int)
    requires y % 400 == 0
    ensures y % 100 == 0
  {
    assert y == 100 * (4 * (y / 400));
  }

  lemma QuadOfCentury(y: int)
    requires y % 100 == 0
    ensures y % 4 == 0
  {
    assert y == 4 * (25 * (y / 100));
  }

  /** Each leap-year count goes up by one exactly when the next year is a multiple of its divisor. */
  lemma FloorSteps(p: int)
    ensures (p + 1) / 4 == p / 4 + (if (p + 1) % 4 == 0 then 1 else 0)
    ensures (p + 1) / 100 == p / 100 + (if (p + 1) % 100 == 0 then 1 else 0)
    ensures (p + 1) / 400 == p / 400 + (if (p + 1) % 400 == 0 then 1 else 0)
  {
  }

  /** The twelve months add up to the year length. */
  lemma MonthsFillYear(y: int)
    ensures DaysBeforeMonth(y, 13) == YearLength(y)
  {
    var feb := DaysInMonth(y, 2);
    assert DaysBeforeMonth(y, 2) == 31;
    assert DaysBeforeMonth(y, 3) == 31 + feb;
    assert DaysBeforeMonth(y, 4) == 62 + feb;
    assert DaysBeforeMonth(y, 5) == 92 + feb;
    assert DaysBeforeMonth(y, 6) == 123 + feb;
    assert DaysBeforeMonth(y, 7) == 153 + feb;
    assert DaysBeforeMonth(y, 8) == 184 + feb;
    assert DaysBeforeMonth(y, 9) == 215 + feb;
    assert DaysBeforeMonth(y, 10) == 245 + feb;
    assert DaysBeforeMonth(y, 11) == 276 + feb;
    assert DaysBeforeMonth(y, 12) == 306 + feb;
  }

  /** The month after (y, m), wrapping December into January of the next year. */
  function FollowingMonth(y: int, m: int): (r: (int, int))
    requires 1 <= m <= 12
    ensures 1 <= r.1 <= 12
  {
    if m == 12 then (y + 1, 1) else (y, m + 1)
  }

  /** Day numbers run on without gap or overlap from one month into the next. */
  lemma FollowingMonthStartsAfter(y: int, m: int)
    requires 1 <= m <= 12
    ensures DayNumber(FollowingMonth(y, m).0, FollowingMonth(y, m).1, 1) == DayNumber(y, m, 1) + DaysInMonth(y, m)
  {
    if m == 12 {
      YearLengthMatches(y);
      MonthsFillYear(y);
    }
  }

  /** The weekday of any day follows from the weekday of the month's first day. */
  lemma WeekdayFromFirst(y: int, m: int, d: int)
    requires 1 <= m <= 12
    ensures Weekday(y, m, d) == (Weekday(y, m, 1) + d - 1) % 7
  {
    var a := DayNumber(y, m, 1) + 1;
    assert DayNumber(y, m, d) + 1 == a + d - 1;
    ModSevenShift(a, d - 1);
  }

  lemma ModSevenShift(a: int, b: int)
    ensures (a + b) % 7 == (a % 7 + b) % 7
  {
    assert a == 7 * (a / 7) + a % 7;
  }

  /** Anchors of the day count: 1970-01-01 was a Thursday and 2025-11-01 a Saturday. */
  lemma KnownWeekdays()
    ensures Weekday(1970, 1, 1) == 4
    ensures Weekday(2025, 11, 1) == 6
    ensures Weekday(2000, 2, 29) == 2
  {
  }

  datatype Date = Date(year: int, month: int, day: int)

  predicate ValidDate(d: Date) {
    1 <= d.month <= 12 && 1 <= d.day <= DaysInMonth(d.year, d.month)
  }

  /** Calendar order of dates. */
  predicate NotAfter(a: Date, b: Date) {
    a.year < b.year
    || (a.year == b.year && a.month < b.month)
    || (a.year == b.year && a.month == b.month && a.day <= b.day)
  }

  lemma NotAfterTotal(a: Date, b: Date)
    ensures NotAfter(a, b) || NotAfter(b, a)
  {
  }

  /** Fixed-width digits: `n` digit characters parsed as a number. */
  function FixedDigits(s: string, n: nat): Option<nat>
  {
    if |s| == n && n > 0 && Strings.AllDigits(s) then Some(Strings.DigitsValue(s)) else None
  }

  /**
   * chrono's `NaiveDate::parse_from_str(s, "%Y-%m-%d")` on a ten-character
   * slice, restricted to the zero-padded `YYYY-MM-DD` shape.
   */
  function ParseIsoDate(s: string): (r: Option<Date>)
    ensures r.Some? ==> ValidDate(r.value) && |s| == 10 && s[4] == '-' && s[7] == '-'
    ensures r.Some? ==> 0 <= r.value.year <= 9999
  {
    if |s| != 10 || s[4] != '-' || s[7] != '-' then None
    else
      match (FixedDigits(s[..4], 4), FixedDigits(s[5..7], 2), FixedDigits(s[8..], 2))
      case (Some(y), Some(m), Some(d)) =>
        if 1 <= m <= 12 && 1 <= d <= DaysInMonth(y, m) then
          assert y <= 9999 by { DigitsBound(s[..4]); }
          Some(Date(y, m, d))
        else None
      case _ => None
  }

  lemma {:induction false} DigitsBound(s: string)
    requires Strings.AllDigits(s)
    ensures Strings.DigitsValue(s) < Pow10(|s|)
  {
    if |s| > 0 {
      DigitsBound(s[..|s| - 1]);
    }
  }

  function Pow10(n: nat): nat {
    if n == 0 then 1 else 10 * Pow10(n - 1)
  }

  /** `v` in exactly `n` decimal digits, zero-padded on the left. */
  function PadDigits(v: nat, n: nat): (s: string)
    requires v < Pow10(n)
    ensures |s| == n && Strings.AllDigits(s)
    ensures Strings.DigitsValue(s) == v
  {
    if n == 0 then ""
    else
      var init := PadDigits(v / 10, n - 1);
      var last := Strings.DigitChar(v % 10);
      assert (init + [last])[..n - 1] == init;
      Strings.DigitCharValue(v % 10);
      init + [last]
  }

  /** Fixed-width digits read back as the text they came from. */
  lemma {:induction false} PadDigitsOfValue(t: string)
    requires Strings.AllDigits(t)
    ensures Strings.DigitsValue(t) < Pow10(|t|)
    ensures PadDigits(Strings.DigitsValue(t), |t|) == t
  {
    DigitsBound(t);
    if |t| > 0 {
      var init := t[..|t| - 1];
      var c := t[|t| - 1];
      PadDigitsOfValue(init);
      var v := Strings.DigitsValue(t);
      assert v == Strings.DigitsValue(init) * 10 + Strings.DigitValue(c);
      assert v / 10 == Strings.DigitsValue(init) && v % 10 == Strings.DigitValue(c);
      assert Strings.DigitChar(Strings.DigitValue(c)) == c;
      assert t == init + [c];
    }
  }

  /** chrono's `%Y-%m-%d` rendering of a date with a four-digit year. */
  function FormatIsoDate(d: Date): (s: string)
    requires ValidDate(d) && 0 <= d.year <= 9999
    ensures |s| == 10 && s[4] == '-' && s[7] == '-'
  {
    PadDigits(d.year, 4) + "-" + PadDigits(d.month, 2) + "-" + PadDigits(d.day, 2)
  }

  /** A valid date with a four-digit year reads back from its rendering. */
  lemma FormatThenParse(d: Date)
    requires ValidDate(d) && 0 <= d.year <= 9999
    ensures ParseIsoDate(FormatIsoDate(d)) == Some(d)
  {
    var f := FormatIsoDate(d);
    assert f[..4] == PadDigits(d.year, 4);
    assert f[5..7] == PadDigits(d.month, 2);
    assert f[8..] == PadDigits(d.day, 2);
    assert FixedDigits(f[..4], 4) == Some(d.year);
    assert FixedDigits(f[5..7], 2) == Some(d.month);
    assert FixedDigits(f[8..], 2) == Some(d.day);
  }

  /** Whatever parses is the rendering of its result: no other spelling is accepted. */
  lemma ParseThenFormat(s: string)
    requires ParseIsoDate(s).Some?
    ensures FormatIsoDate(ParseIsoDate(s).value) == s
  {
    var d := ParseIsoDate(s).value;
    assert PadDigits(d.year, 4) == s[..4] by {
      assert FixedDigits(s[..4], 4) == Some(d.year);
      PadDigitsOfValue(s[..4]);
    }
    assert PadDigits(d.month, 2) == s[5..7] by {
      assert FixedDigits(s[5..7], 2) == Some(d.month);
      PadDigitsOfValue(s[5..7]);
    }
    assert PadDigits(d.day, 2) == s[8..] by {
      assert FixedDigits(s[8..], 2) == Some(d.day);
      PadDigitsOfValue(s[8..]);
    }
    assert s == s[..4] + "-" + s[5..7] + "-" + s[8..];
  }
}

=== FILE: item_sync.dfy ===
/**
 * Saving a connected item and copying its accounts and transactions from
 * the vendor. The three tables are maps keyed by the vendor's ids, the
 * columns their `ON CONFLICT` clauses name: items by `pluggy_item_id`,
 * accounts by `pluggy_account_id`, transactions by `pluggy_transaction_id`.
 * What the vendor answers, the database clock, today's date and the UUIDs
 * the route generates are parameters. Amounts and balances are integer
 * cents.
 */
module ItemSync {
  import opened Wrappers
  import Uuids
  import Gregorian
  import Strings

  const UpdatedStatus := "UPDATED"
  const PendingStatus := "PENDING"

  /** The length of the `YYYY-MM-DD` prefix the sync reads from a vendor date. */
  const DatePrefixLength: nat := 10

  datatype ItemRow = ItemRow(id: Uuids.Uuid, owner: Uuids.Uuid, status: string, connector: Option<string>, updatedAt: int)

  /** An account row; `kind` is the `type` column. */
  datatype AccountRow = AccountRow(
    id: Uuids.Uuid,
    itemId: Uuids.Uuid,
    name: Option<string>,
    number: Option<string>,
    balance: int,
    currency: Option<string>,
    kind: Option<string>,
    subtype: Option<string>,
    updatedAt: int)

  /** A transaction row; `owner` is its `user_id`. */
  datatype TxRow = TxRow(
    accountId: Uuids.Uuid,
    itemId: Uuids.Uuid,
    owner: Uuids.Uuid,
    amount: int,
    date: Gregorian.Date,
    description: Option<string>,
    category: Option<string>,
    currency: Option<string>,
    status: string)

  datatype Db = Db(items: map<string, ItemRow>, accounts: map<string, AccountRow>, transactions: map<string, TxRow>)

  /** An account as the vendor lists it, with the fields the sync reads. */
  datatype RemoteAccount = RemoteAccount(
    id: string,
    name: Option<string>,
    number: Option<string>,
    balance: Option<int>,
    currency: Option<string>,
    kind: Option<string>,
    subtype: Option<string>)

  /** A transaction as the vendor lists it; `date` is an ISO timestamp text. */
  datatype RemoteTransaction = RemoteTransaction(
    id: string,
    amount: int,
    date: string,
    description: Option<string>,
    category: Option<string>,
    currency: Option<string>,
    status: Option<string>)

  /** The item-details request: failed, or the item's connector if it has one. */
  datatype Details = DetailsUnavailable | Details(connector: Option<string>)

  /**
   * What the vendor answers for one item: its details, its accounts (`None`
   * when that request fails) and, per account id, its transactions (a
   * missing key is a failed request).
   */
  datatype Remote = Remote(
    details: Details,
    accounts: Option<seq<RemoteAccount>>,
    transactions: map<string, seq<RemoteTransaction>>)

  /** Why a sync stopped early: a failed request, or a date whose ten-byte slice panics. */
  datatype Abort =
    | AccountsUnavailable
    | TransactionsUnavailable(accountId: string)
    | DateSlicePanic(transactionId: string)

  datatype Outcome = Completed | Aborted(reason: Abort)

  datatype SyncResult = SyncResult(db: Db, outcome: Outcome)

  // ---------------------------------------------------------------- create_item

  /** The answer of `create_item`: the row's id, vendor id and status. */
  datatype ItemResponse = ItemResponse(id: Uuids.Uuid, pluggyItemId: string, status: string)

  datatype Created = Created(db: Db, response: ItemResponse)

  /**
   * `create_item`'s upsert: a new vendor id gets a row owned by the caller
   * with status "UPDATED"; a known one keeps its row, owner and status and
   * only has `updated_at` bumped.
   */
  function CreateItem(db: Db, pluggyItemId: string, user: Uuids.Uuid, freshId: Uuids.Uuid, now: int): (r: Created)
    ensures r.db.accounts == db.accounts && r.db.transactions == db.transactions
    ensures r.db.items.Keys == db.items.Keys + {pluggyItemId}
    ensures forall k :: k in db.items && k != pluggyItemId ==> r.db.items[k] == db.items[k]
    ensures pluggyItemId !in db.items ==>
              r.db.items[pluggyItemId] == ItemRow(freshId, user, UpdatedStatus, None, now)
    ensures pluggyItemId in db.items ==>
              r.db.items[pluggyItemId] == db.items[pluggyItemId].(updatedAt := now)
    ensures r.response == ItemResponse(r.db.items[pluggyItemId].id, pluggyItemId, r.db.items[pluggyItemId].status)
  {
    var row := if pluggyItemId in db.items then db.items[pluggyItemId].(updatedAt := now)
               else ItemRow(freshId, user, UpdatedStatus, None, now);
    Created(db.(items := db.items[pluggyItemId := row]), ItemResponse(row.id, pluggyItemId, row.status))
  }

  /** Connecting the same item again, by anyone, answers with the same row and keeps its owner. */
  lemma CreateItemAgain(db: Db, pluggyItemId: string, user: Uuids.Uuid, other: Uuids.Uuid,
                        id1: Uuids.Uuid, id2: Uuids.Uuid, now1: int, now2: int)
    ensures var first := CreateItem(db, pluggyItemId, user, id1, now1);
            var second := CreateItem(first.db, pluggyItemId, other, id2, now2);
            second.response == first.response
            && second.db.items[pluggyItemId].owner == first.db.items[pluggyItemId].owner
            && second.db.items[pluggyItemId] == first.db.items[pluggyItemId].(updatedAt := now2)
  {
  }

  // ---------------------------------------------------------------- the item's connector

  /** `UPDATE items SET connector = $1 WHERE id = $2` */
  function SetConnector(items: map<string, ItemRow>, itemRowId: Uuids.Uuid, connector: string): (r: map<string, ItemRow>)
    ensures r.Keys == items.Keys
    ensures forall k :: k in items ==>
              r[k] == if items[k].id == itemRowId then items[k].(connector := Some(connector)) else items[k]
  {
    map k | k in items :: if items[k].id == itemRowId then items[k].(connector := Some(connector)) else items[k]
  }

  /** Step 0 of the sync: the connector is written only when the details arrive and carry one. */
  function SaveConnector(items: map<string, ItemRow>, itemRowId: Uuids.Uuid, details: Details): (r: map<string, ItemRow>)
    ensures details.DetailsUnavailable? || details.connector.None? ==> r == items
    ensures details.Details? && details.connector.Some? ==> r == SetConnector(items, itemRowId, details.connector.value)
  {
    match details
    case Details(Some(c)) => SetConnector(items, itemRowId, c)
    case _ => items
  }

  lemma SaveConnectorTwice(items: map<string, ItemRow>, itemRowId: Uuids.Uuid, details: Details)
    ensures SaveConnector(SaveConnector(items, itemRowId, details), itemRowId, details) == SaveConnector(items, itemRowId, details)
  {
  }

  // ---------------------------------------------------------------- accounts

  /** A missing balance counts as zero. */
  function BalanceOf(a: RemoteAccount): int {
    a.balance.GetOr(0)
  }

  /** The `DO UPDATE` arm of the account upsert: balance, name and `updated_at`. */
  function Refresh(row: AccountRow, a: RemoteAccount, now: int): (r: AccountRow)
    ensures r.balance == BalanceOf(a) && r.name == a.name && r.updatedAt == now
    ensures r.id == row.id && r.itemId == row.itemId && r.number == row.number
    ensures r.currency == row.currency && r.kind == row.kind && r.subtype == row.subtype
  {
    row.(balance := BalanceOf(a), name := a.name, updatedAt := now)
  }

  /** The `VALUES` arm of the account upsert. */
  function NewAccount(a: RemoteAccount, freshId: Uuids.Uuid, itemRowId: Uuids.Uuid, now: int): (r: AccountRow)
    ensures Refresh(r, a, now) == r
    ensures r.id == freshId && r.itemId == itemRowId
  {
    AccountRow(freshId, itemRowId, a.name, a.number, BalanceOf(a), a.currency, a.kind, a.subtype, now)
  }

  /** The account upsert keyed by the vendor's account id. */
  function UpsertAccount(accounts: map<string, AccountRow>, a: RemoteAccount, itemRowId: Uuids.Uuid,
                         freshId: Uuids.Uuid, now: int): (r: map<string, AccountRow>)
    ensures r.Keys == accounts.Keys + {a.id}
    ensures forall k :: k in accounts && k != a.id ==> r[k] == accounts[k]
    ensures a.id in accounts ==> r[a.id] == Refresh(accounts[a.id], a, now)
    ensures a.id !in accounts ==> r[a.id] == NewAccount(a, freshId, itemRowId, now)
  {
    var row := if a.id in accounts then Refresh(accounts[a.id], a, now) else NewAccount(a, freshId, itemRowId, now);
    accounts[a.id := row]
  }

  // ---------------------------------------------------------------- transactions

  /**
   * `&tx.date[0..10]`: the characters making up the date's first ten bytes,
   * or None where the slice panics (fewer than ten bytes, or byte ten inside
   * a character).
   */
  function DatePrefix(t: RemoteTransaction): (r: Option<string>)
    ensures r.Some? ==> r.value <= t.date && Strings.Utf8Len(r.value) == DatePrefixLength
    ensures Strings.Utf8Len(t.date) < DatePrefixLength ==> r.None?
    ensures Strings.IsAscii(t.date) ==> (r.Some? <==> |t.date| >= DatePrefixLength)
    ensures Strings.IsAscii(t.date) && r.Some? ==> r.value == t.date[..DatePrefixLength]
  {
    var r := Strings.BytePrefix(t.date, DatePrefixLength);
    if r.Some? then
      Strings.Utf8LenPrefix(r.value, t.date);
      AsciiDatePrefix(t.date);
      r
    else
      AsciiDatePrefix(t.date);
      r
  }

  /** On an ASCII date the byte slice is the character slice. */
  lemma AsciiDatePrefix(date: string)
    ensures Strings.IsAscii(date) && |date| >= DatePrefixLength ==>
              Strings.BytePrefix(date, DatePrefixLength) == Some(date[..DatePrefixLength])
    ensures Strings.IsAscii(date) && |date| < DatePrefixLength ==> Strings.BytePrefix(date, DatePrefixLength).None?
  {
    if Strings.IsAscii(date) {
      Strings.Utf8LenAscii(date);
      if |date| >= DatePrefixLength {
        var p := date[..DatePrefixLength];
        assert Strings.IsAscii(p) by {
          forall i | 0 <= i < |p|
            ensures p[i] as int < 0x80
          {
            assert p[i] == date[i];
          }
        }
        Strings.Utf8LenAscii(p);
        var r := Strings.BytePrefix(date, DatePrefixLength);
        if r.Some? {
          assert r.value == date[..|r.value|];
          Strings.Utf8LenAscii(r.value);
          assert Strings.IsAscii(r.value) by {
            forall i | 0 <= i < |r.value|
              ensures r.value[i] as int < 0x80
            {
              assert r.value[i] == date[i];
            }
          }
        }
      } else if Strings.BytePrefix(date, DatePrefixLength).Some? {
        Strings.Utf8LenPrefix(Strings.BytePrefix(date, DatePrefixLength).value, date);
      }
    }
  }

  /** Whether the date slice succeeds. */
  predicate DateSlices(t: RemoteTransaction) {
    DatePrefix(t).Some?
  }

  /** The date column: the sliced date read as `YYYY-MM-DD`, today's date when it does not parse. */
  function TxDate(t: RemoteTransaction, today: Gregorian.Date): (d: Gregorian.Date)
    requires DateSlices(t)
    ensures Gregorian.ParseIsoDate(DatePrefix(t).value).Some? ==>
              d == Gregorian.ParseIsoDate(DatePrefix(t).value).value && Gregorian.ValidDate(d)
    ensures Gregorian.ParseIsoDate(DatePrefix(t).value).None? ==> d == today
  {
    Gregorian.ParseIsoDate(DatePrefix(t).value).GetOr(today)
  }

  /** The row a vendor transaction becomes; a missing status is "PENDING". */
  function NewTx(t: RemoteTransaction, accountRowId: Uuids.Uuid, itemRowId: Uuids.Uuid, owner: Uuids.Uuid,
                 today: Gregorian.Date): (r: TxRow)
    requires DateSlices(t)
    ensures r.owner == owner && r.itemId == itemRowId && r.accountId == accountRowId && r.amount == t.amount
    ensures t.status.None? ==> r.status == PendingStatus
    ensures t.status.Some? ==> r.status == t.status.value
    ensures Gregorian.ValidDate(today) ==> Gregorian.ValidDate(r.date)
  {
    TxRow(accountRowId, itemRowId, owner, t.amount, TxDate(t, today), t.description, t.category, t.currency,
          t.status.GetOr(PendingStatus))
  }

  /** The first transaction whose ten-byte date slice panics. */
  function FirstUnsliceable(txs: seq<RemoteTransaction>): (r: Option<string>)
    ensures r.None? <==> forall k :: 0 <= k < |txs| ==> DateSlices(txs[k])
  {
    if |txs| == 0 then None
    else if !DateSlices(txs[0]) then Some(txs[0].id)
    else
      assert forall k :: 1 <= k < |txs| ==> txs[k] == txs[1..][k - 1];
      FirstUnsliceable(txs[1..])
  }

  /** The transactions handled before a panic, or all of them. */
  function Inserted(txs: seq<RemoteTransaction>): (p: seq<RemoteTransaction>)
    ensures |p| <= |txs|
    ensures FirstUnsliceable(txs).None? ==> p == txs
  {
    if |txs| == 0 || !DateSlices(txs[0]) then []
    else [txs[0]] + Inserted(txs[1..])
  }

  function TxIds(txs: seq<RemoteTransaction>): set<string> {
    if |txs| == 0 then {} else {txs[0].id} + TxIds(txs[1..])
  }

  /**
   * `after` keeps every row of `before` as it was and adds rows exactly
   * under the keys of `added`.
   */
  ghost predicate Extends(before: map<string, TxRow>, after: map<string, TxRow>, added: set<string>) {
    && (forall y :: y in before ==> y in after && after[y] == before[y])
    && (forall y :: y in after ==> y in before || y in added)
    && (forall y :: y in added ==> y in after)
  }

  /** Every row `after` adds to `before` belongs to `owner` and the item. */
  ghost predicate AddsOwnedBy(before: map<string, TxRow>, after: map<string, TxRow>, owner: Uuids.Uuid, itemRowId: Uuids.Uuid) {
    forall y :: y in after && y !in before ==> after[y].owner == owner && after[y].itemId == itemRowId
  }

  lemma ExtendsChain(a: map<string, TxRow>, b: map<string, TxRow>, c: map<string, TxRow>, k1: set<string>, k2: set<string>)
    requires Extends(a, b, k1) && Extends(b, c, k2)
    ensures Extends(a, c, k1 + k2)
  {
  }

  /** The outcome of one account's transaction loop: the table afterwards, and the panic, if any. */
  datatype Pass = Pass(transactions: map<string, TxRow>, stopped: Option<string>)

  /** The transaction loop of one account: insert-if-absent by vendor id, stopping at a date whose slice panics. */
  function InsertTransactions(table: map<string, TxRow>, txs: seq<RemoteTransaction>, accountRowId: Uuids.Uuid,
                              itemRowId: Uuids.Uuid, owner: Uuids.Uuid, today: Gregorian.Date): (r: Pass)
    decreases |txs|
    ensures r.stopped == FirstUnsliceable(txs)
    ensures Extends(table, r.transactions, TxIds(Inserted(txs)))
    ensures AddsOwnedBy(table, r.transactions, owner, itemRowId)
  {
    if |txs| == 0 then Pass(table, None)
    else if !DateSlices(txs[0]) then Pass(table, Some(txs[0].id))
    else
      var t := txs[0];
      var next := if t.id in table then table else table[t.id := NewTx(t, accountRowId, itemRowId, owner, today)];
      var rest := InsertTransactions(next, txs[1..], accountRowId, itemRowId, owner, today);
      ExtendsChain(table, next, rest.transactions, {t.id}, TxIds(Inserted(txs[1..])));
      rest
  }

  /** A loop over rows that are all present already changes nothing. */
  lemma InsertPresentUnchanged(table: map<string, TxRow>, txs: seq<RemoteTransaction>, accountRowId: Uuids.Uuid,
                               itemRowId: Uuids.Uuid, owner: Uuids.Uuid, today: Gregorian.Date)
    requires TxIds(Inserted(txs)) <= table.Keys
    ensures InsertTransactions(table, txs, accountRowId, itemRowId, owner, today).transactions == table
  {
  }

  // ---------------------------------------------------------------- the account loop

  /** The account at which the loop stops: its transactions could not be fetched, or one has a date whose slice panics. */
  predicate Stops(a: RemoteAccount, txLists: map<string, seq<RemoteTransaction>>) {
    a.id !in txLists || FirstUnsliceable(txLists[a.id]).Some?
  }

  /** The accounts the loop upserts: up to and including the one it stops at. */
  function Upserted(accounts: seq<RemoteAccount>, txLists: map<string, seq<RemoteTransaction>>): (p: seq<RemoteAccount>)
    ensures |p| <= |accounts|
  {
    if |accounts| == 0 then []
    else if Stops(accounts[0], txLists) then [accounts[0]]
    else [accounts[0]] + Upserted(accounts[1..], txLists)
  }

  /** How the loop ends, from the vendor's answers alone. */
  function LoopOutcome(accounts: seq<RemoteAccount>, txLists: map<string, seq<RemoteTransaction>>): Outcome {
    if |accounts| == 0 then Completed
    else if accounts[0].id !in txLists then Aborted(TransactionsUnavailable(accounts[0].id))
    else if FirstUnsliceable(txLists[accounts[0].id]).Some? then Aborted(DateSlicePanic(FirstUnsliceable(txLists[accounts[0].id]).value))
    else LoopOutcome(accounts[1..], txLists)
  }

  /** The vendor transaction ids the loop reaches. */
  function ReachedTxIds(p: seq<RemoteAccount>, txLists: map<string, seq<RemoteTransaction>>): set<string> {
    if |p| == 0 then {}
    else (if p[0].id in txLists then TxIds(Inserted(txLists[p[0].id])) else {}) + ReachedTxIds(p[1..], txLists)
  }

  function AccountIds(p: seq<RemoteAccount>): set<string> {
    if |p| == 0 then {} else {p[0].id} + AccountIds(p[1..])
  }

  /** The last entry of `p` with id `x`: the one whose balance and name stick. */
  function LastWith(p: seq<RemoteAccount>, x: string): (r: Option<RemoteAccount>)
    ensures r.Some? <==> x in AccountIds(p)
    ensures r.Some? ==> r.value.id == x
  {
    if |p| == 0 then None
    else
      match LastWith(p[1..], x)
      case Some(a) => Some(a)
      case None => if p[0].id == x then Some(p[0]) else None
  }

  /**
   * The effect of upserting `p` in order on the accounts table: accounts
   * not in `p` untouched; each one in `p` present, carrying the balance
   * and name of its last entry and the clock; an existing row keeps
   * everything else; a new row hangs off the item.
   */
  ghost predicate Refreshes(before: map<string, AccountRow>, after: map<string, AccountRow>, p: seq<RemoteAccount>,
                      itemRowId: Uuids.Uuid, now: int) {
    && (forall x :: x !in AccountIds(p) ==> (x in after <==> x in before) && (x in before ==> after[x] == before[x]))
    && (forall x :: x in AccountIds(p) ==> x in after && after[x] == Refresh(after[x], LastWith(p, x).value, now))
    && (forall x :: x in AccountIds(p) && x in before ==> after[x] == Refresh(before[x], LastWith(p, x).value, now))
    && (forall x :: x in AccountIds(p) && x !in before ==> after[x].itemId == itemRowId)
  }

  lemma RefreshesNothing(accounts: map<string, AccountRow>, itemRowId: Uuids.Uuid, now: int)
    ensures Refreshes(accounts, accounts, [], itemRowId, now)
  {
  }

  /** One more upsert in front of a run of upserts. */
  lemma RefreshesStep(before: map<string, AccountRow>, after: map<string, AccountRow>, a: RemoteAccount,
                      p: seq<RemoteAccount>, itemRowId: Uuids.Uuid, freshId: Uuids.Uuid, now: int)
    requires Refreshes(UpsertAccount(before, a, itemRowId, freshId, now), after, p, itemRowId, now)
    ensures Refreshes(before, after, [a] + p, itemRowId, now)
  {
    var mid := UpsertAccount(before, a, itemRowId, freshId, now);
    var q := [a] + p;
    assert q[1..] == p;
    assert AccountIds(q) == {a.id} + AccountIds(p);
    forall x | x in AccountIds(q)
      ensures x in after && after[x] == Refresh(after[x], LastWith(q, x).value, now)
      ensures x in before ==> after[x] == Refresh(before[x], LastWith(q, x).value, now)
      ensures x !in before ==> after[x].itemId == itemRowId
    {
      if x !in AccountIds(p) {
        assert x == a.id && LastWith(q, x) == Some(a);
      } else {
        assert LastWith(q, x) == LastWith(p, x);
      }
    }
  }

  /**
   * The account loop from account number `k` of the vendor's list:
   * upsert, fetch the account's transactions, insert them, go on. The
   * `k`-th ids UUID is the id a new account row would get.
   */
  function SyncAccounts(db: Db, accounts: seq<RemoteAccount>, txLists: map<string, seq<RemoteTransaction>>,
                        itemRowId: Uuids.Uuid, owner: Uuids.Uuid, ids: nat -> Uuids.Uuid, k: nat,
                        now: int, today: Gregorian.Date): (r: SyncResult)
    decreases |accounts|
    ensures r.db.items == db.items
    ensures r.outcome == LoopOutcome(accounts, txLists)
  {
    if |accounts| == 0 then SyncResult(db, Completed)
    else
      var a := accounts[0];
      var upserted := UpsertAccount(db.accounts, a, itemRowId, ids(k), now);
      var db1 := db.(accounts := upserted);
      if a.id !in txLists then SyncResult(db1, Aborted(TransactionsUnavailable(a.id)))
      else
        var pass := InsertTransactions(db1.transactions, txLists[a.id], upserted[a.id].id, itemRowId, owner, today);
        var db2 := db1.(transactions := pass.transactions);
        if pass.stopped.Some? then SyncResult(db2, Aborted(DateSlicePanic(pass.stopped.value)))
        else SyncAccounts(db2, accounts[1..], txLists, itemRowId, owner, ids, k + 1, now, today)
  }

  /** What the account loop does to the accounts table. */
  lemma {:induction false} SyncAccountsRefreshes(db: Db, accounts: seq<RemoteAccount>, txLists: map<string, seq<RemoteTransaction>>,
                                                 itemRowId: Uuids.Uuid, owner: Uuids.Uuid, ids: nat -> Uuids.Uuid, k: nat,
                                                 now: int, today: Gregorian.Date)
    decreases |accounts|
    ensures Refreshes(db.accounts, SyncAccounts(db, accounts, txLists, itemRowId, owner, ids, k, now, today).db.accounts,
                      Upserted(accounts, txLists), itemRowId, now)
  {
    if |accounts| == 0 {
      RefreshesNothing(db.accounts, itemRowId, now);
    } else {
      var a := accounts[0];
      var upserted := UpsertAccount(db.accounts, a, itemRowId, ids(k), now);
      var r := SyncAccounts(db, accounts, txLists, itemRowId, owner, ids, k, now, today);
      if Stops(a, txLists) {
        assert r.db.accounts == upserted;
        RefreshesNothing(upserted, itemRowId, now);
        assert [a] + [] == [a];
        RefreshesStep(db.accounts, upserted, a, [], itemRowId, ids(k), now);
      } else {
        var db1 := db.(accounts := upserted);
        var pass := InsertTransactions(db1.transactions, txLists[a.id], upserted[a.id].id, itemRowId, owner, today);
        var db2 := db1.(transactions := pass.transactions);
        assert r == SyncAccounts(db2, accounts[1..], txLists, itemRowId, owner, ids, k + 1, now, today);
        SyncAccountsRefreshes(db2, accounts[1..], txLists, itemRowId, owner, ids, k + 1, now, today);
        RefreshesStep(db.accounts, r.db.accounts, a, Upserted(accounts[1..], txLists), itemRowId, ids(k), now);
      }
    }
  }

  /** What the account loop does to the transactions table. */
  lemma {:induction false} SyncAccountsExtends(db: Db, accounts: seq<RemoteAccount>, txLists: map<string, seq<RemoteTransaction>>,
                                               itemRowId: Uuids.Uuid, owner: Uuids.Uuid, ids: nat -> Uuids.Uuid, k: nat,
                                               now: int, today: Gregorian.Date)
    decreases |accounts|
    ensures var r := SyncAccounts(db, accounts, txLists, itemRowId, owner, ids, k, now, today);
            && Extends(db.transactions, r.db.transactions, ReachedTxIds(Upserted(accounts, txLists), txLists))
            && AddsOwnedBy(db.transactions, r.db.transactions, owner, itemRowId)
  {
    if |accounts| > 0 {
      var a := accounts[0];
      var p := Upserted(accounts, txLists);
      var upserted := UpsertAccount(db.accounts, a, itemRowId, ids(k), now);
      var db1 := db.(accounts := upserted);
      if a.id in txLists {
        var pass := InsertTransactions(db1.transactions, txLists[a.id], upserted[a.id].id, itemRowId, owner, today);
        var db2 := db1.(transactions := pass.transactions);
        assert p[1..] == if Stops(a, txLists) then [] else Upserted(accounts[1..], txLists);
        if !Stops(a, txLists) {
          var r := SyncAccounts(db2, accounts[1..], txLists, itemRowId, owner, ids, k + 1, now, today);
          SyncAccountsExtends(db2, accounts[1..], txLists, itemRowId, owner, ids, k + 1, now, today);
          ExtendsChain(db.transactions, pass.transactions, r.db.transactions,
                       TxIds(Inserted(txLists[a.id])), ReachedTxIds(Upserted(accounts[1..], txLists), txLists));
        }
      } else {
        assert p == [a] && p[1..] == [];
      }
    }
  }

  // ---------------------------------------------------------------- sync_item_data

  /**
   * `sync_item_data` for the item whose row has id `itemRowId` and belongs
   * to `owner`: the connector first (a failed details request is only
   * logged), then the accounts (a failed list request ends the sync), then
   * the account loop.
   */
  function Sync(db: Db, remote: Remote, itemRowId: Uuids.Uuid, owner: Uuids.Uuid, ids: nat -> Uuids.Uuid,
                now: int, today: Gregorian.Date): (r: SyncResult)
    ensures r.db.items == SaveConnector(db.items, itemRowId, remote.details)
    ensures remote.accounts.None? ==>
              r == SyncResult(db.(items := r.db.items), Aborted(AccountsUnavailable))
    ensures remote.accounts.Some? ==> r.outcome == LoopOutcome(remote.accounts.value, remote.transactions)
  {
    var db0 := db.(items := SaveConnector(db.items, itemRowId, remote.details));
    match remote.accounts
    case None => SyncResult(db0, Aborted(AccountsUnavailable))
    case Some(accounts) => SyncAccounts(db0, accounts, remote.transactions, itemRowId, owner, ids, 0, now, today)
  }

  /**
   * A sync never alters a transaction row that was already stored, and every
   * row it adds carries the `owner` it was called with: the item row's owner
   * for webhooks and the scheduler, the caller for `create_item` (who need
   * not be the owner of an item connected earlier by someone else).
   */
  lemma SyncKeepsTransactions(db: Db, remote: Remote, itemRowId: Uuids.Uuid, owner: Uuids.Uuid,
                              ids: nat -> Uuids.Uuid, now: int, today: Gregorian.Date)
    ensures var r := Sync(db, remote, itemRowId, owner, ids, now, today);
            && (forall y :: y in db.transactions ==> y in r.db.transactions && r.db.transactions[y] == db.transactions[y])
            && AddsOwnedBy(db.transactions, r.db.transactions, owner, itemRowId)
  {
    if remote.accounts.Some? {
      var db0 := db.(items := SaveConnector(db.items, itemRowId, remote.details));
      SyncAccountsExtends(db0, remote.accounts.value, remote.transactions, itemRowId, owner, ids, 0, now, today);
    }
  }

  /**
   * Running the sync again with the same vendor answers, clock and date
   * changes nothing, whatever UUIDs the second run generates: existing
   * accounts keep their ids, rows already stored are skipped, and the
   * connector is written with the value it already has.
   */
  lemma SyncIdempotent(db: Db, remote: Remote, itemRowId: Uuids.Uuid, owner: Uuids.Uuid,
                       ids1: nat -> Uuids.Uuid, ids2: nat -> Uuids.Uuid, now: int, today: Gregorian.Date)
    ensures var once := Sync(db, remote, itemRowId, owner, ids1, now, today);
            Sync(once.db, remote, itemRowId, owner, ids2, now, today) == once
  {
    var once := Sync(db, remote, itemRowId, owner, ids1, now, today);
    var twice := Sync(once.db, remote, itemRowId, owner, ids2, now, today);
    SaveConnectorTwice(db.items, itemRowId, remote.details);
    if remote.accounts.Some? {
      var accounts := remote.accounts.value;
      var txLists := remote.transactions;
      var p := Upserted(accounts, txLists);
      var keys := ReachedTxIds(p, txLists);
      var db0 := db.(items := SaveConnector(db.items, itemRowId, remote.details));
      var db1 := once.db.(items := SaveConnector(once.db.items, itemRowId, remote.details));
      assert db1 == once.db;
      SyncAccountsRefreshes(db0, accounts, txLists, itemRowId, owner, ids1, 0, now, today);
      SyncAccountsRefreshes(db1, accounts, txLists, itemRowId, owner, ids2, 0, now, today);
      RefreshedAgain(db0.accounts, once.db.accounts, twice.db.accounts, p, itemRowId, now);
      SyncAccountsExtends(db0, accounts, txLists, itemRowId, owner, ids1, 0, now, today);
      SyncAccountsExtends(db1, accounts, txLists, itemRowId, owner, ids2, 0, now, today);
      ExtendedAgain(db0.transactions, once.db.transactions, twice.db.transactions, keys);
    }
  }

  /** Upserting the same accounts twice leaves the table as the first pass left it. */
  lemma RefreshedAgain(a: map<string, AccountRow>, b: map<string, AccountRow>, c: map<string, AccountRow>,
                       p: seq<RemoteAccount>, itemRowId: Uuids.Uuid, now: int)
    requires Refreshes(a, b, p, itemRowId, now) && Refreshes(b, c, p, itemRowId, now)
    ensures c == b
  {
    forall x | x in AccountIds(p)
      ensures x in c && c[x] == b[x]
    {
      assert c[x] == Refresh(b[x], LastWith(p, x).value, now);
    }
  }

  /** Inserting the same rows twice leaves the table as the first pass left it. */
  lemma ExtendedAgain(a: map<string, TxRow>, b: map<string, TxRow>, c: map<string, TxRow>, keys: set<string>)
    requires Extends(a, b, keys) && Extends(b, c, keys)
    ensures c == b
  {
  }
}

=== FILE: pluggy_client.dfy ===
/**
 * The Pluggy API client's decision logic: the API-key cache (refreshed five
 * minutes before expiry, two hours by default), the request URLs and the
 * truncated key it logs. HTTP and JSON are not modelled; the key endpoint's
 * answer is a parameter.
 */
module PluggyClient {
  import opened Wrappers
  import Strings
  import TokenCache
  import QueryStrings

  /** Refresh 300 s before expiry; 7200 s when the vendor gives no lifetime. */
  const KeyPolicy := TokenCache.Policy(300, 7200)

  const LoggedKeyLength: nat := 20
  const ConnectionMessage := "Conexão com Pluggy API estabelecida com sucesso! API Key obtido: "

  /** `authenticate` with Pluggy's policy. */
  function Authenticate(c: TokenCache.Cache, t: TokenCache.Clock, reply: TokenCache.Reply): (r: TokenCache.Step)
    requires TokenCache.ValidCache(c) && TokenCache.ClockInRange(t)
    ensures r.outcome.Reused? <==> TokenCache.Fresh(c, KeyPolicy, t.checkRead)
    ensures r.outcome.Fetched? && reply.Issued? && reply.expiresIn.None? ==>
              r.cache.expiresAt == Some(t.fetchRead + 7200)
  {
    TokenCache.Authenticate(c, KeyPolicy, t, reply)
  }

  /** A key fetched without a stated lifetime is reused for the next 6900 seconds and no longer. */
  lemma DefaultKeyWindow(t: TokenCache.Clock, key: string, later: TokenCache.Clock, again: TokenCache.Reply)
    requires TokenCache.ClockInRange(t) && t.fetchRead < TokenCache.U64Limit - 7200 && TokenCache.ClockInRange(later)
    ensures var first := Authenticate(TokenCache.Empty, t, TokenCache.Issued(key, None));
            first.outcome == TokenCache.Fetched(key)
            && (Authenticate(first.cache, later, again).outcome == TokenCache.Reused(key) <==> later.checkRead < t.fetchRead + 6900)
  {
  }

  /** Pluggy's resource paths and filter names, as the client's URL builders spell them. */
  const Routes := QueryStrings.Routes("/accounts", "/transactions", "/balances", "itemId", "accountId")

  /** The URLs requested with every filter given: `itemId` first on each route, `accountId` after '&'. */
  lemma FilteredUrls(base: string, item: string, account: string)
    ensures QueryStrings.AccountsUrl(Routes, base, Some(item)) == base + "/accounts" + "?" + "itemId" + "=" + item
    ensures QueryStrings.TransactionsUrl(Routes, base, Some(item), Some(account))
              == base + "/transactions" + "?" + "itemId" + "=" + item + "&" + "accountId" + "=" + account
    ensures QueryStrings.BalancesUrl(Routes, base, Some(item), Some(account))
              == base + "/balances" + "?" + "itemId" + "=" + item + "&" + "accountId" + "=" + account
  {
    var path := base + "/transactions";
    var q := "?" + "itemId" + "=" + item + "&" + "accountId" + "=" + account;
    assert path + "?" + "itemId" + "=" + item + "&" + "accountId" + "=" + account == path + q;
    assert (path + q)[|path|..] == q;
    assert base + "/balances" + q == base + "/balances" + "?" + "itemId" + "=" + item + "&" + "accountId" + "=" + account;
  }

  /**
   * `&api_key[..20.min(api_key.len())]`, logged before the connect-token
   * request: the key's first 20 bytes, or the whole key when it is shorter.
   * `len()` counts bytes, so the slice is never past the end, but it still
   * panics (None) when byte 20 falls inside a character; ASCII keys never do.
   */
  function LoggedKey(key: string): (r: Option<string>)
    ensures r.Some? ==> r.value == Strings.PrefixWithin(key, LoggedKeyLength)
    ensures r.None? <==>
              Strings.Utf8Len(key) > LoggedKeyLength
              && forall k :: 0 <= k <= |key| ==> Strings.Utf8Len(key[..k]) != LoggedKeyLength
    ensures Strings.Utf8Len(key) <= LoggedKeyLength ==> r == Some(key)
    ensures Strings.IsAscii(key) ==> r == Some(Strings.PrefixUpTo(key, LoggedKeyLength))
  {
    var n := if Strings.Utf8Len(key) < LoggedKeyLength then Strings.Utf8Len(key) else LoggedKeyLength;
    var r := Strings.BytePrefix(key, n);
    Strings.BytePrefixWhole(key);
    if Strings.Utf8Len(key) <= LoggedKeyLength then
      Strings.PrefixWithinWhole(key, LoggedKeyLength);
      assert key[..|key|] == key;
      r
    else if r.Some? then
      Strings.BytePrefixWithin(key, n);
      assert key[..|r.value|] == r.value;
      AsciiLogged(key);
      r
    else
      AsciiLogged(key);
      r
  }

  /** An ASCII key's first 20 bytes are its first 20 characters, so its slice succeeds. */
  lemma AsciiLogged(key: string)
    requires Strings.Utf8Len(key) > LoggedKeyLength
    ensures Strings.IsAscii(key) ==>
              Strings.BytePrefix(key, LoggedKeyLength) == Some(Strings.PrefixUpTo(key, LoggedKeyLength))
  {
    if Strings.IsAscii(key) {
      Strings.Utf8LenAscii(key);
      var p := key[..LoggedKeyLength];
      assert Strings.IsAscii(p) by {
        forall i | 0 <= i < |p|
          ensures p[i] as int < 0x80
        {
          assert p[i] == key[i];
        }
      }
      Strings.Utf8LenAscii(p);
      Strings.BytePrefixWithin(key, LoggedKeyLength);
      Strings.PrefixWithinAscii(key, LoggedKeyLength);
    }
  }

  /** `test_connection`'s message for a key, or None where the key slice panics. */
  function TestConnectionMessage(key: string): (m: Option<string>)
    ensures m.Some? <==> LoggedKey(key).Some?
    ensures m.Some? ==> m.value == ConnectionMessage + Strings.PrefixWithin(key, LoggedKeyLength) + "..."
    ensures Strings.IsAscii(key) ==> m == Some(ConnectionMessage + Strings.PrefixUpTo(key, LoggedKeyLength) + "...")
  {
    match LoggedKey(key)
    case None => None
    case Some(shown) => Some(ConnectionMessage + shown + "...")
  }
}

=== FILE: protected_route.dfy ===
/** The guard around authenticated pages. */
module ProtectedRoute {
  import AuthStore

  const LoginPath := "/login"

  /** What the guard renders: the page, the loading placeholder, or a redirect to the login path. */
  datatype Render = Children | Placeholder | RedirectLogin

  function Decide(devMode: bool, loading: bool, isAuthenticated: bool): (r: Render)
    ensures r == Children <==> devMode || (!loading && isAuthenticated)
    ensures r == Placeholder <==> !devMode && loading
    ensures r == RedirectLogin <==> !devMode && !loading && !isAuthenticated
  {
    if devMode then Children
    else if loading then Placeholder
    else if !isAuthenticated then RedirectLogin
    else Children
  }

  /** The guard applied to the store. */
  function Guard(devMode: bool, s: AuthStore.Store): (r: Render)
    ensures r == Children <==> devMode || (!s.loading && s.isAuthenticated)
    ensures r == Placeholder <==> !devMode && s.loading
    ensures r == RedirectLogin <==> !devMode && !s.loading && !s.isAuthenticated
  {
    Decide(devMode, s.loading, s.isAuthenticated)
  }

  /** Once the store has restored, the placeholder is never shown and the page shows exactly for a restored session. */
  lemma RestoredStoreDecides(storage: AuthStore.Storage, codec: AuthStore.Codec)
    ensures Guard(false, AuthStore.Restore(storage, false, codec)) != Placeholder
    ensures Guard(false, AuthStore.Restore(storage, false, codec)) == Children <==>
              AuthStore.Restore(storage, false, codec).isAuthenticated
    ensures Guard(true, AuthStore.Restore(storage, true, codec)) == Children
  {
  }

  /** Before the restore effect the placeholder shows, and after a logout the guard redirects. */
  lemma FreshAndLoggedOut(storage: AuthStore.Storage, s: AuthStore.Store)
    requires !s.loading
    ensures Guard(false, AuthStore.Fresh(storage)) == Placeholder
    ensures Guard(false, AuthStore.Logout(s)) == RedirectLogin
  {
  }
}

=== FILE: query_strings.dfy ===
/**
 * The query-string builder the vendor clients share: each optional filter
 * that is present contributes `name=value`, in a fixed order; the
 * contributions are joined with '&' and appended after '?', and nothing is
 * appended when no filter is present.
 */
module QueryStrings {
  import opened Wrappers
  import Strings

  /** A filter: its parameter name and its optional value. */
  datatype Filter = Filter(name: string, value: Option<string>)

  /** The `params` vector: one `name=value` per present filter, in order. */
  function Params(filters: seq<Filter>): (ps: seq<string>)
    ensures |ps| <= |filters|
    ensures |ps| == 0 <==> forall i :: 0 <= i < |filters| ==> filters[i].value.None?
  {
    if |filters| == 0 then []
    else
      var rest := Params(filters[1..]);
      assert |rest| == 0 <==> forall i :: 0 <= i < |filters| ==> i == 0 || filters[i].value.None? by {
        if |rest| == 0 {
          forall i | 1 <= i < |filters|
            ensures filters[i].value.None?
          {
            assert filters[i] == filters[1..][i - 1];
          }
        } else {
          var i :| 0 <= i < |filters[1..]| && filters[1..][i].value.Some?;
          assert filters[i + 1].value.Some?;
        }
      }
      match filters[0].value
      case Some(v) => [filters[0].name + "=" + v] + rest
      case None => rest
  }

  /** `url`, or `url?` followed by the parameters joined with '&'. */
  function WithQuery(url: string, filters: seq<Filter>): (r: string)
    ensures Params(filters) == [] ==> r == url
    ensures Params(filters) != [] ==> r == url + "?" + Strings.Join(Params(filters), "&")
  {
    var ps := Params(filters);
    if |ps| == 0 then url else url + "?" + Strings.Join(ps, "&")
  }

  /** The two-filter form both clients use for transactions and balances. */
  function TwoFilters(first: string, a: Option<string>, second: string, b: Option<string>): seq<Filter> {
    [Filter(first, a), Filter(second, b)]
  }

  /** The parameters of two filters, spelled out: first before second, and only those present. */
  lemma TwoFiltersParams(first: string, a: Option<string>, second: string, b: Option<string>)
    ensures Params(TwoFilters(first, a, second, b)) ==
              (if a.Some? then [first + "=" + a.value] else []) + (if b.Some? then [second + "=" + b.value] else [])
  {
    var fs := TwoFilters(first, a, second, b);
    assert fs[1..] == [Filter(second, b)];
    assert fs[1..][1..] == [];
  }

  /** A vendor's resource paths and the names of its item and account filters. */
  datatype Routes = Routes(accounts: string, transactions: string, balances: string, itemKey: string, accountKey: string)

  /** The accounts URL: `?itemKey=value` is appended only when an item filter is given. */
  function AccountsUrl(routes: Routes, base: string, itemId: Option<string>): (r: string)
    ensures itemId.None? ==> r == base + routes.accounts
    ensures itemId.Some? ==> r == base + routes.accounts + "?" + routes.itemKey + "=" + itemId.value
  {
    match itemId
    case Some(v) => base + routes.accounts + "?" + routes.itemKey + "=" + v
    case None => base + routes.accounts
  }

  /**
   * The transactions URL: the bare path exactly when no filter is given;
   * otherwise '?', then the item filter before the account filter, joined
   * by '&'.
   */
  function TransactionsUrl(routes: Routes, base: string, itemId: Option<string>, accountId: Option<string>): (r: string)
    ensures var path := base + routes.transactions;
            |r| >= |path| && r[..|path|] == path
            && (r == path <==> itemId.None? && accountId.None?)
            && (r != path ==> r[|path|] == '?')
    ensures var path := base + routes.transactions;
            && (itemId.Some? && accountId.None? ==> r == path + "?" + routes.itemKey + "=" + itemId.value)
            && (itemId.None? && accountId.Some? ==> r == path + "?" + routes.accountKey + "=" + accountId.value)
            && (itemId.Some? && accountId.Some? ==>
                  r == path + "?" + routes.itemKey + "=" + itemId.value + "&" + routes.accountKey + "=" + accountId.value)
  {
    var path := base + routes.transactions;
    var fs := TwoFilters(routes.itemKey, itemId, routes.accountKey, accountId);
    TwoFiltersParams(routes.itemKey, itemId, routes.accountKey, accountId);
    assert itemId.Some? && accountId.Some? ==>
             WithQuery(path, fs)
               == path + "?" + routes.itemKey + "=" + itemId.value + "&" + routes.accountKey + "=" + accountId.value by {
      if itemId.Some? && accountId.Some? {
        var a := routes.itemKey + "=" + itemId.value;
        var b := routes.accountKey + "=" + accountId.value;
        Strings.JoinPair(a, b, "&");
        assert path + "?" + (a + "&" + b)
            == path + "?" + routes.itemKey + "=" + itemId.value + "&" + routes.accountKey + "=" + accountId.value;
      }
    }
    WithQuery(path, fs)
  }

  /** The balances URL carries exactly the transactions URL's query, on the balances path. */
  function BalancesUrl(routes: Routes, base: string, itemId: Option<string>, accountId: Option<string>): (r: string)
    ensures r == base + routes.balances + TransactionsUrl(routes, base, itemId, accountId)[|base + routes.transactions|..]
  {
    WithQuery(base + routes.balances, TwoFilters(routes.itemKey, itemId, routes.accountKey, accountId))
  }

  /**
   * When no name or value contains '&', splitting the query text on '&'
   * recovers the parameters in order.
   */
  lemma QuerySplits(url: string, filters: seq<Filter>)
    requires Params(filters) != []
    requires forall i :: 0 <= i < |Params(filters)| ==> '&' !in Params(filters)[i]
    ensures var r := WithQuery(url, filters);
            r[..|url| + 1] == url + "?"
            && Strings.Split(r[|url| + 1..], '&') == Params(filters)
  {
    var r := WithQuery(url, filters);
    var q := Strings.Join(Params(filters), "&");
    assert r == (url + "?") + q;
    assert r[|url| + 1..] == q;
    Strings.SplitJoin(Params(filters), '&');
  }
}

=== FILE: register_form.dfy ===
/**
 * The registration page's submit handler: three checks in a fixed order,
 * then the store's `register` call, then navigation or an error message.
 */
module RegisterForm {
  import opened Wrappers
  import Strings

  const PasswordMismatch := "As senhas não coincidem"
  const PasswordTooShort := "A senha deve ter pelo menos 6 caracteres"
  const TermsNotAccepted := "Você deve aceitar os termos de acesso"
  const MinPasswordLength := 6
  const HomePath := "/home"

  datatype Form = Form(fullName: string, email: string, password: string, confirmPassword: string, acceptTerms: bool)

  /** The page's `error` and `loading` state. */
  datatype Page = Page(error: string, loading: bool)

  /**
   * The first failed check's message, or None when the form may be
   * submitted. `password.length` counts UTF-16 code units, so a character
   * outside the Basic Multilingual Plane counts twice.
   */
  function Validate(f: Form): (r: Option<string>)
    ensures r == Some(PasswordMismatch) <==> f.password != f.confirmPassword
    ensures r == Some(PasswordTooShort) <==>
              f.password == f.confirmPassword && Strings.Utf16Len(f.password) < MinPasswordLength
    ensures r == Some(TermsNotAccepted) <==>
              f.password == f.confirmPassword && Strings.Utf16Len(f.password) >= MinPasswordLength && !f.acceptTerms
    ensures r.None? <==>
              f.password == f.confirmPassword && Strings.Utf16Len(f.password) >= MinPasswordLength && f.acceptTerms
  {
    if f.password != f.confirmPassword then Some(PasswordMismatch)
    else if Strings.Utf16Len(f.password) < MinPasswordLength then Some(PasswordTooShort)
    else if !f.acceptTerms then Some(TermsNotAccepted)
    else None
  }

  /**
   * The length rule in characters: a password of six or more characters
   * always passes it, one of fewer than three never does, and in between
   * the count of characters agrees with `length` exactly for text inside
   * the Basic Multilingual Plane.
   */
  lemma LengthRuleInCharacters(f: Form)
    requires f.password == f.confirmPassword
    ensures |f.password| >= MinPasswordLength ==> Validate(f) != Some(PasswordTooShort)
    ensures 2 * |f.password| < MinPasswordLength ==> Validate(f) == Some(PasswordTooShort)
    ensures Strings.InBmp(f.password) ==> (Validate(f) == Some(PasswordTooShort) <==> |f.password| < MinPasswordLength)
  {
    Strings.Utf16LenBmp(f.password);
  }

  /** What the store's `register` answers. */
  datatype Reply = Registered | Refused(message: string)

  /** The arguments passed to `register`. */
  datatype Call = Call(fullName: string, email: string, password: string)

  /**
   * One submission: the page afterwards, the `register` call made (if any),
   * the navigation target (if any), and whether loading was on while the
   * call was pending.
   */
  datatype Submission = Submission(page: Page, call: Option<Call>, navigate: Option<string>, loadingDuringCall: bool)

  /** `handleSubmit`; `reply` is what `register` would answer, consulted only if it is called. */
  function Submit(page: Page, f: Form, reply: Reply): (r: Submission)
    ensures r.call.Some? <==> Validate(f).None?
    ensures r.call.Some? ==> r.call.value == Call(f.fullName, f.email, f.password)
    ensures Validate(f).Some? ==>
              r.page == Page(Validate(f).value, page.loading) && r.navigate.None? && !r.loadingDuringCall
    ensures r.call.Some? ==> r.loadingDuringCall && !r.page.loading
    ensures r.navigate.Some? <==> r.call.Some? && reply.Registered?
    ensures r.navigate.Some? ==> r.navigate.value == HomePath && r.page.error == ""
    ensures r.call.Some? && reply.Refused? ==> r.page.error == reply.message
  {
    var cleared := page.(error := "");
    match Validate(f)
    case Some(message) => Submission(cleared.(error := message), None, None, false)
    case None =>
      var call := Some(Call(f.fullName, f.email, f.password));
      match reply
      case Registered => Submission(cleared.(loading := false), call, Some(HomePath), true)
      case Refused(message) => Submission(Page(message, false), call, None, true)
  }

  /** The previous error never shows through: the outcome depends only on the loading flag, the form and the reply. */
  lemma SubmitForgetsPreviousError(p: Page, q: Page, f: Form, reply: Reply)
    requires p.loading == q.loading
    ensures Submit(p, f, reply) == Submit(q, f, reply)
  {
  }

  /** A mismatch is reported whatever the other fields hold. */
  lemma MismatchTakesPrecedence(f: Form, terms: bool, other: string)
    requires f.password != f.confirmPassword
    ensures Validate(f.(acceptTerms := terms)) == Some(PasswordMismatch)
    ensures other != f.confirmPassword ==> Validate(f.(password := other)) == Some(PasswordMismatch)
  {
  }
}

=== FILE: request_guard.dfy ===
/**
 * The request guard that turns an `Authorization` header into the caller's
 * user id. Exactly one such header is required; every "Bearer " in it is
 * removed, the rest is decoded as a JWT with the configured secret, and the
 * `sub` claim must read as a UUID. JWT decoding, including the expiry check,
 * is a parameter.
 */
module RequestGuard {
  import opened Wrappers
  import Strings
  import Uuids

  /** The HTTP statuses the backend's routes answer with. */
  datatype Status = Ok | NoContent | Unauthorized | NotFound | Conflict | InternalServerError

  /** The JWT claims the backend signs and reads. */
  datatype Claims = Claims(sub: string, exp: int, iat: int)

  /** `decode::<Claims>(token, secret)`: the claims, or `None` for a bad signature, an expired token or junk. */
  type Decoder = (string, string) -> Option<Claims>

  /** Where the guard sends the request: to the route with a user, or away with a status. */
  datatype Outcome = Authenticated(user: Uuids.Uuid) | Forward(status: Status)

  const BearerPrefix := "Bearer "

  /** `keys[0].replace("Bearer ", "")`: never longer than the header, and the header itself when it holds no "Bearer ". */
  function TokenOf(header: string): (t: string)
    ensures |t| <= |header|
    ensures (forall i :: 0 <= i < |header| ==> !Strings.OccursAt(header, BearerPrefix, i)) ==> t == header
    ensures Strings.OccursAt(header, BearerPrefix, 0) ==> t == TokenOf(header[|BearerPrefix|..])
  {
    assert (forall i :: 0 <= i < |header| ==> !Strings.OccursAt(header, BearerPrefix, i)) ==>
             Strings.ReplaceAll(header, BearerPrefix, "") == header by {
      if forall i :: 0 <= i < |header| ==> !Strings.OccursAt(header, BearerPrefix, i) {
        Strings.ReplaceAllAbsent(header, BearerPrefix, "");
      }
    }
    Strings.ReplaceAll(header, BearerPrefix, "")
  }

  /**
   * `AuthenticatedUser::from_request`. `headers` are the values of every
   * `Authorization` header; `secret` is the managed configuration's JWT
   * secret, `None` when no configuration is managed.
   */
  function FromRequest(headers: seq<string>, secret: Option<string>, decode: Decoder): (r: Outcome)
    ensures |headers| != 1 ==> r == Forward(Unauthorized)
    ensures r.Forward? ==> r.status == Unauthorized || r.status == InternalServerError
    ensures r.Forward? && r.status == InternalServerError <==> |headers| == 1 && secret.None?
    ensures r.Authenticated? <==>
              |headers| == 1 && secret.Some? && decode(TokenOf(headers[0]), secret.value).Some?
              && Uuids.Parse(decode(TokenOf(headers[0]), secret.value).value.sub).Some?
    ensures r.Authenticated? ==>
              Some(r.user) == Uuids.Parse(decode(TokenOf(headers[0]), secret.value).value.sub)
  {
    if |headers| != 1 then Forward(Unauthorized)
    else
      var token := TokenOf(headers[0]);
      match secret
      case None => Forward(InternalServerError)
      case Some(key) =>
        match decode(token, key)
        case None => Forward(Unauthorized)
        case Some(claims) =>
          match Uuids.Parse(claims.sub)
          case Some(id) => Authenticated(id)
          case None => Forward(Unauthorized)
  }

  /** A token with no space in it loses exactly its "Bearer " prefix. */
  lemma BearerStripped(token: string)
    requires ' ' !in token
    ensures TokenOf(BearerPrefix + token) == token
  {
    var h := BearerPrefix + token;
    assert h[..|BearerPrefix|] == BearerPrefix;
    assert h[|BearerPrefix|..] == token;
    forall i: nat
      ensures !Strings.OccursAt(token, BearerPrefix, i)
    {
      if i + |BearerPrefix| <= |token| {
        assert token[i + 6] == token[i..i + |BearerPrefix|][6];
      }
    }
    Strings.ReplaceAllAbsent(token, BearerPrefix, "");
  }

  /** A first character that does not start a "Bearer " is kept, and the scan goes on from the next one. */
  lemma OtherCharKept(header: string)
    requires |header| > 0 && !Strings.OccursAt(header, BearerPrefix, 0)
    ensures TokenOf(header) == [header[0]] + TokenOf(header[1..])
  {
    Strings.ReplaceAllOtherChar(header, BearerPrefix, "");
  }

  /** A leading run of "Bearer " goes whole, however long: "Bearer Bearer t" carries the token t. */
  lemma RepeatedPrefixStripped(n: nat, rest: string)
    ensures TokenOf(Strings.Repeat(BearerPrefix, n) + rest) == TokenOf(rest)
  {
    Strings.ReplaceAllRepeated(BearerPrefix, "", n, rest);
    Strings.RepeatEmpty(n);
    assert "" + Strings.ReplaceAll(rest, BearerPrefix, "") == Strings.ReplaceAll(rest, BearerPrefix, "");
  }

  /**
   * Every occurrence goes, wherever it is: the text before the first
   * "Bearer " is kept, that occurrence is dropped, and the rest is stripped
   * the same way ("xBearer t" carries "xt").
   */
  lemma FirstOccurrenceStripped(before: string, rest: string)
    requires forall j :: 0 <= j < |before| ==> !Strings.OccursAt(before + BearerPrefix + rest, BearerPrefix, j)
    ensures TokenOf(before + BearerPrefix + rest) == before + TokenOf(rest)
  {
    var h := before + BearerPrefix + rest;
    Strings.ReplaceAllKeepsClear(h, BearerPrefix, "", |before|);
    assert h[..|before|] == before;
    assert h[|before|..] == BearerPrefix + rest;
    Strings.ReplaceAllLeading(BearerPrefix, "", rest);
  }

  /**
   * A bearer token whose claims name a user's printed id lets that user in,
   * and nobody else.
   */
  lemma SignedTokenAuthenticates(token: string, secret: string, decode: Decoder, user: Uuids.Uuid, exp: int, iat: int)
    requires ' ' !in token
    requires decode(token, secret) == Some(Claims(Uuids.Format(user), exp, iat))
    ensures FromRequest([BearerPrefix + token], Some(secret), decode) == Authenticated(user)
  {
    BearerStripped(token);
    Uuids.FormatParse(user);
  }

  /** Two `Authorization` headers are refused even when each alone would pass. */
  lemma TwoHeadersRefused(a: string, b: string, secret: Option<string>, decode: Decoder)
    ensures FromRequest([a, b], secret, decode) == Forward(Unauthorized)
  {
  }
}

=== FILE: settings.dfy ===
/**
 * The settings page's three records (notifications, security, preferences)
 * and the handlers that change them.
 */
module Settings {

  datatype Notifications = Notifications(email: bool, push: bool, sms: bool, transactions: bool, achievements: bool)

  /** The keys `handleNotificationChange` is called with. */
  datatype NotificationKey = Email | Push | Sms | TransactionAlerts | Achievements

  datatype Security = Security(twoFactor: bool, biometric: bool, sessionTimeout: int)

  datatype Preferences = Preferences(language: string, currency: string, theme: string)

  datatype Settings = Settings(notifications: Notifications, security: Security, preferences: Preferences)

  const Initial := Settings(
    Notifications(true, true, false, true, true),
    Security(false, false, 30),
    Preferences("pt-BR", "BRL", "dark"))

  /** The session-timeout choices, in minutes; 0 means never. */
  const SessionTimeouts: seq<int> := [15, 30, 60, 120, 0]
  const Languages: seq<string> := ["pt-BR", "en-US", "es-ES"]
  const Currencies: seq<string> := ["BRL", "USD", "EUR"]
  const Themes: seq<string> := ["dark", "light", "auto"]

  /** `prev[key]` */
  function Get(n: Notifications, k: NotificationKey): bool {
    match k
    case Email => n.email
    case Push => n.push
    case Sms => n.sms
    case TransactionAlerts => n.transactions
    case Achievements => n.achievements
  }

  /** `handleNotificationChange(key)` */
  function Toggle(n: Notifications, k: NotificationKey): (r: Notifications)
    ensures Get(r, k) == !Get(n, k)
    ensures forall j :: j != k ==> Get(r, j) == Get(n, j)
  {
    match k
    case Email => n.(email := !n.email)
    case Push => n.(push := !n.push)
    case Sms => n.(sms := !n.sms)
    case TransactionAlerts => n.(transactions := !n.transactions)
    case Achievements => n.(achievements := !n.achievements)
  }

  /** A notifications record is determined by what `Get` reads from it. */
  lemma Extensional(a: Notifications, b: Notifications)
    requires forall k :: Get(a, k) == Get(b, k)
    ensures a == b
  {
    assert Get(a, Email) == Get(b, Email);
    assert Get(a, Push) == Get(b, Push);
    assert Get(a, Sms) == Get(b, Sms);
    assert Get(a, TransactionAlerts) == Get(b, TransactionAlerts);
    assert Get(a, Achievements) == Get(b, Achievements);
  }

  lemma ToggleTwice(n: Notifications, k: NotificationKey)
    ensures Toggle(Toggle(n, k), k) == n
  {
    Extensional(Toggle(Toggle(n, k), k), n);
  }

  lemma ToggleCommutes(n: Notifications, j: NotificationKey, k: NotificationKey)
    ensures Toggle(Toggle(n, j), k) == Toggle(Toggle(n, k), j)
  {
    Extensional(Toggle(Toggle(n, j), k), Toggle(Toggle(n, k), j));
  }

  /** `handleSecurityChange(key, value)`, one constructor per key. */
  datatype SecurityChange = SetTwoFactor(on: bool) | SetBiometric(on: bool) | SetSessionTimeout(minutes: int)

  function ChangeSecurity(s: Security, c: SecurityChange): (r: Security)
    ensures c.SetTwoFactor? ==> r.twoFactor == c.on && r.biometric == s.biometric && r.sessionTimeout == s.sessionTimeout
    ensures c.SetBiometric? ==> r.biometric == c.on && r.twoFactor == s.twoFactor && r.sessionTimeout == s.sessionTimeout
    ensures c.SetSessionTimeout? ==> r.sessionTimeout == c.minutes && r.twoFactor == s.twoFactor && r.biometric == s.biometric
  {
    match c
    case SetTwoFactor(on) => s.(twoFactor := on)
    case SetBiometric(on) => s.(biometric := on)
    case SetSessionTimeout(minutes) => s.(sessionTimeout := minutes)
  }

  /** Applying the same change twice is the same as applying it once. */
  lemma ChangeSecurityIdempotent(s: Security, c: SecurityChange)
    ensures ChangeSecurity(ChangeSecurity(s, c), c) == ChangeSecurity(s, c)
  {
  }

  /** The three preference selects. */
  datatype PreferenceChange = SetLanguage(language: string) | SetCurrency(currency: string) | SetTheme(theme: string)

  function ChangePreferences(p: Preferences, c: PreferenceChange): (r: Preferences)
    ensures c.SetLanguage? ==> r.language == c.language && r.currency == p.currency && r.theme == p.theme
    ensures c.SetCurrency? ==> r.currency == c.currency && r.language == p.language && r.theme == p.theme
    ensures c.SetTheme? ==> r.theme == c.theme && r.language == p.language && r.currency == p.currency
  {
    match c
    case SetLanguage(language) => p.(language := language)
    case SetCurrency(currency) => p.(currency := currency)
    case SetTheme(theme) => p.(theme := theme)
  }

  /** Each handler touches only its own record. */
  datatype Action = Notify(key: NotificationKey) | Secure(security: SecurityChange) | Prefer(preference: PreferenceChange)

  function Apply(s: Settings, a: Action): (r: Settings)
    ensures !a.Notify? ==> r.notifications == s.notifications
    ensures !a.Secure? ==> r.security == s.security
    ensures !a.Prefer? ==> r.preferences == s.preferences
  {
    match a
    case Notify(k) => s.(notifications := Toggle(s.notifications, k))
    case Secure(c) => s.(security := ChangeSecurity(s.security, c))
    case Prefer(c) => s.(preferences := ChangePreferences(s.preferences, c))
  }

  /** Starting from the initial state, only SMS is off and the session lasts 30 minutes. */
  lemma InitialState()
    ensures forall k :: Get(Initial.notifications, k) <==> k != Sms
    ensures !Initial.security.twoFactor && !Initial.security.biometric
    ensures Initial.security.sessionTimeout in SessionTimeouts
    ensures Initial.preferences.language == Languages[0]
    ensures Initial.preferences.currency == Currencies[0]
    ensures Initial.preferences.theme == Themes[0]
  {
  }
}

=== FILE: strings.dfy ===
/**
 * Text helpers used by the formatters, URL builders and header parsers:
 * decimal rendering and parsing of naturals, joining and splitting on a
 * separator, and the two replacement operations the source relies on
 * (JavaScript's `String.prototype.replace` with a string pattern, which
 * replaces the FIRST occurrence, and Rust's `str::replace`, which replaces
 * EVERY non-overlapping occurrence, scanning left to right).
 */
module Strings {
  import opened Wrappers

  predicate IsDigit(c: char) {
    '0' <= c <= '9'
  }

  predicate AllDigits(s: string) {
    forall i :: 0 <= i < |s| ==> IsDigit(s[i])
  }

  function DigitChar(d: nat): (c: char)
    requires d < 10
    ensures IsDigit(c)
  {
    ['0', '1', '2', '3', '4', '5', '6', '7', '8', '9'][d]
  }

  function DigitValue(c: char): (d: nat)
    requires IsDigit(c)
    ensures d < 10
  {
    (c as int - '0' as int) as nat
  }

  lemma DigitCharValue(d: nat)
    requires d < 10
    ensures DigitValue(DigitChar(d)) == d
  {
  }

  /** The value of a string of decimal digits, most significant first. */
  function DigitsValue(s: string): nat
    requires AllDigits(s)
  {
    if |s| == 0 then 0 else DigitsValue(s[..|s| - 1]) * 10 + DigitValue(s[|s| - 1])
  }

  /** Decimal rendering without leading zeros, as `Number.prototype.toString` and `format!("{}")` print a non-negative integer. */
  function NatToString(n: nat): (s: string)
    ensures |s| >= 1 && AllDigits(s)
    ensures |s| > 1 ==> s[0] != '0'
  {
    if n < 10 then [DigitChar(n)] else NatToString(n / 10) + [DigitChar(n % 10)]
  }

  /** Parses a non-empty string of decimal digits. */
  function ParseNat(s: string): (r: Option<nat>)
    ensures r.Some? <==> |s| > 0 && AllDigits(s)
  {
    if |s| > 0 && AllDigits(s) then Some(DigitsValue(s)) else None
  }

  lemma {:induction false} NatToStringRoundTrip(n: nat)
    ensures ParseNat(NatToString(n)) == Some(n)
    ensures DigitsValue(NatToString(n)) == n
  {
    var s := NatToString(n);
    if n < 10 {
      DigitCharValue(n);
      assert s[..|s| - 1] == [];
      assert DigitsValue(s) == DigitsValue([]) * 10 + DigitValue(s[0]);
    } else {
      NatToStringRoundTrip(n / 10);
      assert s[..|s| - 1] == NatToString(n / 10);
      DigitCharValue(n % 10);
    }
  }

  /** Parts joined by a separator, as Rust's `[String]::join`. */
  function Join(parts: seq<string>, sep: string): string
  {
    if |parts| == 0 then ""
    else if |parts| == 1 then parts[0]
    else parts[0] + sep + Join(parts[1..], sep)
  }

  lemma JoinPair(a: string, b: string, sep: string)
    ensures Join([a, b], sep) == a + sep + b
  {
    assert [a, b][1..] == [b];
  }

  /** Splits on every occurrence of a character; always at least one field. */
  function Split(s: string, sep: char): (fields: seq<string>)
    ensures |fields| >= 1
  {
    if |s| == 0 then [""]
    else
      var rest := Split(s[1..], sep);
      if s[0] == sep then [""] + rest else [[s[0]] + rest[0]] + rest[1..]
  }

  lemma {:induction false} SplitAfterField(a: string, sep: char, b: string)
    requires sep !in a
    ensures Split(a + [sep] + b, sep) == [a] + Split(b, sep)
  {
    if |a| == 0 {
      assert a + [sep] + b == [sep] + b;
      assert ([sep] + b)[1..] == b;
    } else {
      assert (a + [sep] + b)[1..] == a[1..] + [sep] + b;
      SplitAfterField(a[1..], sep, b);
      assert [a[0]] + a[1..] == a;
    }
  }

  lemma {:induction false} SplitField(a: string, sep: char)
    requires sep !in a
    ensures Split(a, sep) == [a]
  {
    if |a| > 0 {
      SplitField(a[1..], sep);
      assert [a[0]] + a[1..] == a;
    }
  }

  /** Joining with a one-character separator that occurs in no part is undone by splitting. */
  lemma {:induction false} SplitJoin(parts: seq<string>, sep: char)
    requires |parts| >= 1
    requires forall i :: 0 <= i < |parts| ==> sep !in parts[i]
    ensures Split(Join(parts, [sep]), sep) == parts
  {
    if |parts| == 1 {
      SplitField(parts[0], sep);
    } else {
      SplitJoin(parts[1..], sep);
      SplitAfterField(parts[0], sep, Join(parts[1..], [sep]));
      assert [parts[0]] + parts[1..] == parts;
    }
  }

  /** Number of occurrences of a character. */
  function Count(s: string, c: char): nat
  {
    if |s| == 0 then 0 else (if s[0] == c then 1 else 0) + Count(s[1..], c)
  }

  lemma {:induction false} CountConcat(a: string, b: string, c: char)
    ensures Count(a + b, c) == Count(a, c) + Count(b, c)
  {
    if |a| > 0 {
      assert (a + b)[1..] == a[1..] + b;
      CountConcat(a[1..], b, c);
    } else {
      assert a + b == b;
    }
  }

  lemma {:induction false} CountAbsent(s: string, c: char)
    ensures Count(s, c) == 0 <==> c !in s
  {
    if |s| > 0 {
      CountAbsent(s[1..], c);
      assert s == [s[0]] + s[1..];
    }
  }

  /** JavaScript `s.replace(from, to)` with one-character string arguments: only the first occurrence changes. */
  function ReplaceFirst(s: string, from: char, to: char): (r: string)
    ensures |r| == |s|
    ensures from !in s ==> r == s
    ensures forall i :: 0 <= i < |s| && from !in s[..i] ==> r[..i] == s[..i]
  {
    if |s| == 0 then s
    else if s[0] == from then [to] + s[1..]
    else
      var rest := ReplaceFirst(s[1..], from, to);
      assert forall i :: 1 <= i <= |s| ==> s[..i] == [s[0]] + s[1..][..i - 1];
      [s[0]] + rest
  }

  /** Does `pat` occur in `s` starting at index `i`? */
  predicate OccursAt(s: string, pat: string, i: nat) {
    i + |pat| <= |s| && s[i..i + |pat|] == pat
  }

  /** Rust `s.replace(pat, rep)`: every non-overlapping occurrence, leftmost first. */
  function ReplaceAll(s: string, pat: string, rep: string): (r: string)
    requires |pat| > 0
    // A replacement no longer than the pattern never lengthens the text, and one no shorter never shortens it.
    ensures |rep| <= |pat| ==> |r| <= |s|
    ensures |rep| >= |pat| ==> |r| >= |s|
    // Scanning starts at the left: an occurrence at the start is replaced, anything else is kept.
    ensures OccursAt(s, pat, 0) ==> |r| >= |rep| && r[..|rep|] == rep
    ensures |s| > 0 && !OccursAt(s, pat, 0) ==> |r| > 0 && r[0] == s[0]
    decreases |s|
  {
    if |s| < |pat| then s
    else if s[..|pat|] == pat then rep + ReplaceAll(s[|pat|..], pat, rep)
    else [s[0]] + ReplaceAll(s[1..], pat, rep)
  }

  /** A stretch at the start where no occurrence begins is kept as is, and the rest is replaced the same way. */
  lemma {:induction false} ReplaceAllKeepsClear(s: string, pat: string, rep: string, k: nat)
    requires |pat| > 0 && k <= |s|
    requires forall j :: 0 <= j < k ==> !OccursAt(s, pat, j)
    ensures ReplaceAll(s, pat, rep) == s[..k] + ReplaceAll(s[k..], pat, rep)
    decreases k
  {
    if k == 0 {
      assert s[..0] + s[0..] == s;
    } else if |s| < |pat| {
      assert s[..k] + s[k..] == s;
    } else {
      var tail := s[1..];
      ClearShifts(s, pat, k);
      calc {
        ReplaceAll(s, pat, rep);
        { assert !OccursAt(s, pat, 0); }
        [s[0]] + ReplaceAll(tail, pat, rep);
        { ReplaceAllKeepsClear(tail, pat, rep, k - 1); assert tail[k - 1..] == s[k..]; }
        [s[0]] + (tail[..k - 1] + ReplaceAll(s[k..], pat, rep));
        { assert [s[0]] + tail[..k - 1] == s[..k]; }
        s[..k] + ReplaceAll(s[k..], pat, rep);
      }
    }
  }

  /** Dropping the first character shifts a clear stretch one place left. */
  lemma ClearShifts(s: string, pat: string, k: nat)
    requires 0 < k <= |s|
    requires forall j :: 0 <= j < k ==> !OccursAt(s, pat, j)
    ensures forall j :: 0 <= j < k - 1 ==> !OccursAt(s[1..], pat, j)
  {
    var tail := s[1..];
    forall j | 0 <= j < k - 1
      ensures !OccursAt(tail, pat, j)
    {
      assert !OccursAt(s, pat, j + 1);
      if j + |pat| <= |tail| {
        assert tail[j..j + |pat|] == s[j + 1..j + 1 + |pat|];
      }
    }
  }

  /** An occurrence at the start becomes `rep` and the scan resumes right after it. */
  lemma ReplaceAllLeading(pat: string, rep: string, t: string)
    requires |pat| > 0
    ensures ReplaceAll(pat + t, pat, rep) == rep + ReplaceAll(t, pat, rep)
  {
    var s := pat + t;
    assert s[..|pat|] == pat;
    assert s[|pat|..] == t;
  }

  /** A first character that does not start an occurrence is kept, and the scan goes on from the next one. */
  lemma ReplaceAllOtherChar(s: string, pat: string, rep: string)
    requires |pat| > 0 && |s| > 0 && !OccursAt(s, pat, 0)
    ensures ReplaceAll(s, pat, rep) == [s[0]] + ReplaceAll(s[1..], pat, rep)
  {
    ReplaceAllKeepsClear(s, pat, rep, 1);
    assert s[..1] == [s[0]];
  }

  /** `n` copies of `s` in a row. */
  function Repeat(s: string, n: nat): string {
    if n == 0 then "" else s + Repeat(s, n - 1)
  }

  lemma {:induction false} RepeatEmpty(n: nat)
    ensures Repeat("", n) == ""
  {
    if n > 0 {
      RepeatEmpty(n - 1);
    }
  }

  /** A leading run of occurrences is replaced occurrence by occurrence. */
  lemma {:induction false} ReplaceAllRepeated(pat: string, rep: string, n: nat, rest: string)
    requires |pat| > 0
    ensures ReplaceAll(Repeat(pat, n) + rest, pat, rep) == Repeat(rep, n) + ReplaceAll(rest, pat, rep)
  {
    if n == 0 {
      assert Repeat(pat, 0) + rest == rest;
    } else {
      var tail := Repeat(pat, n - 1) + rest;
      calc {
        ReplaceAll(Repeat(pat, n) + rest, pat, rep);
        { assert Repeat(pat, n) + rest == pat + tail; }
        ReplaceAll(pat + tail, pat, rep);
        { ReplaceAllLeading(pat, rep, tail); }
        rep + ReplaceAll(tail, pat, rep);
        { ReplaceAllRepeated(pat, rep, n - 1, rest); }
        rep + (Repeat(rep, n - 1) + ReplaceAll(rest, pat, rep));
        Repeat(rep, n) + ReplaceAll(rest, pat, rep);
      }
    }
  }

  /** Replacing a pattern that does not occur changes nothing. */
  lemma {:induction false} ReplaceAllAbsent(s: string, pat: string, rep: string)
    requires |pat| > 0
    requires forall i: nat :: !OccursAt(s, pat, i)
    ensures ReplaceAll(s, pat, rep) == s
    decreases |s|
  {
    if |s| >= |pat| {
      assert !OccursAt(s, pat, 0);
      forall i: nat
        ensures !OccursAt(s[1..], pat, i)
      {
        assert !OccursAt(s, pat, i + 1);
        if i + |pat| <= |s[1..]| {
          assert s[1..][i..i + |pat|] == s[i + 1..i + 1 + |pat|];
        }
      }
      ReplaceAllAbsent(s[1..], pat, rep);
      assert [s[0]] + s[1..] == s;
    }
  }

  /** The first `n` characters, or all of them when there are fewer (`&s[..n.min(s.len())]`). */
  function PrefixUpTo(s: string, n: nat): (r: string)
    ensures |r| == if |s| < n then |s| else n
    ensures r <= s
  {
    if |s| < n then s else s[..n]
  }

  /** Bytes in the UTF-8 encoding of a character. */
  function Utf8Width(c: char): (w: nat)
    ensures 1 <= w <= 4
    ensures w == 1 <==> c as int < 0x80
  {
    if c as int < 0x80 then 1 else if c as int < 0x800 then 2 else if c as int < 0x1_0000 then 3 else 4
  }

  /** Rust's `str::len`: the length of the UTF-8 encoding in bytes. */
  function Utf8Len(s: string): (n: nat)
    ensures n >= |s|
  {
    if |s| == 0 then 0 else Utf8Width(s[0]) + Utf8Len(s[1..])
  }

  predicate IsAscii(s: string) {
    forall i :: 0 <= i < |s| ==> s[i] as int < 0x80
  }

  /** Bytes and characters agree in number exactly for ASCII text. */
  lemma {:induction false} Utf8LenAscii(s: string)
    ensures Utf8Len(s) == |s| <==> IsAscii(s)
  {
    if |s| > 0 {
      Utf8LenAscii(s[1..]);
      assert forall i :: 1 <= i < |s| ==> s[1..][i - 1] == s[i];
    }
  }

  lemma {:induction false} Utf8LenConcat(a: string, b: string)
    ensures Utf8Len(a + b) == Utf8Len(a) + Utf8Len(b)
  {
    if |a| == 0 {
      assert a + b == b;
    } else {
      assert (a + b)[1..] == a[1..] + b;
      Utf8LenConcat(a[1..], b);
    }
  }

  /** A prefix never has more bytes than the whole. */
  lemma Utf8LenPrefix(p: string, s: string)
    requires p <= s
    ensures Utf8Len(p) <= Utf8Len(s)
  {
    assert s == p + s[|p|..];
    Utf8LenConcat(p, s[|p|..]);
  }

  /**
   * Rust's `&s[..n]` on a `str`: the characters making up its first `n`
   * bytes, or None where the slice panics, because `n` is past the end or
   * falls inside a character's encoding.
   */
  function BytePrefix(s: string, n: nat): (r: Option<string>)
    ensures r.Some? ==> r.value <= s && Utf8Len(r.value) == n
    ensures r.None? ==> forall k :: 0 <= k <= |s| ==> Utf8Len(s[..k]) != n
    decreases |s|
  {
    assert forall k :: 1 <= k <= |s| ==> s[..k][1..] == s[1..][..k - 1];
    if n == 0 then Some("")
    else if |s| == 0 || Utf8Width(s[0]) > n then None
    else
      match BytePrefix(s[1..], n - Utf8Width(s[0]))
      case None => None
      case Some(p) =>
        assert ([s[0]] + p)[1..] == p;
        Some([s[0]] + p)
  }

  /** Slicing at the full byte length gives the whole string. */
  lemma {:induction false} BytePrefixWhole(s: string)
    ensures BytePrefix(s, Utf8Len(s)) == Some(s)
  {
    if |s| > 0 {
      BytePrefixWhole(s[1..]);
      assert [s[0]] + s[1..] == s;
    }
  }

  /**
   * The longest prefix whose encoding fits in `n` bytes: a byte bound that
   * never cuts a character.
   */
  function PrefixWithin(s: string, n: nat): (r: string)
    ensures r <= s && Utf8Len(r) <= n
    ensures |r| < |s| ==> Utf8Len(r) + Utf8Width(s[|r|]) > n
    decreases |s|
  {
    if |s| == 0 || Utf8Width(s[0]) > n then ""
    else
      var rest := PrefixWithin(s[1..], n - Utf8Width(s[0]));
      assert ([s[0]] + rest)[1..] == rest;
      [s[0]] + rest
  }

  /** A string whose encoding fits the bound is kept whole. */
  lemma {:induction false} PrefixWithinWhole(s: string, n: nat)
    requires Utf8Len(s) <= n
    ensures PrefixWithin(s, n) == s
    decreases |s|
  {
    if |s| > 0 {
      PrefixWithinWhole(s[1..], n - Utf8Width(s[0]));
      assert [s[0]] + s[1..] == s;
    }
  }

  /** Where the byte slice succeeds it is the longest prefix within the bound. */
  lemma {:induction false} BytePrefixWithin(s: string, n: nat)
    requires BytePrefix(s, n).Some?
    ensures PrefixWithin(s, n) == BytePrefix(s, n).value
    decreases |s|
  {
    if n > 0 {
      BytePrefixWithin(s[1..], n - Utf8Width(s[0]));
      if PrefixWithin(s[1..], n - Utf8Width(s[0])) == s[1..] && |s[1..]| > 0 {
        assert Utf8Width(s[1]) > 0;
      }
    } else if |s| > 0 {
      assert Utf8Width(s[0]) > 0;
    }
  }

  /** On ASCII text bytes are characters: the byte bound is the character bound. */
  lemma {:induction false} PrefixWithinAscii(s: string, n: nat)
    requires IsAscii(s)
    ensures PrefixWithin(s, n) == PrefixUpTo(s, n)
    decreases |s|
  {
    if |s| > 0 && n > 0 {
      var tail := s[1..];
      assert IsAscii(tail) by {
        forall i | 0 <= i < |tail|
          ensures tail[i] as int < 0x80
        {
          assert tail[i] == s[i + 1];
        }
      }
      assert Utf8Width(s[0]) == 1 by {
        assert s[0] as int < 0x80;
      }
      PrefixWithinAscii(tail, n - 1);
      assert PrefixWithin(s, n) == [s[0]] + PrefixUpTo(tail, n - 1);
      if |s| >= n {
        assert s[..n] == [s[0]] + tail[..n - 1];
      } else {
        assert s == [s[0]] + tail;
      }
    }
  }

  /** UTF-16 code units of a character: two for one outside the Basic Multilingual Plane. */
  function Utf16Width(c: char): (w: nat)
    ensures w == 1 <==> c as int < 0x1_0000
    ensures 1 <= w <= 2
  {
    if c as int < 0x1_0000 then 1 else 2
  }

  /** JavaScript's `String.prototype.length`: the number of UTF-16 code units. */
  function Utf16Len(s: string): (n: nat)
    ensures |s| <= n <= 2 * |s|
  {
    if |s| == 0 then 0 else Utf16Width(s[0]) + Utf16Len(s[1..])
  }

  predicate InBmp(s: string) {
    forall i :: 0 <= i < |s| ==> s[i] as int < 0x1_0000
  }

  /** Code units and characters agree in number exactly when no character lies outside the Basic Multilingual Plane. */
  lemma {:induction false} Utf16LenBmp(s: string)
    ensures Utf16Len(s) == |s| <==> InBmp(s)
  {
    if |s| > 0 {
      Utf16LenBmp(s[1..]);
      assert forall i :: 1 <= i < |s| ==> s[1..][i - 1] == s[i];
    }
  }
}

=== FILE: token_cache.dfy ===
/**
 * The credential cache both vendor clients keep: a token and the Unix time
 * (seconds, `u64`) at which it expires. A cached token is reused while the
 * clock is more than a safety margin before expiry; otherwise a new one is
 * requested and cached with `now + expires_in`, using a default lifetime
 * when the vendor gives none.
 *
 * Rust's `u64` arithmetic is written out: the subtraction `expires_at -
 * margin` and the addition `now + expires_in as u64` panic on overflow in a
 * debug build, and the `i64 -> u64` cast wraps a negative lifetime.
 */
module TokenCache {
  import opened Wrappers

  const U64Limit: nat := 0x1_0000_0000_0000_0000

  const AuthFailedPrefix := "Erro na autenticação: "

  /**
   * The two clock reads `authenticate` may take, in Unix seconds: the first
   * before deciding whether the cached token is still good (taken only when
   * both fields are cached), the second after the vendor has answered, from
   * which the new expiry is counted.
   */
  datatype Clock = Clock(checkRead: nat, fetchRead: nat)

  predicate ClockInRange(t: Clock) {
    t.checkRead < U64Limit && t.fetchRead < U64Limit
  }

  /** The two cache fields of a client. */
  datatype Cache = Cache(token: Option<string>, expiresAt: Option<nat>)

  const Empty := Cache(None, None)

  predicate ValidCache(c: Cache) {
    c.expiresAt.Some? ==> c.expiresAt.value < U64Limit
  }

  /** A client's refresh margin and default lifetime, in seconds. */
  datatype Policy = Policy(margin: nat, defaultTtl: nat)

  /** What the vendor's token endpoint answers when asked; `Unreachable` covers a failed request or an undecodable body. */
  datatype Reply = Issued(token: string, expiresIn: Option<int>) | Rejected(body: string) | Unreachable

  /** How `authenticate` ended. */
  datatype Outcome =
    | Reused(token: string)
    | Fetched(token: string)
    | Failed(message: Option<string>)
    | Panicked

  datatype Step = Step(cache: Cache, outcome: Outcome)

  /** `expires_in as u64` */
  function CastToU64(x: int): (r: nat)
    ensures r < U64Limit
    ensures 0 <= x < U64Limit ==> r == x
  {
    x % U64Limit
  }

  /** Both cache fields are present. */
  predicate Cached(c: Cache) {
    c.token.Some? && c.expiresAt.Some?
  }

  /** The cached token may be reused when the clock reads `now`. */
  predicate Fresh(c: Cache, p: Policy, now: nat) {
    Cached(c) && c.expiresAt.value >= p.margin && now < c.expiresAt.value - p.margin
  }

  /** The lifetime a reply grants, in `u64`. */
  function GrantedTtl(expiresIn: Option<int>, p: Policy): nat {
    CastToU64(expiresIn.GetOr(p.defaultTtl))
  }

  /** `authenticate`: `reply` is what the token endpoint would answer, consulted only when a request is made. */
  function Authenticate(c: Cache, p: Policy, t: Clock, reply: Reply): (r: Step)
    requires ValidCache(c) && ClockInRange(t) && p.margin < U64Limit
    ensures ValidCache(r.cache)
    // The cached token is returned, with no request and no change, exactly when it is fresh.
    ensures r.outcome.Reused? <==> Fresh(c, p, t.checkRead)
    ensures r.outcome.Reused? ==> r.outcome.token == c.token.value && r.cache == c
    // With both fields cached, an expiry below the margin makes the subtraction underflow.
    ensures Cached(c) && c.expiresAt.value < p.margin ==> r.outcome.Panicked?
    // A new token is cached with its expiry; anything else leaves the cache as it was.
    ensures r.outcome.Fetched? <==>
              (!Cached(c) || c.expiresAt.value >= p.margin)
              && !Fresh(c, p, t.checkRead) && reply.Issued? && t.fetchRead + GrantedTtl(reply.expiresIn, p) < U64Limit
    ensures r.outcome.Fetched? ==>
              r.outcome.token == reply.token
              && r.cache == Cache(Some(reply.token), Some(t.fetchRead + GrantedTtl(reply.expiresIn, p)))
    ensures !r.outcome.Fetched? ==> r.cache == c
    ensures r.outcome.Failed? <==>
              (!Cached(c) || c.expiresAt.value >= p.margin) && !Fresh(c, p, t.checkRead) && !reply.Issued?
    ensures r.outcome.Failed? && reply.Rejected? ==> r.outcome.message == Some(AuthFailedPrefix + reply.body)
  {
    if Cached(c) && c.expiresAt.value < p.margin then Step(c, Panicked)
    else if Fresh(c, p, t.checkRead) then Step(c, Reused(c.token.value))
    else
      match reply
      case Rejected(body) => Step(c, Failed(Some(AuthFailedPrefix + body)))
      case Unreachable => Step(c, Failed(None))
      case Issued(token, expiresIn) =>
        var expiresAt := t.fetchRead + GrantedTtl(expiresIn, p);
        if expiresAt >= U64Limit then Step(c, Panicked)
        else Step(Cache(Some(token), Some(expiresAt)), Fetched(token))
  }

  /**
   * A token just fetched is reused, without asking the vendor, whenever a
   * later check reads the clock before its expiry minus the margin; the
   * window is counted from the read taken after the fetch.
   */
  lemma FetchedThenReused(c: Cache, p: Policy, t: Clock, reply: Reply, later: Clock, again: Reply)
    requires ValidCache(c) && ClockInRange(t) && ClockInRange(later) && p.margin < U64Limit
    requires Authenticate(c, p, t, reply).outcome.Fetched?
    requires later.checkRead < t.fetchRead + GrantedTtl(reply.expiresIn, p) - p.margin
    ensures Authenticate(Authenticate(c, p, t, reply).cache, p, later, again)
              == Step(Authenticate(c, p, t, reply).cache, Reused(reply.token))
  {
  }

  /** Once the check reads expiry minus the margin the token is requested again, and a refusal keeps the stale entry. */
  lemma StaleIsRefetched(c: Cache, p: Policy, t: Clock, body: string)
    requires ValidCache(c) && ClockInRange(t) && p.margin < U64Limit
    requires Cached(c) && c.expiresAt.value >= p.margin && t.checkRead >= c.expiresAt.value - p.margin
    ensures Authenticate(c, p, t, Rejected(body)) == Step(c, Failed(Some(AuthFailedPrefix + body)))
  {
  }

  /** A negative lifetime wraps to a huge `u64`, so adding it to any positive clock overflows. */
  lemma NegativeLifetimeOverflows(c: Cache, p: Policy, t: Clock, token: string, ttl: int)
    requires ValidCache(c) && ClockInRange(t) && 0 < t.fetchRead && p.margin < U64Limit
    requires !Cached(c)
    requires -(t.fetchRead as int) <= ttl < 0
    ensures Authenticate(c, p, t, Issued(token, Some(ttl))).outcome.Panicked?
  {
  }
}

=== FILE: transactions_api.dfy ===
/**
 * The transaction routes: list, create, update and delete, each scoped to
 * the user the request guard authenticated. The `transactions` table is a
 * sequence of rows in storage order; ids are the database's UUIDs.
 */
module TransactionsApi {
  import opened Wrappers
  import Uuids
  import Gregorian
  import RequestGuard

  /** A row of the `transactions` table; `owner` is its `user_id`. */
  datatype Row = Row(
    id: Uuids.Uuid,
    owner: Uuids.Uuid,
    pluggyId: Option<string>,
    accountId: Option<Uuids.Uuid>,
    itemId: Option<Uuids.Uuid>,
    amount: int,
    date: Gregorian.Date,
    description: Option<string>,
    category: Option<string>,
    currency: string,
    status: Option<string>)

  type Table = seq<Row>

  /** The body of a create or update request. */
  datatype NewTransaction = NewTransaction(
    amount: int,
    date: Gregorian.Date,
    description: string,
    category: Option<string>,
    currency: string)

  /** A route's effect: the table afterwards, the status, and the row it returns, if any. */
  datatype Change = Change(table: Table, status: RequestGuard.Status, row: Option<Row>)

  /** The rows `user_id = user` selects, in storage order. */
  function Owned(t: Table, user: Uuids.Uuid): (r: Table)
    ensures forall x :: x in r <==> x in t && x.owner == user
    ensures forall x :: multiset(r)[x] == if x.owner == user then multiset(t)[x] else 0
  {
    if |t| == 0 then []
    else
      var rest := Owned(t[1..], user);
      assert t == [t[0]] + t[1..];
      if t[0].owner == user then [t[0]] + rest else rest
  }

  /** Newest first: no row is dated after the one before it. */
  predicate NewestFirst(t: Table) {
    forall i, j :: 0 <= i < j < |t| ==> Gregorian.NotAfter(t[j].date, t[i].date)
  }

  /** Inserts a row into a newest-first table, after every row not older than it. */
  function InsertByDate(x: Row, t: Table): (r: Table)
    requires NewestFirst(t)
    ensures NewestFirst(r)
    ensures forall y :: y in r ==> y == x || y in t
    ensures multiset(r) == multiset(t) + multiset{x}
  {
    if |t| == 0 then [x]
    else if Gregorian.NotAfter(x.date, t[0].date) then
      var rest := InsertByDate(x, t[1..]);
      assert t == [t[0]] + t[1..];
      PrependNewest(t[0], rest);
      [t[0]] + rest
    else
      Gregorian.NotAfterTotal(x.date, t[0].date);
      PrependNewest(x, t);
      [x] + t
  }

  /** A row not older than any row of a newest-first table can go in front of it. */
  lemma PrependNewest(h: Row, t: Table)
    requires NewestFirst(t)
    requires forall y :: y in t ==> Gregorian.NotAfter(y.date, h.date)
    ensures NewestFirst([h] + t)
  {
    var r := [h] + t;
    forall i, j | 0 <= i < j < |r|
      ensures Gregorian.NotAfter(r[j].date, r[i].date)
    {
      if i == 0 {
        assert r[j] in t;
      } else {
        assert r[i] == t[i - 1] && r[j] == t[j - 1];
      }
    }
  }

  /** `ORDER BY date DESC`; SQL leaves same-date rows in no particular order, and here they come out in reverse storage order. */
  function SortNewestFirst(t: Table): (r: Table)
    ensures NewestFirst(r)
    ensures multiset(r) == multiset(t)
  {
    if |t| == 0 then []
    else
      assert t == [t[0]] + t[1..];
      InsertByDate(t[0], SortNewestFirst(t[1..]))
  }

  /** `get_transactions`: the caller's rows, newest first. */
  function List(t: Table, user: Uuids.Uuid): (r: Table)
    ensures NewestFirst(r)
    ensures multiset(r) == multiset(Owned(t, user))
  {
    SortNewestFirst(Owned(t, user))
  }

  /** The listing holds every row of the caller, as many times as stored, and nothing else. */
  lemma ListIsCallersRows(t: Table, user: Uuids.Uuid)
    ensures forall x :: x in List(t, user) <==> x in t && x.owner == user
    ensures forall x :: multiset(List(t, user))[x] == if x.owner == user then multiset(t)[x] else 0
  {
    forall x
      ensures x in List(t, user) <==> x in t && x.owner == user
    {
      assert x in List(t, user) <==> x in multiset(List(t, user));
      assert x in Owned(t, user) <==> x in multiset(Owned(t, user));
    }
  }

  /** The row `create_transaction` inserts: the caller's, with the request's fields and no vendor links. */
  function NewRow(id: Uuids.Uuid, user: Uuids.Uuid, n: NewTransaction): Row {
    Row(id, user, None, None, None, n.amount, n.date, Some(n.description), n.category, n.currency, None)
  }

  predicate IdInUse(t: Table, id: Uuids.Uuid) {
    exists i :: 0 <= i < |t| && t[i].id == id
  }

  /**
   * `create_transaction`. `freshId` is the id the database generates; a
   * clash with an existing row is a failed insert, answered with 500.
   */
  function Create(t: Table, user: Uuids.Uuid, n: NewTransaction, freshId: Uuids.Uuid): (r: Change)
    ensures r.status == RequestGuard.Ok <==> !IdInUse(t, freshId)
    ensures r.status != RequestGuard.Ok ==> r.status == RequestGuard.InternalServerError && r.table == t && r.row.None?
    ensures r.status == RequestGuard.Ok ==>
              r.row.Some? && r.table == t + [r.row.value]
              && r.row.value.id == freshId && r.row.value.owner == user
              && r.row.value.amount == n.amount && r.row.value.date == n.date
              && r.row.value.description == Some(n.description)
              && r.row.value.category == n.category && r.row.value.currency == n.currency
              && r.row.value.pluggyId.None?
  {
    if IdInUse(t, freshId) then Change(t, RequestGuard.InternalServerError, None)
    else
      var row := NewRow(freshId, user, n);
      Change(t + [row], RequestGuard.Ok, Some(row))
  }

  /** `WHERE id = $id AND user_id = $user` */
  predicate Targets(x: Row, user: Uuids.Uuid, id: Uuids.Uuid) {
    x.id == id && x.owner == user
  }

  /** The rows a delete keeps. */
  function Without(t: Table, user: Uuids.Uuid, id: Uuids.Uuid): (r: Table)
    ensures |r| <= |t|
    ensures |r| == |t| <==> forall i :: 0 <= i < |t| ==> !Targets(t[i], user, id)
  {
    if |t| == 0 then []
    else
      var rest := Without(t[1..], user, id);
      assert (forall i :: 0 <= i < |t| ==> !Targets(t[i], user, id))
             <==> !Targets(t[0], user, id) && forall i :: 0 <= i < |t[1..]| ==> !Targets(t[1..][i], user, id) by {
        assert forall i :: 1 <= i < |t| ==> t[i] == t[1..][i - 1];
      }
      if Targets(t[0], user, id) then rest else [t[0]] + rest
  }

  /** A delete removes every copy of the targeted rows and keeps every other row as often as it was stored. */
  lemma {:induction false} WithoutCounts(t: Table, user: Uuids.Uuid, id: Uuids.Uuid)
    ensures forall x :: multiset(Without(t, user, id))[x] == if Targets(x, user, id) then 0 else multiset(t)[x]
  {
    if |t| > 0 {
      assert multiset(t) == multiset{t[0]} + multiset(t[1..]) by {
        assert t == [t[0]] + t[1..];
      }
      WithoutCounts(t[1..], user, id);
    }
  }

  /** `delete_transaction`: 404 when no row of the caller has that id, 204 otherwise. */
  function Delete(t: Table, user: Uuids.Uuid, id: Uuids.Uuid): (r: Change)
    ensures r.row.None?
    ensures r.status == RequestGuard.NotFound <==> forall i :: 0 <= i < |t| ==> !Targets(t[i], user, id)
    ensures r.status != RequestGuard.NotFound ==> r.status == RequestGuard.NoContent
    ensures forall x :: multiset(r.table)[x] == if Targets(x, user, id) then 0 else multiset(t)[x]
  {
    var kept := Without(t, user, id);
    WithoutCounts(t, user, id);
    if |kept| == |t| then Change(t, RequestGuard.NotFound, None)
    else Change(kept, RequestGuard.NoContent, None)
  }

  /** The `SET` clause of an update: five fields change, the rest stay. */
  function Edit(x: Row, n: NewTransaction): (y: Row)
    ensures y.id == x.id && y.owner == x.owner && y.pluggyId == x.pluggyId
    ensures y.accountId == x.accountId && y.itemId == x.itemId && y.status == x.status
    ensures y.amount == n.amount && y.date == n.date && y.description == Some(n.description)
    ensures y.category == n.category && y.currency == n.currency
  {
    x.(amount := n.amount, date := n.date, description := Some(n.description),
       category := n.category, currency := n.currency)
  }

  /** Every targeted row edited, the others as they were. */
  function EditAll(t: Table, user: Uuids.Uuid, id: Uuids.Uuid, n: NewTransaction): (r: Table)
    ensures |r| == |t|
    ensures forall i :: 0 <= i < |t| ==> r[i] == if Targets(t[i], user, id) then Edit(t[i], n) else t[i]
  {
    if |t| == 0 then []
    else [if Targets(t[0], user, id) then Edit(t[0], n) else t[0]] + EditAll(t[1..], user, id, n)
  }

  /** The first targeted row, if any. */
  function FirstTarget(t: Table, user: Uuids.Uuid, id: Uuids.Uuid): (r: Option<nat>)
    ensures r.None? <==> forall i :: 0 <= i < |t| ==> !Targets(t[i], user, id)
    ensures r.Some? ==> r.value < |t| && Targets(t[r.value], user, id)
    ensures r.Some? ==> forall i :: 0 <= i < r.value ==> !Targets(t[i], user, id)
  {
    if |t| == 0 then None
    else if Targets(t[0], user, id) then Some(0)
    else
      var rest := FirstTarget(t[1..], user, id);
      assert forall i :: 1 <= i < |t| ==> t[i] == t[1..][i - 1];
      match rest
      case None => None
      case Some(k) => Some(k + 1)
  }

  /** `update_transaction`: the caller's row with that id gets the five fields; 404 when there is none. */
  function Update(t: Table, user: Uuids.Uuid, id: Uuids.Uuid, n: NewTransaction): (r: Change)
    ensures r.status == RequestGuard.NotFound <==> forall i :: 0 <= i < |t| ==> !Targets(t[i], user, id)
    ensures r.status != RequestGuard.NotFound ==> r.status == RequestGuard.Ok
    ensures |r.table| == |t|
    ensures forall i :: 0 <= i < |t| ==> r.table[i] == if Targets(t[i], user, id) then Edit(t[i], n) else t[i]
    ensures r.row.Some? <==> r.status == RequestGuard.Ok
    ensures r.row.Some? ==> r.row.value.id == id && r.row.value.owner == user && r.row.value in r.table
  {
    var edited := EditAll(t, user, id, n);
    match FirstTarget(t, user, id)
    case None => Change(edited, RequestGuard.NotFound, None)
    case Some(k) => Change(edited, RequestGuard.Ok, Some(edited[k]))
  }

  /** Another user's listing is the same after a create, update or delete by `user`. */
  lemma OthersUnaffected(t: Table, user: Uuids.Uuid, other: Uuids.Uuid, id: Uuids.Uuid, n: NewTransaction, freshId: Uuids.Uuid)
    requires other != user
    ensures Owned(Create(t, user, n, freshId).table, other) == Owned(t, other)
    ensures Owned(Update(t, user, id, n).table, other) == Owned(t, other)
    ensures Owned(Delete(t, user, id).table, other) == Owned(t, other)
  {
    CreateOwned(t, user, other, NewRow(freshId, user, n));
    EditOwned(t, user, other, id, n);
    WithoutOwned(t, user, other, id);
  }

  lemma {:induction false} CreateOwned(t: Table, user: Uuids.Uuid, other: Uuids.Uuid, row: Row)
    requires other != user && row.owner == user
    ensures Owned(t + [row], other) == Owned(t, other)
  {
    if |t| > 0 {
      assert (t + [row])[1..] == t[1..] + [row];
      CreateOwned(t[1..], user, other, row);
    } else {
      assert [row][1..] == [];
    }
  }

  lemma {:induction false} EditOwned(t: Table, user: Uuids.Uuid, other: Uuids.Uuid, id: Uuids.Uuid, n: NewTransaction)
    requires other != user
    ensures Owned(EditAll(t, user, id, n), other) == Owned(t, other)
  {
    if |t| > 0 {
      var e := EditAll(t, user, id, n);
      assert e[1..] == EditAll(t[1..], user, id, n);
      EditOwned(t[1..], user, other, id, n);
    }
  }

  lemma {:induction false} WithoutOwned(t: Table, user: Uuids.Uuid, other: Uuids.Uuid, id: Uuids.Uuid)
    requires other != user
    ensures Owned(Without(t, user, id), other) == Owned(t, other)
  {
    if |t| > 0 {
      WithoutOwned(t[1..], user, other, id);
      if !Targets(t[0], user, id) {
        assert ([t[0]] + Without(t[1..], user, id))[1..] == Without(t[1..], user, id);
      }
    }
  }

  /** A second delete of the same row finds nothing and changes nothing. */
  lemma DeleteTwice(t: Table, user: Uuids.Uuid, id: Uuids.Uuid)
    ensures var once := Delete(t, user, id);
            Delete(once.table, user, id) == Change(once.table, RequestGuard.NotFound, None)
  {
    var once := Delete(t, user, id);
    forall i | 0 <= i < |once.table|
      ensures !Targets(once.table[i], user, id)
    {
      assert once.table[i] in multiset(once.table);
    }
  }

  /** Updating twice with the same body is the same as updating once. */
  lemma UpdateTwice(t: Table, user: Uuids.Uuid, id: Uuids.Uuid, n: NewTransaction)
    ensures Update(Update(t, user, id, n).table, user, id, n).table == Update(t, user, id, n).table
  {
  }

  /** A created row shows up in its owner's listing. */
  lemma CreatedIsListed(t: Table, user: Uuids.Uuid, n: NewTransaction, freshId: Uuids.Uuid)
    requires !IdInUse(t, freshId)
    ensures Create(t, user, n, freshId).row.value in List(Create(t, user, n, freshId).table, user)
  {
    var c := Create(t, user, n, freshId);
    ListIsCallersRows(c.table, user);
    assert c.row.value == c.table[|t|];
  }

  /**
   * A delete request as the server runs it: the guard first, the route only
   * for an authenticated caller. Whatever the request carries, no row of
   * any user but the authenticated one goes away.
   */
  function HandleDelete(headers: seq<string>, secret: Option<string>, decode: RequestGuard.Decoder,
                        t: Table, id: Uuids.Uuid): (r: Change)
    ensures RequestGuard.FromRequest(headers, secret, decode).Forward? ==>
              r == Change(t, RequestGuard.FromRequest(headers, secret, decode).status, None)
    ensures forall x :: x in t && !(RequestGuard.FromRequest(headers, secret, decode) == RequestGuard.Authenticated(x.owner))
                        ==> x in r.table
  {
    match RequestGuard.FromRequest(headers, secret, decode)
    case Forward(status) => Change(t, status, None)
    case Authenticated(user) =>
      var r := Delete(t, user, id);
      assert forall x :: x in t && x.owner != user ==> x in r.table by {
        forall x | x in t && x.owner != user
          ensures x in r.table
        {
          assert multiset(r.table)[x] == multiset(t)[x];
        }
      }
      r
  }
}

=== FILE: uuids.dfy ===
/**
 * UUIDs as the backend prints and reads them. A UUID is a 128-bit value;
 * `to_string` prints it as 32 lower-case hexadecimal digits grouped 8-4-4-4-12
 * by hyphens, and `Uuid::parse_str` reads that hyphenated form, the plain
 * 32-digit form, the braced form and the `urn:uuid:` form, in either case.
 */
module Uuids {
  import opened Wrappers

  const Limit: nat := 0x1_0000_0000_0000_0000_0000_0000_0000_0000

  type Uuid = n: nat | n < Limit

  const Digits: nat := 32
  const UrnPrefix := "urn:uuid:"

  predicate IsHexDigit(c: char) {
    ('0' <= c <= '9') || ('a' <= c <= 'f') || ('A' <= c <= 'F')
  }

  /** The digits `to_string` prints. */
  predicate IsLowerHexDigit(c: char) {
    ('0' <= c <= '9') || ('a' <= c <= 'f')
  }

  predicate AllHex(s: string) {
    forall i :: 0 <= i < |s| ==> IsHexDigit(s[i])
  }

  predicate AllLowerHex(s: string) {
    forall i :: 0 <= i < |s| ==> IsLowerHexDigit(s[i])
  }

  function HexValue(c: char): (d: nat)
    requires IsHexDigit(c)
    ensures d < 16
  {
    if '0' <= c <= '9' then (c - '0') as nat
    else if 'a' <= c <= 'f' then (c - 'a') as nat + 10
    else (c - 'A') as nat + 10
  }

  /** The lower-case digit for a value below 16. */
  function HexChar(d: nat): (c: char)
    requires d < 16
    ensures IsLowerHexDigit(c) && IsHexDigit(c)
    ensures HexValue(c) == d
  {
    if d < 10 then ('0' as int + d) as char else ('a' as int + d - 10) as char
  }

  lemma HexCharOfValue(c: char)
    requires IsLowerHexDigit(c)
    ensures HexChar(HexValue(c)) == c
  {
  }

  function Pow16(n: nat): (p: nat)
    ensures p >= 1
  {
    if n == 0 then 1 else 16 * Pow16(n - 1)
  }

  /** `n` in exactly `width` lower-case digits, most significant first. */
  function HexDigits(n: nat, width: nat): (s: string)
    ensures |s| == width && AllLowerHex(s) && AllHex(s)
  {
    if width == 0 then [] else HexDigits(n / 16, width - 1) + [HexChar(n % 16)]
  }

  /** The number a string of hexadecimal digits denotes. */
  function HexNumber(s: string): nat
    requires AllHex(s)
  {
    if |s| == 0 then 0 else HexNumber(s[..|s| - 1]) * 16 + HexValue(s[|s| - 1])
  }

  lemma {:induction false} HexNumberBound(s: string)
    requires AllHex(s)
    ensures HexNumber(s) < Pow16(|s|)
  {
    if |s| > 0 {
      HexNumberBound(s[..|s| - 1]);
    }
  }

  /** Printing a value that fits and reading it back gives the value. */
  lemma {:induction false} HexDigitsRoundTrip(n: nat, width: nat)
    requires n < Pow16(width)
    ensures HexNumber(HexDigits(n, width)) == n
  {
    if width > 0 {
      var s := HexDigits(n, width);
      assert s[..|s| - 1] == HexDigits(n / 16, width - 1);
      HexDigitsRoundTrip(n / 16, width - 1);
    }
  }

  /** Reading lower-case digits and printing them at the same width gives the text back. */
  lemma {:induction false} HexNumberRoundTrip(s: string)
    requires AllLowerHex(s)
    ensures AllHex(s) && HexDigits(HexNumber(s), |s|) == s
  {
    if |s| > 0 {
      var init := s[..|s| - 1];
      HexNumberRoundTrip(init);
      HexCharOfValue(s[|s| - 1]);
      var n := HexNumber(s);
      assert n / 16 == HexNumber(init) && n % 16 == HexValue(s[|s| - 1]);
      assert init + [s[|s| - 1]] == s;
    }
  }

  lemma Pow16Of32()
    ensures Pow16(Digits) == Limit
  {
    assert Pow16(8) == 0x1_0000_0000;
    assert Pow16(16) == Pow16(8) * Pow16(8) by { Pow16Add(8, 8); }
    assert Pow16(32) == Pow16(16) * Pow16(16) by { Pow16Add(16, 16); }
  }

  lemma {:induction false} Pow16Add(a: nat, b: nat)
    ensures Pow16(a + b) == Pow16(a) * Pow16(b)
  {
    if a > 0 {
      Pow16Add(a - 1, b);
    }
  }

  /** The 8-4-4-4-12 grouping of 32 digits. */
  function Group(h: string): (s: string)
    requires |h| == Digits
    ensures |s| == 36
  {
    h[..8] + "-" + h[8..12] + "-" + h[12..16] + "-" + h[16..20] + "-" + h[20..]
  }

  predicate HyphenatedShape(s: string) {
    |s| == 36 && s[8] == '-' && s[13] == '-' && s[18] == '-' && s[23] == '-'
  }

  /** The 32 digit positions of a hyphenated text. */
  function Ungroup(s: string): (h: string)
    requires |s| == 36
    ensures |h| == Digits
  {
    s[..8] + s[9..13] + s[14..18] + s[19..23] + s[24..]
  }

  lemma UngroupGroup(h: string)
    requires |h| == Digits
    ensures HyphenatedShape(Group(h)) && Ungroup(Group(h)) == h
  {
    var s := Group(h);
    assert s[..8] == h[..8];
    assert s[9..13] == h[8..12];
    assert s[14..18] == h[12..16];
    assert s[19..23] == h[16..20];
    assert s[24..] == h[20..];
    assert h[..8] + h[8..12] + h[12..16] + h[16..20] + h[20..] == h;
  }

  lemma GroupUngroup(s: string)
    requires HyphenatedShape(s)
    ensures Group(Ungroup(s)) == s
  {
    var h := Ungroup(s);
    assert h[..8] == s[..8];
    assert h[8..12] == s[9..13];
    assert h[12..16] == s[14..18];
    assert h[16..20] == s[19..23];
    assert h[20..] == s[24..];
    assert s == s[..8] + "-" + s[9..13] + "-" + s[14..18] + "-" + s[19..23] + "-" + s[24..];
  }

  /** `Uuid::to_string`: lower-case, hyphenated. */
  function Format(u: Uuid): (s: string)
    ensures HyphenatedShape(s)
  {
    var h := HexDigits(u, Digits);
    UngroupGroup(h);
    Group(h)
  }

  /** Exactly 32 hexadecimal digits, read as a UUID. */
  function ParseSimple(h: string): (r: Option<Uuid>)
    ensures r.Some? <==> |h| == Digits && AllHex(h)
  {
    if |h| == Digits && AllHex(h) then
      HexNumberBound(h);
      Pow16Of32();
      Some(HexNumber(h))
    else None
  }

  function ParseHyphenated(s: string): (r: Option<Uuid>)
    ensures r.Some? ==> HyphenatedShape(s)
  {
    if HyphenatedShape(s) then ParseSimple(Ungroup(s)) else None
  }

  /** `Uuid::parse_str` */
  function Parse(s: string): (r: Option<Uuid>)
    ensures |s| == 36 ==> r == ParseHyphenated(s)
    ensures r.Some? ==> |s| in {32, 36, 38, 45}
  {
    if |s| == 32 then ParseSimple(s)
    else if |s| == 36 then ParseHyphenated(s)
    else if |s| == 38 then
      if s[0] == '{' && s[37] == '}' then ParseHyphenated(s[1..37]) else None
    else if |s| == 45 then
      if s[..9] == UrnPrefix then ParseHyphenated(s[9..]) else None
    else None
  }

  /** Every UUID is read back from its printed form. */
  lemma FormatParse(u: Uuid)
    ensures Parse(Format(u)) == Some(u)
  {
    var h := HexDigits(u, Digits);
    UngroupGroup(h);
    Pow16Of32();
    HexDigitsRoundTrip(u, Digits);
  }

  /** A hyphenated lower-case text that parses is exactly the printed form of its value. */
  lemma ParseFormat(s: string)
    requires HyphenatedShape(s) && AllLowerHex(Ungroup(s))
    ensures Parse(s).Some? && Format(Parse(s).value) == s
  {
    var h := Ungroup(s);
    HexNumberRoundTrip(h);
    GroupUngroup(s);
  }

  /** Distinct UUIDs print differently. */
  lemma FormatInjective(u: Uuid, v: Uuid)
    requires Format(u) == Format(v)
    ensures u == v
  {
    FormatParse(u);
    FormatParse(v);
  }
}

=== FILE: webhooks.dfy ===
/**
 * The vendor's webhook endpoint. It answers at once, whatever the payload,
 * and hands the event to a background job; for "item/created" and
 * "item/updated" about an item that is "UPDATED" at the vendor and known
 * locally, the job runs the item sync on behalf of the item's owner. The
 * vendor's answers and the spawned task are parameters of the job.
 */
module Webhooks {
  import opened Wrappers
  import ItemSync
  import Uuids
  import Gregorian

  const Received := "Webhook recebido com sucesso"
  const ItemEventPrefix := "item/"
  const ItemCreated := "item/created"
  const ItemUpdated := "item/updated"

  datatype WebhookItem = WebhookItem(id: string, status: string, executionStatus: Option<string>)

  datatype Payload = Payload(event: string, eventId: Option<string>, itemId: Option<string>, item: Option<WebhookItem>)

  /** What the handler passes to the background job. */
  datatype Job = Job(event: string, itemId: Option<string>)

  datatype Acknowledgement = Acknowledgement(message: string)

  /** Why a job failed; `MissingItemId` carries the message "item_id não encontrado no webhook". */
  datatype JobError = MissingItemId | ItemUnavailable | SyncFailed(reason: ItemSync.Abort)

  /** The item a payload is about: the top-level `itemId`, else the nested item's id. */
  function ResolveItemId(p: Payload): (r: Option<string>)
    ensures r.None? <==> p.itemId.None? && p.item.None?
    ensures p.itemId.Some? ==> r == p.itemId
    ensures p.itemId.None? && p.item.Some? ==> r == Some(p.item.value.id)
  {
    if p.itemId.Some? then p.itemId
    else if p.item.Some? then Some(p.item.value.id)
    else None
  }

  datatype Handled = Handled(answer: Acknowledgement, job: Job)

  /** `handle_pluggy_webhook`: the acknowledgement and the job it spawns. */
  function Handle(p: Payload): (r: Handled)
    ensures r.answer.message == Received
    ensures r.job.event == p.event && r.job.itemId == ResolveItemId(p)
  {
    Handled(Acknowledgement(Received), Job(p.event, ResolveItemId(p)))
  }

  /** Every payload the JSON guard accepts gets the same acknowledgement, whatever its event and ids. */
  lemma AlwaysAcknowledged(p: Payload, q: Payload)
    ensures Handle(p).answer == Handle(q).answer
  {
  }

  predicate IsItemEvent(event: string) {
    ItemEventPrefix <= event
  }

  predicate TriggersSync(event: string) {
    event == ItemCreated || event == ItemUpdated
  }

  datatype Processed = Processed(db: ItemSync.Db, result: Result<(), JobError>)

  /**
   * `process_webhook_event`. `vendorStatus` is the status of the item the
   * vendor reports (`None` when that request fails); `remote` is what the
   * vendor answers during the sync.
   */
  function Process(db: ItemSync.Db, job: Job, vendorStatus: Option<string>, remote: ItemSync.Remote,
                   ids: nat -> Uuids.Uuid, now: int, today: Gregorian.Date): (r: Processed)
    ensures !IsItemEvent(job.event) ==> r == Processed(db, Success(()))
    ensures r.result == Failure(MissingItemId) <==> IsItemEvent(job.event) && job.itemId.None?
    ensures r.result == Failure(ItemUnavailable) <==>
              IsItemEvent(job.event) && job.itemId.Some? && TriggersSync(job.event) && vendorStatus.None?
    ensures r.db != db ==>
              TriggersSync(job.event) && job.itemId.Some? && vendorStatus == Some(ItemSync.UpdatedStatus)
              && job.itemId.value in db.items
    // Item events other than created/updated only log: Ok, nothing changes.
    ensures IsItemEvent(job.event) && job.itemId.Some? && !TriggersSync(job.event) ==> r == Processed(db, Success(()))
    // created/updated of an item not yet "UPDATED" at the vendor, or unknown locally: Ok, nothing changes.
    ensures TriggersSync(job.event) && job.itemId.Some? && vendorStatus.Some?
            && (vendorStatus.value != ItemSync.UpdatedStatus || job.itemId.value !in db.items) ==>
              r == Processed(db, Success(()))
    // Otherwise the item is synced on behalf of its owner, and the job fails exactly when the sync aborts.
    ensures TriggersSync(job.event) && job.itemId.Some? && vendorStatus == Some(ItemSync.UpdatedStatus)
            && job.itemId.value in db.items ==>
              var row := db.items[job.itemId.value];
              var s := ItemSync.Sync(db, remote, row.id, row.owner, ids, now, today);
              && r.db == s.db
              && (r.result.Success? <==> s.outcome.Completed?)
              && (s.outcome.Aborted? ==> r.result == Failure(SyncFailed(s.outcome.reason)))
  {
    if !IsItemEvent(job.event) then Processed(db, Success(()))
    else
      match job.itemId
      case None => Processed(db, Failure(MissingItemId))
      case Some(id) =>
        if !TriggersSync(job.event) then Processed(db, Success(()))
        else
          match vendorStatus
          case None => Processed(db, Failure(ItemUnavailable))
          case Some(status) =>
            if status != ItemSync.UpdatedStatus || id !in db.items then Processed(db, Success(()))
            else
              var row := db.items[id];
              var s := ItemSync.Sync(db, remote, row.id, row.owner, ids, now, today);
              match s.outcome
              case Completed => Processed(s.db, Success(()))
              case Aborted(reason) => Processed(s.db, Failure(SyncFailed(reason)))
  }

  /** Transactions a webhook adds belong to the owner of the item it names. */
  lemma WebhookRowsOwned(db: ItemSync.Db, job: Job, vendorStatus: Option<string>, remote: ItemSync.Remote,
                         ids: nat -> Uuids.Uuid, now: int, today: Gregorian.Date)
    ensures var r := Process(db, job, vendorStatus, remote, ids, now, today);
            forall y :: y in r.db.transactions && y !in db.transactions ==>
              job.itemId.Some? && job.itemId.value in db.items
              && r.db.transactions[y].owner == db.items[job.itemId.value].owner
  {
    var r := Process(db, job, vendorStatus, remote, ids, now, today);
    if r.db != db {
      var row := db.items[job.itemId.value];
      ItemSync.SyncKeepsTransactions(db, remote, row.id, row.owner, ids, now, today);
    }
  }

  /**
   * The vendor may deliver the same event twice: the second delivery, with
   * the same vendor answers, clock and date, leaves the database as the
   * first left it and reports the same result.
   */
  lemma RedeliveryIdempotent(db: ItemSync.Db, job: Job, vendorStatus: Option<string>, remote: ItemSync.Remote,
                             ids1: nat -> Uuids.Uuid, ids2: nat -> Uuids.Uuid, now: int, today: Gregorian.Date)
    ensures var once := Process(db, job, vendorStatus, remote, ids1, now, today);
            Process(once.db, job, vendorStatus, remote, ids2, now, today) == once
  {
    var once := Process(db, job, vendorStatus, remote, ids1, now, today);
    if IsItemEvent(job.event) && TriggersSync(job.event) && job.itemId.Some?
       && vendorStatus == Some(ItemSync.UpdatedStatus) && job.itemId.value in db.items {
      var id := job.itemId.value;
      var row := db.items[id];
      var s := ItemSync.Sync(db, remote, row.id, row.owner, ids1, now, today);
      assert once.db == s.db;
      assert id in once.db.items && once.db.items[id].id == row.id && once.db.items[id].owner == row.owner;
      ItemSync.SyncIdempotent(db, remote, row.id, row.owner, ids1, ids2, now, today);
    }
  }
}

=== FILE: wrappers.dfy ===
/** Failure-carrying result types shared by every module of the model. */
module Wrappers {

  /** A value that may be absent: `null`/`undefined` in the frontend, `Option` in the backend. */
  datatype Option<+T> = None | Some(value: T) {

    /** The wrapped value, or `default` when absent (Rust's `unwrap_or`). */
    function GetOr(default: T): T {
      match this
      case Some(v) => v
      case None => default
    }
  }

  /** The outcome of an operation that can fail with an error value. */
  datatype Result<+R, +E> = Success(value: R) | Failure(error: E)
}
